=== FILE: README.md ===
# InnoUni rules in Dafny

InnoUni is a learning platform. It has an Express/MySQL back end and plain-JavaScript dashboard pages. This project models the rules beneath its SQL and HTML, and proves what those rules promise.

The database is a class, `Schema.Database`. It holds one sequence per table and the AUTO_INCREMENT counters. Its invariant `Valid()` holds the UNIQUE and primary keys of `createTables`. Each write endpoint is a method that takes the `Database` and modifies it. The method checks its conditions in the order the handler does. It returns the handler's reply, and its contract states the new tables.

The modules, one per source file:

- `StudentApi`: enrolment, groups, progress, task completion and achievements, from `backend/api/student.js`.
- `AuthApi`: register, login, profile, password and verify, from `backend/api/auth.js`.
- `Access`: token check, role gates and dashboard type, from `backend/middleware/roleBased.js`.
- `TeacherApi`: course and task writes, and the two filtered queries, from `backend/api/teacher.js`.
- `DashboardApi`: stats defaults, the activity feed and recommendations, from `backend/api/dashboard.js`.
- `ServerRoutes`: the `/dashboard/:userId` route and the contact form, from `backend/server.js`.
- `Schema`: the tables, enums and defaults of `createTables`, from `backend/server.js`.
- `ApiClient`: the `ApiClient` class of `frontend/js/api.js`.
- `AuthHandler`: the session helpers of `frontend/js/authHandler.js`.
- `DashboardView`, `StudentView`, `TeacherView`: the decisions of the three dashboard scripts.

Some modules model no single source file:

- `Page`: the browser `window`, with `localStorage`, the path and where the page navigates.
- `Credentials`: the key bcryptjs derives from a password (its UTF-8 bytes and a NUL, repeated to 72 bytes), and JWT signing as claims, a validity window and a key.
- `Sorting`: a stable sort.
- `Common`: JavaScript truthiness, `String(n)`, `parseInt`, `split`, `trim` and `includes`.

Inputs the model takes as parameters:

- **Time.** JWT times (`iat`, `exp` and the clock they are checked against) are in epoch seconds; every other timestamp is in epoch milliseconds, and a `DATE` is a day number. `now` and `today` are passed in.
- **Randomness.** bcrypt salts are passed in.
- **The token text.** The decoding of a token's compact form is a function parameter.
- **The network.** What `fetch` returned is a parameter, and so is whether the mail was sent.
- **Read-only queries** that aggregate or join are not evaluated. Their result rows are inputs, and the model covers what the code does with them.

## Model

| member | source | states |
|---|---|---|
| Schema.ParseRole | InnoUni/backend/server.js:56 | accepts exactly 'student', 'teacher' and 'admin'; parsing back a role's name gives that role |
| Schema.RoleNameRoundTrip | InnoUni/backend/server.js:56 | parsing a role's name gives the role back; different roles have different names |
| Schema.ParseCourseStatus | InnoUni/backend/server.js:71 | accepts exactly 'active' and 'inactive'; round-trips with the status name |
| Schema.ParsePriority | InnoUni/backend/server.js:128 | accepts exactly 'low', 'medium' and 'high'; round-trips with the priority name |
| Schema.ParseTaskStatus | InnoUni/backend/server.js:129 | accepts exactly 'pending', 'in_progress' and 'completed'; round-trips with the status name |
| Schema.NewEnrollment | InnoUni/backend/server.js:107-116 | a new enrolment has progress 0.00 and status 'active' |
| Schema.NewTask | InnoUni/backend/server.js:122-131 | a new task is 'pending' and keeps the given id, course, assignee and priority |
| Schema.AppendFresh | InnoUni/backend/server.js:101 | appending a row whose key is not present keeps a UNIQUE key unique |
| Schema.UniqueCons | InnoUni/backend/server.js:101 | a list with a head row has unique keys iff the rest does and no other row holds the head's key |
| Schema.HasKeyCons | InnoUni/backend/server.js:101 | a list with a head row holds a key iff the head has it or the rest does |
| Schema.FreshId | InnoUni/backend/server.js:49 | a row carrying the next AUTO_INCREMENT id is new, and keeps ids unique and below the counter |
| Schema.ValidWithUsers | InnoUni/backend/server.js:48-58 | replacing the users table with unique ids and emails below the counter keeps every table constraint |
| Schema.Database.constructor | InnoUni/backend/server.js:44-172 | a fresh database has empty tables, and every key constraint holds |
| Schema.ValidWithCourses | InnoUni/backend/server.js:64-76 | replacing the courses table with unique ids below the counter keeps every table constraint |
| Access.ExtractToken | InnoUni/backend/middleware/roleBased.js:7-8 | a token is found iff the header is present and its second space-separated part is non-empty, and the token is that second part |
| Access.BearerHeaderToken | InnoUni/backend/middleware/roleBased.js:7-12 | the header 'Bearer t' yields exactly the token t |
| Access.AuthenticateToken | InnoUni/backend/middleware/roleBased.js:6-21 | no token gives 401 'Access token required'; a token that fails verification gives 403 'Invalid token'; otherwise the claims are passed on |
| Access.SignedTokenAuthenticates | InnoUni/backend/middleware/roleBased.js:14-20 | a token signed with the secret and used within 24 hours authenticates with its own claims |
| Access.JoinOr | InnoUni/backend/middleware/roleBased.js:33 | no role gives the empty text, one role gives itself, more start with the first and ' or ', and every role is named |
| Access.RequireRole | InnoUni/backend/middleware/roleBased.js:24-39 | no user gives 401; otherwise the request passes iff the role is listed, else 403 with the roles joined by ' or ' |
| Access.StudentOnly | InnoUni/backend/middleware/roleBased.js:42 | admits exactly 'student' |
| Access.TeacherOnly | InnoUni/backend/middleware/roleBased.js:45 | admits exactly 'teacher' and 'admin' |
| Access.AdminOnly | InnoUni/backend/middleware/roleBased.js:48 | admits exactly 'admin' |
| Access.StudentOrTeacher | InnoUni/backend/middleware/roleBased.js:51 | admits exactly the three roles |
| Access.GatesNeedAuthentication | InnoUni/backend/middleware/roleBased.js:26-28 | all four gates refuse an unauthenticated request alike |
| Access.GatesNest | InnoUni/backend/middleware/roleBased.js:42-51 | adminOnly implies teacherOnly; teacherOnly and studentOnly each imply studentOrTeacher; no role passes both studentOnly and teacherOnly |
| Access.GetUserDashboard | InnoUni/backend/middleware/roleBased.js:54-72 | the three roles get the dashboard type of the same name; any other role gets 403 'Invalid user role' |
| Credentials.CharUtf8 | InnoUni/backend/api/auth.js:59 | one character's UTF-8 bytes: one to four of them, the first telling how many, only NUL giving a zero byte, and decoding back to the character |
| Credentials.Utf8Injective | InnoUni/backend/api/auth.js:59 | different passwords have different UTF-8 bytes |
| Credentials.Cycle | InnoUni/backend/api/auth.js:59 | bytes repeated to a given length: the result has that length and begins with the bytes, as far as they fit |
| Credentials.CycleDoubled | InnoUni/backend/api/auth.js:59 | repeating a sequence written twice gives the same bytes as repeating it once |
| Credentials.KeyPrefix | InnoUni/backend/api/auth.js:59 | the key begins with the password's UTF-8 bytes and their NUL terminator, as far as 72 bytes hold them |
| Credentials.BcryptKey | InnoUni/backend/api/auth.js:59 | the key derived from a password is always 72 bytes long, whatever the password's length |
| Credentials.Hash | InnoUni/backend/api/auth.js:59 | the hash keeps the given salt and a 72-byte key |
| Credentials.LongPasswordKey | InnoUni/backend/api/auth.js:59 | of a password of 72 UTF-8 bytes or more, only the first 72 bytes make up the key |
| Credentials.Compare | InnoUni/backend/api/auth.js:105 | a hash that accepts a password is that password's hash under the stored salt |
| Credentials.KeyTerminator | InnoUni/backend/api/auth.js:59 | in the key of a short NUL-free password, the first zero byte is the terminator right after its bytes |
| Credentials.ShortPasswordsDistinct | InnoUni/backend/api/auth.js:105 | NUL-free passwords under 72 UTF-8 bytes with the same key are the same password |
| Credentials.CompareHash | InnoUni/backend/api/auth.js:58-59 | a password matches its own hash; another password matches iff it derives the same key, which for NUL-free passwords under 72 bytes means iff it is the same password |
| Credentials.TruncationCollision | InnoUni/backend/api/auth.js:59 | two different passwords that agree in their first 72 bytes match each other's hashes |
| Credentials.NulCollision | InnoUni/backend/api/auth.js:59 | "a", NUL, "a" matches the hash of "a": the key repeats the terminated password |
| Credentials.VerifyJwt | InnoUni/backend/middleware/roleBased.js:14-20 | a token verifies iff it was signed with the same secret and has not expired, and then gives back its claims |
| Credentials.Sign | InnoUni/backend/api/auth.js:119-128 | a signed token expires 24 hours after it was issued |
| Credentials.SignVerify | InnoUni/backend/api/auth.js:119-128 | a signed token verifies to its claims under the same secret for 24 hours, then never; it never verifies under another secret |
| AuthApi.Public | InnoUni/backend/api/auth.js:67-76 | the returned user record carries the id, email and role name, and no password |
| AuthApi.FindUserByEmail | InnoUni/backend/api/auth.js:44-51 | finds a user iff one has the email, and what it finds is that user |
| AuthApi.FindUserById | InnoUni/backend/api/auth.js:155-162 | finds a user iff one has the id, and what it finds is that user |
| AuthApi.FindUserByEmailUnique | InnoUni/backend/api/auth.js:95-104 | with unique emails, looking up a user's email finds that very user |
| AuthApi.FindUserByIdUnique | InnoUni/backend/api/auth.js:215-222 | with unique ids, looking up a user's id finds that very user |
| AuthApi.RegisterError | InnoUni/backend/api/auth.js:30-56 | the checks run in order: a missing field, then an invalid role, then a taken email, then a password under 8 UTF-16 code units; registration succeeds iff none applies |
| AuthApi.RegisterRoleDefault | InnoUni/backend/api/auth.js:30-41 | a missing role is accepted as 'student'; an empty role is not defaulted, because the destructuring default applies only to `undefined`, and it gives 400 'Invalid role specified' |
| AuthApi.NewUser | InnoUni/backend/api/auth.js:58-65 | the stored password is a hash the given password matches, and another password matches iff it derives the same bcrypt key (for NUL-free passwords under 72 bytes: only the given one); the given role is kept |
| AuthApi.Register | InnoUni/backend/api/auth.js:27-76 | on an error nothing changes; otherwise exactly one user is appended with the next id, the reply is 201 and the table keys stay valid |
| AuthApi.Login | InnoUni/backend/api/auth.js:87-142 | a missing field gives 400; an unknown email and a wrong password give the same 401; once the password verifies, a present role that differs from the account's gives 403 'Role mismatch' and anything else logs in; success signs {userId, email, role} |
| AuthApi.RegisteredUserLogsIn | InnoUni/backend/api/auth.js:100-128 | a stored user logs in with their password and no role or their own role, and gets a token for their own claims |
| AuthApi.LoginTokenAuthenticates | InnoUni/backend/api/auth.js:119-128 | the token a login hands out passes the token check within 24 hours, with the user's id, email and role |
| AuthApi.Profile | InnoUni/backend/api/auth.js:150-169 | the caller's full public record (everything but the password hash) when the id exists, otherwise 404 'User not found' |
| AuthApi.SetProfile | InnoUni/backend/api/auth.js:190-193 | only the caller's row changes, in exactly the four profile fields |
| AuthApi.SetProfileKeepsKeys | InnoUni/backend/api/auth.js:178-193 | when no other user holds the new email, emails and ids stay unique |
| AuthApi.UpdateProfile | InnoUni/backend/api/auth.js:172-200 | an email held by another user gives 400 and changes nothing; an unknown caller gets 200 and nothing changes; a missing name or email is bound as NULL, which the NOT NULL columns refuse: 500 with nothing changed; otherwise only the caller's row is updated, and the table keys stay valid |
| AuthApi.OwnEmailNotTaken | InnoUni/backend/api/auth.js:180-188 | the caller's own current email never counts as taken |
| AuthApi.SetPassword | InnoUni/backend/api/auth.js:234-237 | only the caller's password hash changes |
| AuthApi.SetPasswordKeepsKeys | InnoUni/backend/api/auth.js:230-237 | keys stay unique and the caller's row carries the new hash |
| AuthApi.PasswordChangeError | InnoUni/backend/api/auth.js:209-228 | a missing field gives 400, an unknown user 404 and a current password that does not match the stored hash 401; there is no error exactly when both fields are present, the user exists and the current password matches |
| AuthApi.NewPasswordStored | InnoUni/backend/api/auth.js:230-237 | storing the new password's hash for an existing user keeps every table constraint, and the new password matches the stored hash |
| AuthApi.ChangePassword | InnoUni/backend/api/auth.js:203-244 | on an error the reply is that error and nothing changes; otherwise 200, only the caller's hash is replaced by the new password's hash, and the new password matches it |
| AuthApi.Verify | InnoUni/backend/api/auth.js:247-256 | valid iff the token check passes, echoing its claims; a rejection is the token check's own 401 or 403 reply |
| StudentApi.MemberCount | InnoUni/backend/api/student.js:252-259 | the member count is zero iff no membership row names the group |
| StudentApi.OthersCount | InnoUni/backend/api/student.js:294-301 | never more than the group's member count |
| StudentApi.OthersCountOfMember | InnoUni/backend/api/student.js:294-301 | the other members of a group number one fewer than its members iff the caller is one |
| StudentApi.MemberCountAppend | InnoUni/backend/api/student.js:264-267 | appending a membership raises exactly that group's count by one |
| StudentApi.FindMember | InnoUni/backend/api/student.js:284-292 | finds a membership iff the (group, user) pair has one, and what it finds has that key |
| StudentApi.RemoveMember | InnoUni/backend/api/student.js:303-307 | the caller's membership is gone and every other row stays |
| StudentApi.RemoveMemberUnique | InnoUni/backend/api/student.js:303-307 | deleting a membership keeps (group, user) unique |
| StudentApi.RemoveMemberCount | InnoUni/backend/api/student.js:303-307 | deleting a membership lowers only that group's count |
| StudentApi.AppendKeepsCap | InnoUni/backend/api/student.js:259-267 | a membership appended to a group under 10 members keeps every group at 10 or fewer |
| StudentApi.RemoveKeepsCap | InnoUni/backend/api/student.js:303-307 | leaving keeps every group at 10 or fewer |
| StudentApi.RemoveMemberKeepsOthers | InnoUni/backend/api/student.js:306-309 | deleting one student's membership keeps the count of the group's other members |
| StudentApi.LeaderCanLeaveGroupLeaderless | InnoUni/backend/api/student.js:293-309 | when the student leaving is the group's only leader, all other members stay and none of them is a leader: the group is left without one |
| StudentApi.SetProgress | InnoUni/backend/api/student.js:340-345 | only the caller's enrolment changes: progress is set, and status is 'completed' iff progress is at least 100, else 'active' |
| StudentApi.MarkCompleted | InnoUni/backend/api/student.js:375-378 | only the task's status changes, to 'completed' |
| StudentApi.MarkCompletedIdempotent | InnoUni/backend/api/student.js:375-378 | completing a task twice is completing it once |
| StudentApi.CompletedCourses | InnoUni/backend/api/student.js:390-393 | a count of the caller's completed enrolments, never more than the rows |
| StudentApi.CompletedTasks | InnoUni/backend/api/student.js:400-403 | a count of the caller's completed tasks, never more than the rows |
| StudentApi.CompletedCoursesPointUpdate | InnoUni/backend/api/student.js:390-393 | changing one enrolment row moves the count by that row's change alone |
| StudentApi.CompletedTasksPointUpdate | InnoUni/backend/api/student.js:400-403 | changing one task row moves the count by that row's change alone |
| StudentApi.CompletingOwnTaskCountsOnce | InnoUni/backend/api/student.js:375-378 | completing one of the caller's tasks adds exactly one to the caller's completed tasks, or none when it was completed already |
| StudentApi.ProgressCountsOnce | InnoUni/backend/api/student.js:340-345 | setting a progress adds one completed course when it reaches 100 and takes one away when a completed course drops below 100; otherwise the count stays |
| StudentApi.AwardAchievement | InnoUni/backend/api/student.js:410-419 | INSERT IGNORE: the pair is present afterwards; a row is appended only when it was absent; keys stay unique |
| StudentApi.AwardKeepsKeys | InnoUni/backend/api/student.js:410-419 | an award already held stays held |
| StudentApi.CheckAchievements | InnoUni/backend/api/student.js:388-408 | id 4 is awarded iff it was held or 10 courses are completed, id 2 iff it was held or 100 tasks are completed; nothing else is added, nothing is removed, and keys stay unique |
| StudentApi.CheckAchievementsIdempotent | InnoUni/backend/api/student.js:388-419 | running the rules again, at any later time, awards nothing new |
| StudentApi.Enroll | InnoUni/backend/api/student.js:160-183 | an existing enrolment gives 400, checked before the course; a missing or inactive course gives 404; otherwise exactly one default enrolment is appended |
| StudentApi.CreateGroup | InnoUni/backend/api/student.js:200-214 | an empty or all-white-space name gives 400; otherwise one group with the trimmed name and one 'leader' membership for the creator are added |
| StudentApi.NewGroupKeepsValid | InnoUni/backend/api/student.js:205-214 | a new group under the next id with a member row for it keeps every table constraint |
| StudentApi.JoinGroup | InnoUni/backend/api/student.js:234-267 | already a member gives 400, a missing or inactive group 404, and 10 members 400; otherwise one 'member' row is added and the cap of 10 holds |
| StudentApi.RemoveMemberKeepsValid | InnoUni/backend/api/student.js:306-309 | deleting a membership keeps every table constraint |
| StudentApi.LeaveGroup | InnoUni/backend/api/student.js:284-309 | a non-member gets 400, and a leader with no other member 400; otherwise only the caller's row is deleted |
| StudentApi.UpdateProgressAsWritten | InnoUni/backend/api/student.js:327-348 | out-of-range progress gives 400 before the enrolment check, and no enrolment gives 400; otherwise the row is updated and the reply is 500 |
| StudentApi.UpdateProgress | InnoUni/backend/api/student.js:327-350 | as above, but the update is followed by the achievement rules and the reply is 200 |
| StudentApi.CompleteTask | InnoUni/backend/api/student.js:365-378 | a task not assigned to the caller gives 404 and changes nothing; otherwise only its status becomes 'completed' |
| TeacherApi.CreateCourse | InnoUni/backend/api/teacher.js:143-153 | a missing title or category gives 400; otherwise one 'active' course is appended, owned by the caller's token id |
| TeacherApi.SetCourse | InnoUni/backend/api/teacher.js:181-184 | only the course with the id changes; its owner and id stay, and its four fields are overwritten together |
| TeacherApi.UpdateCourse | InnoUni/backend/api/teacher.js:174-186 | a non-owner gets 403 and nothing changes; a missing title or a status outside the ENUM makes the UPDATE fail, 500 with nothing changed; otherwise the owner's update overwrites title, description, category and status |
| TeacherApi.UpdateTouchesOwnCourseOnly | InnoUni/backend/api/teacher.js:181-184 | every other course, and every course's owner, is unchanged |
| TeacherApi.CourseStudentsGate | InnoUni/backend/api/teacher.js:218-225 | passes iff the caller owns the course, else 403 'Access denied' |
| TeacherApi.CreateTask | InnoUni/backend/api/teacher.js:256-268 | a missing course or one the caller does not own gives 403; a missing title or a priority outside the ENUM gives 500; otherwise one 'pending' task is appended with the next id, and the assignee is not checked |
| TeacherApi.GradeTask | InnoUni/backend/api/teacher.js:328-344 | a non-owner gets 403; the owner gets taskId, grade and feedback echoed, and nothing is stored |
| TeacherApi.PlaceholdersAppend | InnoUni/backend/api/teacher.js:100-112 | the '?' count of joined query text is the sum of the parts' counts |
| TeacherApi.ConditionPlaceholder | InnoUni/backend/api/teacher.js:103-110 | each optional condition holds exactly one '?' |
| TeacherApi.Filters | InnoUni/backend/api/teacher.js:100-112 | one parameter per filter supplied, first filter first |
| TeacherApi.ConditionsMatchFilters | InnoUni/backend/api/teacher.js:100-112 | the added conditions hold exactly as many '?' as parameters were added |
| TeacherApi.CoursesQuery | InnoUni/backend/api/teacher.js:100-112 | parameters are [userId] followed by category, then status, each only when supplied; the query's conditions carry one '?' per added parameter |
| TeacherApi.TasksQuery | InnoUni/backend/api/teacher.js:297-309 | the same for status, then course_id, always ordered by due date ascending |
| DashboardApi.Column | InnoUni/backend/api/dashboard.js:77-101 | `rows[0]?.column`: a value only when the first row exists and has the column |
| DashboardApi.OrZero | InnoUni/backend/api/dashboard.js:77-101 | `|| 0`: a missing value becomes 0 |
| DashboardApi.Round | InnoUni/backend/api/dashboard.js:96 | `Math.round`: the nearest integer, halves rounded up |
| DashboardApi.DashboardStats | InnoUni/backend/api/dashboard.js:75-103 | each of the fourteen counters is its column in the first row, or 0 when the row or the column is missing; estimated_hours is that value rounded to the nearest integer; last_study_date has no fallback |
| DashboardApi.Tag | InnoUni/backend/api/dashboard.js:176-179 | each row keeps its place and gains its source's icon and colour |
| DashboardApi.ActivityLimit | InnoUni/backend/api/dashboard.js:117 | the limit defaults to 10 and is otherwise `parseInt` of the query value |
| DashboardApi.RecentActivity | InnoUni/backend/api/dashboard.js:113-192 | a NaN or negative limit gives 500; otherwise the result is newest first, is a prefix of the sorted merge, has length min(limit, total), and holds each merged item no more often than the merge does |
| DashboardApi.Merge | InnoUni/backend/api/dashboard.js:175-180 | the course, task, group and achievement rows in that order, each tagged with its source's icon and colour, and nothing else |
| DashboardApi.MergedItemsAreTaggedSourceRows | InnoUni/backend/api/dashboard.js:175-180 | every merged item is a row of one source, with that source's icon and colour |
| DashboardApi.FeedItemsAreTaggedSourceRows | InnoUni/backend/api/dashboard.js:175-186 | every returned item is a source row, with its own source's icon and colour |
| DashboardApi.FeedTiesKeepSourceOrder | InnoUni/backend/api/dashboard.js:175-186 | the items sharing a timestamp come in the order of the merge: courses, then tasks, groups and achievements, each in query order |
| DashboardApi.OverdueRows | InnoUni/backend/api/dashboard.js:230 | exactly the caller's pending tasks due strictly before today |
| DashboardApi.TopN | InnoUni/backend/api/dashboard.js:231-232 | `ORDER BY ... LIMIT n`: min(n, size) rows, ranked by key, a sub-multiset of the input (no row repeated beyond its input count), and none left out ranks above one kept |
| DashboardApi.OverdueTasks | InnoUni/backend/api/dashboard.js:227-233 | at most 3 eligible tasks, a sub-multiset of the eligible rows, soonest due first, and no eligible task left out is due sooner |
| DashboardApi.AvailableRows | InnoUni/backend/api/dashboard.js:250-257 | exactly the active groups the caller is not in that have fewer than 10 members |
| DashboardApi.WithCount | InnoUni/backend/api/dashboard.js:249-256 | each group is paired with its member count |
| DashboardApi.AvailableGroups | InnoUni/backend/api/dashboard.js:248-260 | at most 3 available groups with their counts, a sub-multiset of the eligible rows, most members first, and no available group left out has more members |
| DashboardApi.TopChoicesAreAvailable | InnoUni/backend/api/dashboard.js:248-257 | every row drawn from the counted available groups is an active group the caller is not in, with room left, paired with its real member count |
| DashboardApi.TopChoicesAreFullest | InnoUni/backend/api/dashboard.js:258-260 | when the kept rows outrank every counted row left out, no available group left out has more members than a kept one |
| DashboardApi.RecommendedGroupsAreJoinable | InnoUni/backend/api/dashboard.js:248-260 | a recommended group passes every check of join |
| DashboardApi.RecommendableRows | InnoUni/backend/api/dashboard.js:239-242 | exactly the active courses the caller is not enrolled in |
| DashboardApi.FirstCoursesAreARecommendation | InnoUni/backend/api/dashboard.js:236-245 | some valid answer exists: up to 3 distinct recommendable courses, as many as there are up to 3 |
| Sorting.SortDesc | InnoUni/backend/api/dashboard.js:183 | a permutation of the input, in descending key order |
| Sorting.SortDescStable | InnoUni/backend/api/dashboard.js:183 | items with equal keys keep their input order |
| ServerRoutes.RoleDispatch | InnoUni/backend/server.js:230-242 | 'student' gets the student page, 'teacher' and 'admin' the teacher page, any other role 403 |
| ServerRoutes.RoleDispatchAgreesWithDashboardType | InnoUni/backend/server.js:230-242 | the route serves a page exactly for the roles the middleware gives a dashboard type |
| ServerRoutes.DashboardRouteAsWritten | InnoUni/backend/server.js:219-225 | as written, every request gets 403 'Access denied' |
| ServerRoutes.OwnDashboardRefusedAsWritten | InnoUni/backend/server.js:223 | as written, a user is refused their own dashboard, which the corrected route serves |
| ServerRoutes.DashboardRoute | InnoUni/backend/server.js:217-242 | another user's id gives 403; the user's own id dispatches on the role |
| ServerRoutes.DashboardRouteOwnerOnly | InnoUni/backend/server.js:219-225 | a page is served for a path id iff it is the caller's own id and the role is known |
| ServerRoutes.SignedInUserReachesOwnDashboard | InnoUni/backend/server.js:217-242 | a student holding a fresh token reaches the student page at their own id |
| ServerRoutes.Contact | InnoUni/backend/server.js:250-297 | a missing field gives 400; otherwise 200 if the mail was sent and 500 if not |
| Page.Window.constructor | InnoUni/frontend/js/authHandler.js:46-151 | a page just loaded holds the given storage and path, with no navigation and no access-denied overlay |
| Page.GetItem | InnoUni/frontend/js/authHandler.js:116-118 | `localStorage.getItem`: the stored value, or null when the key is absent |
| ApiClient.AuthHeaders | InnoUni/frontend/js/api.js:28-30 | empty without a token, otherwise exactly {Authorization: 'Bearer ' + token} |
| ApiClient.AuthHeaderCarriesToken | InnoUni/frontend/js/api.js:28-30 | the server's token check reads back exactly the token the client sent |
| ApiClient.BuildConfig | InnoUni/frontend/js/api.js:35-42 | without caller headers: JSON content type plus the auth header; with caller headers: those alone |
| ApiClient.CallerHeadersDropAuthorization | InnoUni/frontend/js/api.js:35-42 | caller headers without Authorization send none, whatever token the client holds |
| ApiClient.ErrorMessage | InnoUni/frontend/js/api.js:48-50 | the body's error, or 'Request failed' when absent |
| ApiClient.Settle | InnoUni/frontend/js/api.js:44-56 | resolves with the body iff the response is ok; otherwise rejects with the error message or the thrown error |
| ApiClient.TokenRejectionsMentionToken | InnoUni/frontend/js/api.js:284-294 | both rejections of the server's token check mention 'token', so the client treats them as a lost session |
| ApiClient.BaseUrl | InnoUni/frontend/js/api.js:10-19 | the configured URL; otherwise localhost gives 'http://localhost:3000/api' and any other host '/api' |
| ApiClient.Client.constructor | InnoUni/frontend/js/api.js:3-7 | the base URL comes from the configuration, and the token from localStorage |
| ApiClient.Client.LoadConfig | InnoUni/frontend/js/api.js:10-19 | resets the base URL and keeps the token |
| ApiClient.Client.SetToken | InnoUni/frontend/js/api.js:22-25 | the token is in memory and in localStorage; a non-empty token makes the client authenticated |
| ApiClient.Client.Logout | InnoUni/frontend/js/api.js:80-83 | the token leaves localStorage and memory; the client is no longer authenticated |
| ApiClient.Client.Url | InnoUni/frontend/js/api.js:34 | the base URL followed by the endpoint |
| ApiClient.Client.Config | InnoUni/frontend/js/api.js:35-42 | the caller's verb and body are kept; the caller's headers are sent as given; without them the content type is JSON and an Authorization header is sent iff the client is authenticated, from which the server reads back the client's own token |
| ApiClient.Client.IsAuthenticated | InnoUni/frontend/js/api.js:270-272 | the client counts as authenticated exactly when its requests carry an Authorization header |
| ApiClient.Client.VerifyToken | InnoUni/frontend/js/api.js:274-281 | any failure logs out and passes the same error on; success changes nothing |
| ApiClient.Client.SafeRequest | InnoUni/frontend/js/api.js:284-294 | a failure mentioning 'token' logs out and goes to the login page; every failure is passed on; nothing else changes |
| AuthHandler.Permissions | InnoUni/frontend/js/authHandler.js:129-133 | a feature list exists exactly for the three roles |
| AuthHandler.PermissionTableShape | InnoUni/frontend/js/authHandler.js:129-133 | admin = teacher + 'manage-users'; the student and teacher lists share no feature |
| AuthHandler.CurrentRole | InnoUni/frontend/js/authHandler.js:116-118 | the stored role, or 'guest' when none or an empty one is stored |
| AuthHandler.CanAccess | InnoUni/frontend/js/authHandler.js:126-136 | a feature is open only under a stored role that has a permission list: 'student', 'teacher' or 'admin' |
| AuthHandler.HasRole | InnoUni/frontend/js/authHandler.js:94-97 | holds iff the stored role is exactly the given one; a non-empty role it holds for is the current role |
| AuthHandler.CanAccessByRole | InnoUni/frontend/js/authHandler.js:126-136 | no stored role grants nothing; what a teacher may use an admin may too; nothing a student may use is open to a teacher; an admin manages users and a teacher does not |
| AuthHandler.IsAuthenticatedAsWritten | InnoUni/frontend/js/authHandler.js:100-104 | as written, holds iff the token or the user is missing from storage |
| AuthHandler.IsAuthenticated | InnoUni/frontend/js/authHandler.js:100-104 | as intended, holds iff both the token and the user are stored |
| AuthHandler.IsAuthenticatedInverted | InnoUni/frontend/js/authHandler.js:100-104 | as written, the check holds exactly when the intended one fails: true with nothing stored, false with a session |
| AuthHandler.ProtectRouteAsWritten | InnoUni/frontend/js/authHandler.js:139-151 | with the inverted check: lets in exactly the visitors without a session who pass the role test |
| AuthHandler.ProtectRoute | InnoUni/frontend/js/authHandler.js:139-151 | no session sends the visitor to login; a missing required role shows access denied; otherwise the route is allowed and nothing changes |
| AuthHandler.ProtectRouteCounterexample | InnoUni/frontend/js/authHandler.js:100-104 | as written, a signed-in user is turned away and an anonymous visitor is let in |
| AuthHandler.ProtectRouteCorrected | InnoUni/frontend/js/authHandler.js:100-104 | corrected, the same two visitors are let in and turned away |
| AuthHandler.LogoutAsWritten | InnoUni/frontend/js/authHandler.js:46-75 | the session keys are removed and the page goes to login, but the logout request is never made |
| AuthHandler.Logout | InnoUni/frontend/js/authHandler.js:46-75 | as above, and a stored token is sent, in the Authorization header, to POST /auth/logout |
| AuthHandler.DashboardPath | InnoUni/frontend/js/authHandler.js:87-89 | '/dashboard/' followed by the user's id |
| AuthHandler.RedirectToDashboard | InnoUni/frontend/js/authHandler.js:77-91 | nothing happens on a path containing '/dashboard/'; otherwise the page goes to '/dashboard/{userId}', whatever the role |
| AuthHandler.RedirectTargetIsOwnDashboard | InnoUni/frontend/js/authHandler.js:77-91 | the redirect target is a dashboard path, and the server route serves it by the user's own role |
| DashboardView.FormatTime | InnoUni/frontend/js/dashboard.js:604-623 | under a minute 'Hozirgina'; then whole minutes, hours or days 'oldin' below 60, 24 and 7; then the locale date |
| DashboardView.FormatTimeCountsWholeUnits | InnoUni/frontend/js/dashboard.js:604-623 | the number shown reads back with parseInt as the count n of whole units, with n units <= elapsed < n + 1 units |
| DashboardView.QuickActionPage | InnoUni/frontend/js/dashboard.js:196-213 | a page exactly for the three navigating titles |
| DashboardView.HandleQuickAction | InnoUni/frontend/js/dashboard.js:196-218 | three titles navigate, 'Statistika' shows the stats, and any other title changes nothing |
| DashboardView.BellBadge | InnoUni/frontend/js/dashboard.js:179-194 | a badge exactly when overdue tasks are listed, and it reads back as their count |
| DashboardView.BadgeShowsServerOverdueCount | InnoUni/frontend/js/dashboard.js:184-192 | with the server's recommendations, a badge appears iff the caller has an overdue task, and it shows at most 3 |
| DashboardView.SearchResults | InnoUni/frontend/js/dashboard.js:252-268 | each heading counts every result; each list shows the first 3 |
| DashboardView.SearchHeadingCountsHiddenResults | InnoUni/frontend/js/dashboard.js:252-262 | with more than 3 courses, the list shows 3 but the heading counts all |
| StudentView.PriorityLabel | InnoUni/frontend/js/studentDashboard.js:584-591 | the three stored priorities become Past, O'rta and Yuqori; any other value is shown unchanged |
| StudentView.PriorityLabelsTranslate | InnoUni/frontend/js/studentDashboard.js:584-591 | every stored priority is translated, and no two share a label |
| StudentView.StatusLabel | InnoUni/frontend/js/studentDashboard.js:593-600 | the three stored task statuses become Kutilmoqda, Jarayonda and Bajarilgan; any other value is shown unchanged |
| StudentView.StatusLabelsTranslate | InnoUni/frontend/js/studentDashboard.js:593-600 | every stored status is translated, and no two share a label |
| StudentView.IsOverdue | InnoUni/frontend/js/studentDashboard.js:602-604 | the due instant lies before now: on an earlier day, or earlier on the same day |
| StudentView.DueDayOverdue | InnoUni/frontend/js/studentDashboard.js:602-604 | a due date is shown overdue iff it is before today, or it is today and midnight has passed |
| StudentView.ServerOverdueIsShownOverdue | InnoUni/frontend/js/studentDashboard.js:602-604 | a task the server counts overdue is marked overdue on its card |
| StudentView.DueTodayShownOverdueEarly | InnoUni/frontend/js/studentDashboard.js:602-604 | on the due day itself the card marks a task overdue that the server does not |
| StudentView.FormatDate | InnoUni/frontend/js/studentDashboard.js:606-621 | 0 days 'Bugun', 1 day 'Kecha', any other count below 7 (negatives included) '{d} kun oldin', otherwise the locale date; the teacher script's `formatDate` (frontend/js/teacherDashboard.js:604-619) is the same function |
| StudentView.FutureDateShowsNegativeDays | InnoUni/frontend/js/studentDashboard.js:606-621 | a date k days ahead (rounded up) shows as '-k kun oldin' |
| StudentView.FormatDateAgreesWithFormatTime | InnoUni/frontend/js/studentDashboard.js:606-621 | from two days back on, the card's date reads the same as the shared dashboard's relative time |
| StudentView.TaskCardButton | InnoUni/frontend/js/studentDashboard.js:294-301 | a disabled 'Bajarilgan' button iff the status is 'completed'; otherwise the button completing this task |
| StudentView.CompletedTaskLosesItsButton | InnoUni/frontend/js/studentDashboard.js:294-301 | once the server completes a task, its card loses the complete button, and other cards keep theirs |
| TeacherView.StatusLabel | InnoUni/frontend/js/teacherDashboard.js:578-584 | 'active' becomes Faol and 'inactive' Faol emas; any other value is shown unchanged |
| TeacherView.StatusLabelsTranslate | InnoUni/frontend/js/teacherDashboard.js:578-584 | both stored statuses are translated, to different labels |
| TeacherView.ActivityIcon | InnoUni/frontend/js/teacherDashboard.js:586-593 | the three known types get their icons; anything else 'fa-info-circle' |
| TeacherView.ActivityVerb | InnoUni/frontend/js/teacherDashboard.js:595-602 | the three known types get yozildi, bajarildi and tugatdi; anything else "amalga o'tdi" |
| TeacherView.ActivityPresentationDeterminesType | InnoUni/frontend/js/teacherDashboard.js:586-602 | a known type never gets a fallback, and its icon or verb alone identifies it |
| TeacherView.HandleQuickAction | InnoUni/frontend/js/teacherDashboard.js:310-332 | three actions open their modal, 'manage-tasks' goes to the task page, and anything else changes nothing |
| Common.Take | InnoUni/frontend/js/dashboard.js:251 | `slice(0, n)`: the first min(n, length) items |
| Common.NatToString | InnoUni/backend/server.js:223 | a non-empty string of decimal digits |
| Common.DigitsValueOfNatToString | InnoUni/backend/server.js:223 | the digits rendered for a number read back as that number |
| Common.IntToString | InnoUni/frontend/js/studentDashboard.js:617 | a non-empty string that starts with '-' iff the number is negative |
| Common.ParseInt | InnoUni/backend/api/dashboard.js:186 | `parseInt`: NaN iff no digit follows the leading white space and an optional sign |
| Common.DigitPrefix | InnoUni/backend/api/dashboard.js:186 | the longest run of digits at the head of the text |
| Common.NatToStringInjective | InnoUni/backend/server.js:223 | different ids render as different strings |
| Common.ParseIntOfNatToString | InnoUni/frontend/js/dashboard.js:190 | `parseInt` reads back the decimal rendering of a number, such as the badge count |
| Common.ParseIntOfNatThen | InnoUni/frontend/js/dashboard.js:614-619 | `parseInt` reads back a rendered number at the head of a text that goes on with a non-digit |
| Common.Split | InnoUni/backend/middleware/roleBased.js:8 | `split(sep)`: at least one part, and no part holds the separator |
| Common.SplitWithoutSeparator | InnoUni/backend/middleware/roleBased.js:8 | a text without the separator splits into itself alone |
| Common.SplitAtFirstSeparator | InnoUni/backend/middleware/roleBased.js:8 | splitting at a separator yields the text before it, then the split of the rest |
| Common.Utf16Length | InnoUni/backend/api/auth.js:54 | `length` counts UTF-16 code units: at least one and at most two per character, exactly one each iff no character lies beyond U+FFFF |
| Common.Utf16LengthOfAstral | InnoUni/backend/api/auth.js:54 | four emoji have length 8, so they pass the 8-character check |
| Common.Trim | InnoUni/backend/api/student.js:200-207 | the result is the input without its leading and trailing white space, and it is empty exactly when the input is all white space |
| Common.TrimStart | InnoUni/backend/api/dashboard.js:186 | the input without its leading white space |
| Common.TrimEnd | InnoUni/backend/api/student.js:200 | the input without its trailing white space |

## Left out

- The SQL engine itself is not modelled. Joins, aggregates (`COUNT`, `AVG`, `SUM`), `CURDATE()` arithmetic, `ORDER BY RAND()`, foreign-key enforcement, collation and time zones are left out. Read-only aggregate queries are inputs; the rows of the tables they read are not.
- The mysql2 driver is not modelled: its refusal of `undefined` bind values, and its DECIMAL columns arriving as strings.
- Request body fields are taken to be strings or absent. A JSON number, boolean or object is not an input of the model: a numeric `password`, for instance, has no `length`, passes the length test, and makes bcrypt throw, so the source answers 500 (`backend/api/auth.js:54-60`).
- AuthApi.Register, AuthApi.UpdateProfile, StudentApi.CreateGroup, TeacherApi.CreateCourse, TeacherApi.UpdateCourse, TeacherApi.CreateTask: an absent body field is bound as NULL. mysql2's `execute` refuses an `undefined` bind value, so in the source such a request (a register without `phone`, a profile update without `bio`) is answered 500 and changes nothing. JSON `null`, which does bind NULL, cannot be told apart from an absent field in the model.
- StudentApi.UpdateProgressAsWritten, StudentApi.UpdateProgress: `progress` is a number. An absent progress (refused by mysql2: 500), `null` (stored as NULL, status 'active'), a numeric string and the DECIMAL(5,2) rounding of the stored value (99.996 is stored as 100.00 while the status stays 'active') are not modelled.
- Credentials.Hash, Credentials.Compare: the Blowfish rounds are not modelled. A hash keeps the derived key itself, so the model does not capture that a hash hides the password, and it treats two different keys as never giving the same hash.
- Credentials.CompareHash, AuthApi.NewUser: no longer promise that only the given password matches its hash. Passwords that share their first 72 UTF-8 bytes, and passwords whose NUL-terminated bytes repeat to the same 72 bytes, match each other.
- Some SQL text names columns the schema lacks: `t.updated_at`, `course_enrollments.created_at`, and the alias `CE` where only `ce` is defined. On a database made by `createTables`, the stats and activity endpoints would therefore reply 500. The model takes those queries' rows as given.
- The student and teacher `GET /dashboard/:userId` endpoints, `GET /progress/:userId` and the teacher library and analytics reads are left out: they only aggregate.
- The course-material upload stub (`backend/api/teacher.js:196-208`) is left out: it stores nothing and always answers with the same message.
- `parseInt` is modelled for decimal digits only. Hexadecimal prefixes and radix arguments are left out.
- `ApiClient.BaseUrl`: a loaded `window.config` without `apiBaseUrl` gives `undefined` in the source. The model takes the configured value as given.
- Label tables keyed by names inherited from `Object.prototype` (such as 'constructor') are left out. The model treats every other value as absent from the table.
- DOM rendering, CSS, event listeners, notifications and modal contents are left out. So are `checkAuthStatus`, `setupAuthListeners`, the canvas chart and the contents of the "Statistika" view. Navigation is modelled only as the page the window goes to.
- Promise timing and concurrency are left out: each request is one atomic step, and the `try/catch` around a modal is not modelled.
- A null timestamp or due date is left out; `new Date(null)` arithmetic is not modelled.
- `toLocaleDateString('uz-UZ')` is a library call, given as a string parameter.
- Two source defects the language cannot express are left out: the duplicate declaration at `backend/server.js:205`, and the unescaped quote in `'A'zo'` at `frontend/js/studentDashboard.js:243`.
- Static file serving, the `req.db` middleware and the catch-all `index.html` route of `backend/server.js` are left out. So is the `createTables` call at start-up, beyond the empty database it leaves.
- The stats query counts a pending task due today as overdue (`<=` at `backend/api/dashboard.js:25`), while the recommendations count only earlier days. The model takes that count as given (`DashboardApi.DashboardStats`); `DashboardApi.OverdueRows` follows the recommendations.
- `TeacherApi.CoursesQuery`, `TeacherApi.TasksQuery`: the query text and its parameters are modelled, but not the rows MySQL returns for them.

## Findings

| source | as written | input that shows it | evidently intended | confidence | as-written member | corrected member |
|---|---|---|---|---|---|---|
| InnoUni/backend/api/student.js:348 | `this.checkAchievements(...)` inside a module-level arrow function, where `this` is the empty `module.exports`. The call throws after the UPDATE, so the reply is 500 with the progress already stored. The helper's own `this.awardAchievement` calls (lines 396, 406) would fail the same way. | a valid progress of 50 from an enrolled student | call the helpers directly: progress saved, achievements checked, reply 200 | not executed | StudentApi.UpdateProgressAsWritten | StudentApi.UpdateProgress |
| InnoUni/backend/server.js:223 | `userId !== tokenUserId` compares the path string with the numeric claim, so it is always true | user 5 requesting `/dashboard/5` gets 403 | compare the id's text, or convert the path id to a number | not executed | ServerRoutes.DashboardRouteAsWritten, ServerRoutes.OwnDashboardRefusedAsWritten | ServerRoutes.DashboardRoute |
| InnoUni/frontend/js/authHandler.js:100-104 | `!!(token === null \|\| user === null)` is true when the session is missing | empty localStorage passes `protectRoute`, while a stored token and user are sent to login | `token !== null && user !== null` | not executed | AuthHandler.IsAuthenticatedAsWritten, AuthHandler.ProtectRouteCounterexample | AuthHandler.IsAuthenticated, AuthHandler.ProtectRouteCorrected |
| InnoUni/frontend/js/authHandler.js:46-69 | the token is read after `removeItem('token')`, so it is always null and the logout request is never sent | a stored token 'abc' | read the token before clearing storage and send it to `/auth/logout` | not executed | AuthHandler.LogoutAsWritten | AuthHandler.Logout |

=== FILE: access.dfy ===
/** The access-control middleware of InnoUni/backend/middleware/roleBased.js:
    bearer-token authentication, the role gates built by `requireRole`, and the
    role-to-dashboard-type switch. The same `authenticateToken` is also declared
    in InnoUni/backend/api/auth.js:9-24 and InnoUni/backend/server.js:181-196;
    the three are identical and are modelled once here. */
module Access {
  import opened Common
  import opened Credentials

  /** `authHeader && authHeader.split(' ')[1]`, made falsy-aware: the token, or
      None when the header is missing or empty or its second part is missing or empty. */
  function ExtractToken(header: Option<string>): (token: Option<string>)
    ensures token.Some? ==> token.value != "" && ' ' !in token.value
    ensures token.Some? ==> header.Some? && |Split(header.value, ' ')| >= 2
    ensures token.Some? <==>
              Truthy(header) && |Split(header.value, ' ')| >= 2 && Split(header.value, ' ')[1] != ""
    ensures token.Some? ==> token.value == Split(header.value, ' ')[1]
  {
    if !Truthy(header) then None
    else
      var parts := Split(header.value, ' ');
      if |parts| < 2 || parts[1] == "" then None else Some(parts[1])
  }

  /** The header the client builds (`Bearer ${token}`) yields exactly that token. */
  lemma BearerHeaderToken(token: string)
    requires token != "" && ' ' !in token
    ensures ExtractToken(Some("Bearer " + token)) == Some(token)
  {
    assert "Bearer " + token == "Bearer" + [' '] + token;
    SplitAtFirstSeparator("Bearer", ' ', token);
    SplitWithoutSeparator(token, ' ');
  }

  /** What the middleware does with a request: pass it on with `req.user` set, or reply. */
  datatype AuthOutcome = Authenticated(user: Claims) | Rejected(reply: Reply)

  /** `authenticateToken`. `decode` stands for jsonwebtoken's parsing of the
      compact token string; `now` is the clock in seconds. */
  function AuthenticateToken(header: Option<string>, decode: string -> Option<Jwt>,
                             secret: string, now: int): (r: AuthOutcome)
    ensures ExtractToken(header).None? <==> r == Rejected(Fail(401, "Access token required"))
    ensures r.Rejected? && ExtractToken(header).Some? ==> r == Rejected(Fail(403, "Invalid token"))
    ensures r.Authenticated? <==>
              (ExtractToken(header).Some? && decode(ExtractToken(header).value).Some? &&
               VerifyJwt(decode(ExtractToken(header).value).value, secret, now).Some?)
    ensures r.Authenticated? ==>
              Some(r.user) == VerifyJwt(decode(ExtractToken(header).value).value, secret, now)
  {
    match ExtractToken(header)
    case None => Rejected(Fail(401, "Access token required"))
    case Some(token) =>
      match decode(token)
      case None => Rejected(Fail(403, "Invalid token"))
      case Some(jwt) =>
        match VerifyJwt(jwt, secret, now)
        case None => Rejected(Fail(403, "Invalid token"))
        case Some(claims) => Authenticated(claims)
  }

  /** A token signed with the server's secret, sent as `Bearer <token>` within
      24 hours of signing, authenticates to the claims it was signed with. */
  lemma SignedTokenAuthenticates(claims: Claims, secret: string, signedAt: int, now: int,
                                 encoded: string, decode: string -> Option<Jwt>)
    requires encoded != "" && ' ' !in encoded
    requires decode(encoded) == Some(Sign(claims, secret, signedAt))
    requires signedAt <= now < signedAt + 86400
    ensures AuthenticateToken(Some("Bearer " + encoded), decode, secret, now) == Authenticated(claims)
  {
    BearerHeaderToken(encoded);
    SignVerify(claims, secret, secret, signedAt, now);
  }

  // ---------------------------------------------------------------------------

  /** `roles.join(' or ')`: a single role is itself, and every role is named. */
  function JoinOr(roles: seq<string>): (r: string)
    ensures roles == [] ==> r == ""
    ensures |roles| == 1 ==> r == roles[0]
    ensures |roles| >= 2 ==> StartsWith(r, roles[0] + " or ")
    ensures forall i :: 0 <= i < |roles| ==> Contains(r, roles[i])
  {
    if |roles| == 0 then ""
    else if |roles| == 1 then
      ContainsPrefix(roles[0], "");
      assert roles[0] + "" == roles[0];
      roles[0]
    else
      var rest := JoinOr(roles[1..]);
      var r := roles[0] + " or " + rest;
      ContainsPrefix(roles[0], " or " + rest);
      assert roles[0] + (" or " + rest) == r;
      assert forall i :: 1 <= i < |roles| ==> Contains(r, roles[i]) by {
        forall i | 1 <= i < |roles|
          ensures Contains(r, roles[i])
        {
          assert roles[i] == roles[1..][i - 1];
          ContainsAfter(roles[0] + " or ", rest, roles[i]);
        }
      }
      r
  }

  /** What a gate does: call `next()`, or reply. */
  datatype Gate = Next | Deny(reply: Reply)

  /** `requireRole(roles)` applied to `req.user`. */
  function RequireRole(roles: seq<string>, user: Option<Claims>): (g: Gate)
    ensures user.None? ==> g == Deny(Fail(401, "Authentication required"))
    ensures user.Some? ==> (g == Next <==> user.value.role in roles)
    ensures user.Some? && user.value.role !in roles ==>
              g == Deny(Failure(403, "Access denied", "This resource requires " + JoinOr(roles) + " role"))
  {
    if user.None? then Deny(Fail(401, "Authentication required"))
    else if user.value.role !in roles then
      Deny(Failure(403, "Access denied", "This resource requires " + JoinOr(roles) + " role"))
    else Next
  }

  const StudentRoles: seq<string> := ["student"]
  const TeacherRoles: seq<string> := ["teacher", "admin"]
  const AdminRoles: seq<string> := ["admin"]
  const AllRoles: seq<string> := ["student", "teacher", "admin"]

  function StudentOnly(user: Option<Claims>): (g: Gate)
    ensures user.Some? ==> (g == Next <==> user.value.role == "student")
    ensures user.Some? && g != Next ==>
              g == Deny(Failure(403, "Access denied", "This resource requires student role"))
  {
    assert JoinOr(StudentRoles) == "student";
    assert "This resource requires " + JoinOr(StudentRoles) + " role" == "This resource requires student role";
    RequireRole(StudentRoles, user)
  }

  /** Admits teachers and also admins. */
  function TeacherOnly(user: Option<Claims>): (g: Gate)
    ensures user.Some? ==> (g == Next <==> user.value.role == "teacher" || user.value.role == "admin")
    ensures user.Some? && g != Next ==>
              g == Deny(Failure(403, "Access denied", "This resource requires teacher or admin role"))
  {
    assert TeacherRoles[1..] == AdminRoles;
    assert JoinOr(TeacherRoles) == "teacher or admin";
    assert "This resource requires " + JoinOr(TeacherRoles) + " role"
        == "This resource requires teacher or admin role";
    RequireRole(TeacherRoles, user)
  }

  function AdminOnly(user: Option<Claims>): (g: Gate)
    ensures user.Some? ==> (g == Next <==> user.value.role == "admin")
  {
    RequireRole(AdminRoles, user)
  }

  /** Despite its name, admits all three roles. */
  function StudentOrTeacher(user: Option<Claims>): (g: Gate)
    ensures user.Some? ==> (g == Next <==> user.value.role in {"student", "teacher", "admin"})
  {
    RequireRole(AllRoles, user)
  }

  /** Every gate turns away a request that carries no user with 401. */
  lemma GatesNeedAuthentication()
    ensures StudentOnly(None) == TeacherOnly(None) == AdminOnly(None) == StudentOrTeacher(None)
         == Deny(Fail(401, "Authentication required"))
  {
  }

  /** The gates nest: admin-only admits fewer than teacher-only, which admits
      fewer than student-or-teacher; student-only and admin-only never both pass. */
  lemma GatesNest(c: Claims)
    ensures AdminOnly(Some(c)) == Next ==> TeacherOnly(Some(c)) == Next
    ensures TeacherOnly(Some(c)) == Next ==> StudentOrTeacher(Some(c)) == Next
    ensures StudentOnly(Some(c)) == Next ==> StudentOrTeacher(Some(c)) == Next
    ensures !(StudentOnly(Some(c)) == Next && TeacherOnly(Some(c)) == Next)
  {
  }

  // ---------------------------------------------------------------------------

  /** `getUserDashboard`: sets `req.dashboardType`, or replies 403. */
  datatype DashboardChoice = DashboardType(kind: string) | InvalidRole(reply: Reply)

  function GetUserDashboard(user: Claims): (d: DashboardChoice)
    ensures user.role in {"student", "teacher", "admin"} <==> d.DashboardType?
    ensures d.DashboardType? ==> d.kind == user.role
    ensures d.InvalidRole? ==> d.reply == Fail(403, "Invalid user role")
  {
    match user.role
    case "student" => DashboardType("student")
    case "teacher" => DashboardType("teacher")
    case "admin" => DashboardType("admin")
    case _ => InvalidRole(Fail(403, "Invalid user role"))
  }
}

=== FILE: api_client.dfy ===
/** The `ApiClient` of InnoUni/frontend/js/api.js: the base URL choice, the
    token it keeps in memory and in `localStorage`, the headers and the
    request configuration it builds, and what it does with a failed request.
    `fetch` is I/O: the response it produced is a parameter. */
module ApiClient {
  import opened Common
  import opened Page
  import Access
  import Credentials

  /** Header name to value; a later spread overrides an earlier one, as map `+` does. */
  type Headers = map<string, string>

  const JsonContentType: Headers := map["Content-Type" := "application/json"]

  /** `getAuthHeaders()` for the client's token. */
  function AuthHeaders(token: Option<string>): (h: Headers)
    ensures !Truthy(token) ==> h == map[]
    ensures Truthy(token) ==> h.Keys == {"Authorization"} && h["Authorization"] == "Bearer " + token.value
  {
    if Truthy(token) then map["Authorization" := "Bearer " + token.value] else map[]
  }

  /** The server reads back the very token the client put in the header. */
  lemma AuthHeaderCarriesToken(token: string)
    requires token != "" && ' ' !in token
    ensures Access.ExtractToken(Some(AuthHeaders(Some(token))["Authorization"])) == Some(token)
  {
    Access.BearerHeaderToken(token);
  }

  /** The `options` argument of `request`; `verb` is its `method` field. */
  datatype Options = Options(verb: Option<string>, body: Option<string>, headers: Option<Headers>)

  /** The `config` handed to `fetch`. */
  datatype RequestConfig = RequestConfig(verb: Option<string>, body: Option<string>, headers: Headers)

  /** `{ headers: { 'Content-Type': ..., ...auth, ...options.headers }, ...options }`:
      the trailing spread of `options` puts back `options.headers` when it is
      given, so the merged headers are used only when it is not. */
  function BuildConfig(token: Option<string>, options: Options): (c: RequestConfig)
    ensures c.verb == options.verb && c.body == options.body
    ensures options.headers.Some? ==> c.headers == options.headers.value
    ensures options.headers.None? ==>
              c.headers.Keys == {"Content-Type"} + AuthHeaders(token).Keys &&
              c.headers["Content-Type"] == "application/json" &&
              ("Authorization" in c.headers <==> Truthy(token)) &&
              (Truthy(token) ==> c.headers["Authorization"] == "Bearer " + token.value)
  {
    var merged := JsonContentType + AuthHeaders(token) + (if options.headers.Some? then options.headers.value else map[]);
    RequestConfig(options.verb, options.body, if options.headers.Some? then options.headers.value else merged)
  }

  /** Headers passed by the caller replace the JSON content type and the
      client's own authorization: a caller that omits `Authorization` sends
      none, whatever token the client holds. */
  lemma CallerHeadersDropAuthorization(token: Option<string>, options: Options)
    requires options.headers.Some? && "Authorization" !in options.headers.value
    ensures "Authorization" !in BuildConfig(token, options).headers
    ensures "Content-Type" in BuildConfig(token, options).headers <==> "Content-Type" in options.headers.value
  {
  }

  /** What `fetch` and `response.json()` produced: a thrown error, or a
      response with its `ok` flag and the string fields of its JSON body. */
  datatype Response = Thrown(message: string) | HttpResponse(ok: bool, body: map<string, string>)

  /** How the promise returned by `request` settles. */
  datatype Outcome = Resolved(data: map<string, string>) | Rejected(message: string)

  /** `data.error || 'Request failed'`. */
  function ErrorMessage(body: map<string, string>): (m: string)
    ensures "error" in body && body["error"] != "" ==> m == body["error"]
    ensures !("error" in body && body["error"] != "") ==> m == "Request failed"
  {
    if "error" in body && body["error"] != "" then body["error"] else "Request failed"
  }

  /** The settling of `request`: the body of an ok response, otherwise an error
      carrying the body's `error` field or the thrown error's message. */
  function Settle(response: Response): (o: Outcome)
    ensures o.Resolved? <==> response.HttpResponse? && response.ok
    ensures o.Resolved? ==> o.data == response.body
    ensures response.Thrown? ==> o == Rejected(response.message)
    ensures response.HttpResponse? && !response.ok ==> o == Rejected(ErrorMessage(response.body))
  {
    match response
    case Thrown(m) => Rejected(m)
    case HttpResponse(ok, body) => if ok then Resolved(body) else Rejected(ErrorMessage(body))
  }

  /** A failure reply of the server, as the client sees its JSON body. */
  function ReplyBody(reply: Reply): map<string, string>
  {
    match reply
    case Success(_, m) => map["message" := m]
    case Created(_, m, _) => map["message" := m]
    case Failure(_, e, m) => if m == "" then map["error" := e] else map["error" := e, "message" := m]
  }

  /** Both rejections of `authenticateToken` mention the token, so
      `safeRequest` treats them as a lost session. */
  lemma TokenRejectionsMentionToken(header: Option<string>, decode: string -> Option<Credentials.Jwt>,
                                    secret: string, now: int)
    requires Access.AuthenticateToken(header, decode, secret, now).Rejected?
    ensures var reply := Access.AuthenticateToken(header, decode, secret, now).reply;
            Settle(HttpResponse(false, ReplyBody(reply))) == Rejected(reply.error) &&
            Contains(reply.error, "token")
  {
    assert "Access token required" == "Access " + ("token" + " required");
    ContainsPrefix("token", " required");
    ContainsAfter("Access ", "token" + " required", "token");
    assert "Invalid token" == "Invalid " + ("token" + "");
    ContainsPrefix("token", "");
    ContainsAfter("Invalid ", "token" + "", "token");
  }

  const LocalBaseUrl := "http://localhost:3000/api"
  const RelativeBaseUrl := "/api"

  /** `loadConfig`: `window.config.apiBaseUrl` when a configuration is loaded,
      otherwise chosen by the host name. */
  function BaseUrl(configured: Option<string>, hostname: string): (url: string)
    ensures configured.Some? ==> url == configured.value
    ensures configured.None? && hostname == "localhost" ==> url == LocalBaseUrl
    ensures configured.None? && hostname != "localhost" ==> url == RelativeBaseUrl
  {
    if configured.Some? then configured.value
    else if hostname == "localhost" then LocalBaseUrl
    else RelativeBaseUrl
  }

  class Client {
    var token: Option<string>
    var baseURL: string
    const window: Window

    /** `new ApiClient()`: `loadConfig()`, then the token stored in `localStorage`. */
    constructor (window: Window, configured: Option<string>, hostname: string)
      ensures this.window == window
      ensures baseURL == BaseUrl(configured, hostname)
      ensures token == GetItem(window.localStorage, "token")
    {
      this.window := window;
      baseURL := BaseUrl(configured, hostname);
      token := GetItem(window.localStorage, "token");
    }

    /** `loadConfig()` run again. */
    method LoadConfig(configured: Option<string>, hostname: string)
      modifies this
      ensures baseURL == BaseUrl(configured, hostname) && token == old(token)
    {
      baseURL := BaseUrl(configured, hostname);
    }

    /** `isAuthenticated()`: `!!this.token`, which is exactly when the client's
        requests carry an `Authorization` header. */
    predicate IsAuthenticated()
      reads this
      ensures IsAuthenticated() <==> "Authorization" in AuthHeaders(token)
    {
      Truthy(token)
    }

    /** `setToken(token)`: in memory and in `localStorage`. */
    method SetToken(t: string)
      modifies this, window
      ensures token == Some(t) && baseURL == old(baseURL)
      ensures window.localStorage == old(window.localStorage)["token" := t]
      ensures unchanged(window`pathname, window`navigation, window`accessDeniedShown)
      ensures t != "" ==> IsAuthenticated()
    {
      token := Some(t);
      window.localStorage := window.localStorage["token" := t];
    }

    /** `logout()`: the token leaves `localStorage` and memory. */
    method Logout()
      modifies this, window
      ensures token.None? && baseURL == old(baseURL) && !IsAuthenticated()
      ensures window.localStorage == old(window.localStorage) - {"token"}
      ensures unchanged(window`pathname, window`navigation, window`accessDeniedShown)
    {
      window.localStorage := window.localStorage - {"token"};
      token := None;
    }

    /** The URL `request` fetches: the base URL followed by the endpoint. */
    function Url(endpoint: string): (url: string)
      reads this
      ensures |url| == |baseURL| + |endpoint|
      ensures url[..|baseURL|] == baseURL && url[|baseURL|..] == endpoint
    {
      baseURL + endpoint
    }

    /** The configuration `request` hands to `fetch`: the caller's verb and
        body; the caller's headers when it passes any, otherwise JSON content
        and, while the client holds a token, a bearer header from which the
        server reads back that very token. */
    function Config(options: Options): (c: RequestConfig)
      reads this
      ensures c == BuildConfig(token, options)
      ensures c.verb == options.verb && c.body == options.body
      ensures options.headers.Some? ==> c.headers == options.headers.value
      ensures options.headers.None? ==>
                c.headers["Content-Type"] == "application/json" &&
                ("Authorization" in c.headers <==> IsAuthenticated())
      ensures options.headers.None? && IsAuthenticated() && ' ' !in token.value ==>
                Access.ExtractToken(Some(c.headers["Authorization"])) == token
    {
      if options.headers.None? && Truthy(token) && ' ' !in token.value then
        AuthHeaderCarriesToken(token.value);
        BuildConfig(token, options)
      else
        BuildConfig(token, options)
    }

    /** `verifyToken()`: the `/auth/verify` request; on any failure the client
        logs out and the promise rejects with the same error. */
    method VerifyToken(response: Response) returns (o: Outcome)
      modifies this, window
      ensures o == Settle(response)
      ensures o.Rejected? ==> token.None? && window.localStorage == old(window.localStorage) - {"token"}
      ensures o.Resolved? ==> token == old(token) && window.localStorage == old(window.localStorage)
      ensures baseURL == old(baseURL)
      ensures unchanged(window`pathname, window`navigation, window`accessDeniedShown)
    {
      o := Settle(response);
      if o.Rejected? {
        Logout();
      }
    }

    /** `safeRequest(endpoint, options)`: a failure whose message mentions
        `token` logs out and navigates to the login page; every failure is
        passed on unchanged. */
    method SafeRequest(response: Response) returns (o: Outcome)
      modifies this, window
      ensures o == Settle(response)
      ensures o.Rejected? && Contains(o.message, "token") ==>
                token.None? && window.localStorage == old(window.localStorage) - {"token"} &&
                window.navigation == Some(LoginPage)
      ensures !(o.Rejected? && Contains(o.message, "token")) ==>
                token == old(token) && window.localStorage == old(window.localStorage) &&
                window.navigation == old(window.navigation)
      ensures baseURL == old(baseURL)
      ensures unchanged(window`pathname, window`accessDeniedShown)
    {
      o := Settle(response);
      if o.Rejected? && Contains(o.message, "token") {
        Logout();
        window.navigation := Some(LoginPage);
      }
    }
  }
}

=== FILE: auth_api.dfy ===
/** The account endpoints of InnoUni/backend/api/auth.js: registration, login,
    reading and updating the profile, changing the password, and the token
    check the client calls on start-up. Registration, profile update and
    password change change the users table after their checks; login, the
    profile read and verification only read. The `authenticateToken` of this
    file is the same function as `Access.AuthenticateToken`. */
module AuthApi {
  import opened Common
  import opened Credentials
  import opened Schema
  import Access

  /** The user record the endpoints send back: every column but the password. */
  datatype PublicUser = PublicUser(id: nat, fullName: string, email: string, phone: Option<string>,
                                   role: string, bio: Option<string>)

  function Public(u: User): (p: PublicUser)
    ensures p.id == u.id && p.email == u.email && p.role == RoleName(u.role)
  {
    PublicUser(u.id, u.fullName, u.email, u.phone, RoleName(u.role), u.bio)
  }

  /** `SELECT * FROM users WHERE email = ?`: the first row with that email. */
  function FindUserByEmail(users: seq<User>, email: string): (u: Option<User>)
    ensures u.Some? <==> HasKey(users, UserEmail, email)
    ensures u.Some? ==> u.value in users && u.value.email == email
  {
    if users == [] then None
    else if users[0].email == email then Some(users[0])
    else
      assert [users[0]] + users[1..] == users;
      HasKeyCons(users[0], users[1..], UserEmail, email);
      FindUserByEmail(users[1..], email)
  }

  /** `SELECT ... FROM users WHERE id = ?`: the first row with that id. */
  function FindUserById(users: seq<User>, id: nat): (u: Option<User>)
    ensures u.Some? <==> HasKey(users, UserId, id)
    ensures u.Some? ==> u.value in users && u.value.id == id
  {
    if users == [] then None
    else if users[0].id == id then Some(users[0])
    else
      assert [users[0]] + users[1..] == users;
      HasKeyCons(users[0], users[1..], UserId, id);
      FindUserById(users[1..], id)
  }

  /** Under a unique key, the row found is the one row with that key. */
  lemma {:induction false} FindUserByEmailUnique(users: seq<User>, i: nat)
    requires i < |users| && UniqueBy(users, UserEmail)
    ensures FindUserByEmail(users, users[i].email) == Some(users[i])
  {
    if i > 0 {
      assert users[0].email != users[i].email;
      UniqueCons(users[0], users[1..], UserEmail);
      assert [users[0]] + users[1..] == users;
      FindUserByEmailUnique(users[1..], i - 1);
    }
  }

  lemma {:induction false} FindUserByIdUnique(users: seq<User>, i: nat)
    requires i < |users| && UniqueBy(users, UserId)
    ensures FindUserById(users, users[i].id) == Some(users[i])
  {
    if i > 0 {
      assert users[0].id != users[i].id;
      UniqueCons(users[0], users[1..], UserId);
      assert [users[0]] + users[1..] == users;
      FindUserByIdUnique(users[1..], i - 1);
    }
  }

  // ---------------------------------------------------------------------------
  // Registration

  /** `role = 'student'` in the destructuring: the default applies only when
      the field is absent. */
  function RoleOrDefault(role: Option<string>): string
  {
    if role.None? then RoleName(DefaultRole) else role.value
  }

  const MinPasswordLength: nat := 8

  /** The checks of `POST /register`, in their order; None when all pass. */
  function RegisterError(users: seq<User>, fullName: Option<string>, email: Option<string>,
                         password: Option<string>, role: Option<string>): (e: Option<Reply>)
    ensures !(Truthy(fullName) && Truthy(email) && Truthy(password)) ==>
              e == Some(Fail(400, "Name, email, and password are required"))
    ensures Truthy(fullName) && Truthy(email) && Truthy(password) && ParseRole(RoleOrDefault(role)).None? ==>
              e == Some(Fail(400, "Invalid role specified"))
    ensures Truthy(fullName) && Truthy(email) && Truthy(password) && ParseRole(RoleOrDefault(role)).Some? &&
            HasKey(users, UserEmail, email.value) ==>
              e == Some(Fail(400, "User with this email already exists"))
    ensures Truthy(fullName) && Truthy(email) && Truthy(password) && ParseRole(RoleOrDefault(role)).Some? &&
            !HasKey(users, UserEmail, email.value) && Utf16Length(password.value) < MinPasswordLength ==>
              e == Some(Fail(400, "Password must be at least 8 characters long"))
    ensures e.None? <==>
              Truthy(fullName) && Truthy(email) && Truthy(password) && ParseRole(RoleOrDefault(role)).Some? &&
              !HasKey(users, UserEmail, email.value) && Utf16Length(password.value) >= MinPasswordLength
  {
    if !Truthy(fullName) || !Truthy(email) || !Truthy(password) then
      Some(Fail(400, "Name, email, and password are required"))
    else if ParseRole(RoleOrDefault(role)).None? then Some(Fail(400, "Invalid role specified"))
    else if FindUserByEmail(users, email.value).Some? then Some(Fail(400, "User with this email already exists"))
    else if Utf16Length(password.value) < MinPasswordLength then Some(Fail(400, "Password must be at least 8 characters long"))
    else None
  }

  /** An absent role registers a student; an empty role string is not a role. */
  lemma RegisterRoleDefault(users: seq<User>, fullName: string, email: string, password: string)
    requires fullName != "" && email != "" && Utf16Length(password) >= MinPasswordLength
    requires !HasKey(users, UserEmail, email)
    ensures RegisterError(users, Some(fullName), Some(email), Some(password), None).None?
    ensures RegisterError(users, Some(fullName), Some(email), Some(password), Some("")) ==
              Some(Fail(400, "Invalid role specified"))
  {
  }

  /** The row `INSERT INTO users (full_name, email, phone, password, role)` adds:
      the password is stored hashed, bio is NULL. */
  function NewUser(id: nat, fullName: string, email: string, phone: Option<string>,
                   password: string, salt: nat, role: UserRole): (u: User)
    ensures u.id == id && u.email == email && u.role == role && u.bio.None?
    ensures Compare(password, u.password)
    ensures forall other :: Compare(other, u.password) <==> BcryptKey(other) == BcryptKey(password)
    ensures '\0' !in password && |Utf8(password)| < KeyLength ==>
              forall other :: '\0' !in other && |Utf8(other)| < KeyLength && Compare(other, u.password) ==>
                other == password
  {
    assert forall other ::
      ('\0' !in password && |Utf8(password)| < KeyLength && '\0' !in other && |Utf8(other)| < KeyLength &&
       Compare(other, Hash(password, salt))) ==> other == password by {
      forall other {
        CompareHash(password, other, salt);
      }
    }
    User(id, fullName, email, phone, Hash(password, salt), None, role)
  }

  /** `POST /register`; `salt` stands for bcrypt's random salt. */
  method Register(db: Database, fullName: Option<string>, email: Option<string>, phone: Option<string>,
                  password: Option<string>, role: Option<string>, salt: nat)
    returns (r: Reply, user: Option<PublicUser>)
    requires db.Valid()
    modifies db
    ensures db.Valid()
    ensures RegisterError(old(db.users), fullName, email, password, role).Some? ==>
              r == RegisterError(old(db.users), fullName, email, password, role).value &&
              user.None? && db.Snapshot() == old(db.Snapshot())
    ensures RegisterError(old(db.users), fullName, email, password, role).None? ==>
              var u := NewUser(old(db.nextUserId), fullName.value, email.value, phone, password.value, salt,
                               ParseRole(RoleOrDefault(role)).value);
              r == Created(201, "User registered successfully", u.id) && user == Some(Public(u)) &&
              db.Snapshot() == old(db.Snapshot()).(users := old(db.users) + [u], nextUserId := old(db.nextUserId) + 1)
  {
    var e := RegisterError(db.users, fullName, email, password, role);
    if e.Some? {
      return e.value, None;
    }
    var u := NewUser(db.nextUserId, fullName.value, email.value, phone, password.value, salt,
                     ParseRole(RoleOrDefault(role)).value);
    FreshId(db.users, UserId, db.nextUserId, u);
    AppendFresh(db.users, UserEmail, u);
    db.users := db.users + [u];
    db.nextUserId := db.nextUserId + 1;
    r, user := Created(201, "User registered successfully", u.id), Some(Public(u));
  }

  // ---------------------------------------------------------------------------
  // Login

  datatype LoginResult = LoggedIn(message: string, token: Jwt, user: PublicUser) | LoginFailed(reply: Reply)

  /** `POST /login`, reading the users table; `now` is the clock in seconds. */
  function Login(users: seq<User>, email: Option<string>, password: Option<string>, role: Option<string>,
                 secret: string, now: int): (r: LoginResult)
    ensures !(Truthy(email) && Truthy(password)) ==> r == LoginFailed(Fail(400, "Email and password are required"))
    ensures Truthy(email) && Truthy(password) &&
            (!HasKey(users, UserEmail, email.value) ||
             !Compare(password.value, FindUserByEmail(users, email.value).value.password)) ==>
              r == LoginFailed(Fail(401, "Invalid email or password"))
    ensures r.LoginFailed? && r.reply.status == 403 ==>
              Truthy(role) && Compare(password.value, FindUserByEmail(users, email.value).value.password) &&
              r.reply == Failure(403, "Role mismatch",
                                 "This account is registered as " + RoleName(FindUserByEmail(users, email.value).value.role)
                                 + ", not " + role.value)
    ensures r.LoggedIn? ==>
              var u := FindUserByEmail(users, email.value).value;
              Compare(password.value, u.password) && (Truthy(role) ==> role.value == RoleName(u.role)) &&
              r.token == Sign(Claims(u.id, u.email, RoleName(u.role)), secret, now) && r.user == Public(u)
    ensures Truthy(email) && Truthy(password) && HasKey(users, UserEmail, email.value) &&
            Compare(password.value, FindUserByEmail(users, email.value).value.password) ==>
              var u := FindUserByEmail(users, email.value).value;
              if Truthy(role) && role.value != RoleName(u.role) then
                r == LoginFailed(Failure(403, "Role mismatch",
                                         "This account is registered as " + RoleName(u.role) + ", not " + role.value))
              else r.LoggedIn?
  {
    if !Truthy(email) || !Truthy(password) then LoginFailed(Fail(400, "Email and password are required"))
    else
      match FindUserByEmail(users, email.value)
      case None => LoginFailed(Fail(401, "Invalid email or password"))
      case Some(u) =>
        if !Compare(password.value, u.password) then LoginFailed(Fail(401, "Invalid email or password"))
        else if Truthy(role) && RoleName(u.role) != role.value then
          LoginFailed(Failure(403, "Role mismatch",
                              "This account is registered as " + RoleName(u.role) + ", not " + role.value))
        else LoggedIn("Login successful", Sign(Claims(u.id, u.email, RoleName(u.role)), secret, now), Public(u))
  }

  /** A registered user who gives the password they registered with, and no
      role or their own role, is logged in with a token for exactly
      {userId, email, role}. */
  lemma RegisteredUserLogsIn(users: seq<User>, i: nat, password: string, salt: nat,
                             role: Option<string>, secret: string, now: int)
    requires i < |users| && UniqueBy(users, UserEmail)
    requires users[i].password == Hash(password, salt) && users[i].email != "" && password != ""
    requires role.None? || role == Some(RoleName(users[i].role))
    ensures Login(users, Some(users[i].email), Some(password), role, secret, now) ==
              LoggedIn("Login successful",
                       Sign(Claims(users[i].id, users[i].email, RoleName(users[i].role)), secret, now),
                       Public(users[i]))
  {
    FindUserByEmailUnique(users, i);
  }

  /** The token a login hands out, sent back as `Bearer <token>` within 24
      hours, authenticates as the user who logged in. */
  lemma LoginTokenAuthenticates(users: seq<User>, email: Option<string>, password: Option<string>,
                                role: Option<string>, secret: string, loginAt: int, now: int,
                                encoded: string, decode: string -> Option<Jwt>)
    requires Login(users, email, password, role, secret, loginAt).LoggedIn?
    requires encoded != "" && ' ' !in encoded
    requires decode(encoded) == Some(Login(users, email, password, role, secret, loginAt).token)
    requires loginAt <= now < loginAt + 86400
    ensures var u := Login(users, email, password, role, secret, loginAt).user;
            Access.AuthenticateToken(Some("Bearer " + encoded), decode, secret, now) ==
              Access.Authenticated(Claims(u.id, u.email, u.role))
  {
    var u := FindUserByEmail(users, email.value).value;
    Access.SignedTokenAuthenticates(Claims(u.id, u.email, RoleName(u.role)), secret, loginAt, now, encoded, decode);
  }

  // ---------------------------------------------------------------------------
  // Profile

  /** `GET /profile`. */
  function Profile(users: seq<User>, userId: nat): (r: Result<PublicUser>)
    ensures r.Ok? <==> HasKey(users, UserId, userId)
    ensures r.Ok? ==> r.value.id == userId
    ensures r.Ok? ==> exists i :: 0 <= i < |users| && users[i].id == userId && r.value == Public(users[i])
    ensures r.Err? ==> r.reply == Fail(404, "User not found")
  {
    match FindUserById(users, userId)
    case None => Err(Fail(404, "User not found"))
    case Some(u) => Ok(Public(u))
  }

  /** `SELECT id FROM users WHERE email = ? AND id != ?` finds a row. */
  predicate EmailTakenByOther(users: seq<User>, email: string, userId: nat)
  {
    exists i :: 0 <= i < |users| && users[i].email == email && users[i].id != userId
  }

  /** `UPDATE users SET full_name = ?, email = ?, phone = ?, bio = ? WHERE id = ?`. */
  function SetProfile(users: seq<User>, userId: nat, fullName: string, email: string,
                      phone: Option<string>, bio: Option<string>): (r: seq<User>)
    ensures |r| == |users|
    ensures forall i :: 0 <= i < |r| ==>
              r[i] == (if users[i].id == userId
                       then users[i].(fullName := fullName, email := email, phone := phone, bio := bio)
                       else users[i])
  {
    if users == [] then []
    else
      [if users[0].id == userId then users[0].(fullName := fullName, email := email, phone := phone, bio := bio)
       else users[0]] + SetProfile(users[1..], userId, fullName, email, phone, bio)
  }

  /** Giving the caller an email no other user holds keeps emails unique;
      ids, password hashes and roles do not change. */
  lemma SetProfileKeepsKeys(users: seq<User>, userId: nat, fullName: string, email: string,
                            phone: Option<string>, bio: Option<string>)
    requires UniqueBy(users, UserEmail) && UniqueBy(users, UserId)
    requires !EmailTakenByOther(users, email, userId)
    ensures var r := SetProfile(users, userId, fullName, email, phone, bio);
            UniqueBy(r, UserEmail) &&
            forall i :: 0 <= i < |r| ==> r[i].id == users[i].id && r[i].password == users[i].password &&
                                         r[i].role == users[i].role
  {
    var r := SetProfile(users, userId, fullName, email, phone, bio);
    forall i, j | 0 <= i < j < |r|
      ensures UserEmail(r[i]) != UserEmail(r[j])
    {
      assert UserId(users[i]) != UserId(users[j]);
      if users[i].id == userId {
        assert r[i].email == email && r[j] == users[j];
        assert users[j].id != userId;
        assert users[j].email != email;
      } else if users[j].id == userId {
        assert r[j].email == email && r[i] == users[i];
        assert users[i].id != userId;
        assert users[i].email != email;
      } else {
        assert r[i] == users[i] && r[j] == users[j];
        assert UserEmail(users[i]) != UserEmail(users[j]);
      }
    }
  }

  /** `PUT /profile`. A falsy email skips the uniqueness check. A row that the
      update reaches rejects a NULL name or email (NOT NULL) and an email
      another user holds (UNIQUE): the handler answers 500. No row with the
      caller's id means nothing is updated and the answer is still 200. */
  method UpdateProfile(db: Database, userId: nat, fullName: Option<string>, email: Option<string>,
                       phone: Option<string>, bio: Option<string>) returns (r: Reply)
    requires db.Valid()
    modifies db
    ensures db.Valid()
    ensures Truthy(email) && EmailTakenByOther(old(db.users), email.value, userId) ==>
              r == Fail(400, "Email is already taken") && db.Snapshot() == old(db.Snapshot())
    ensures !(Truthy(email) && EmailTakenByOther(old(db.users), email.value, userId)) &&
            !HasKey(old(db.users), UserId, userId) ==>
              r == Success(200, "Profile updated successfully") && db.Snapshot() == old(db.Snapshot())
    ensures !(Truthy(email) && EmailTakenByOther(old(db.users), email.value, userId)) &&
            HasKey(old(db.users), UserId, userId) &&
            (fullName.None? || email.None? || EmailTakenByOther(old(db.users), email.value, userId)) ==>
              r == InternalError && db.Snapshot() == old(db.Snapshot())
    ensures HasKey(old(db.users), UserId, userId) && fullName.Some? && email.Some? &&
            !EmailTakenByOther(old(db.users), email.value, userId) ==>
              r == Success(200, "Profile updated successfully") &&
              db.Snapshot() == old(db.Snapshot()).(users := SetProfile(old(db.users), userId, fullName.value,
                                                                       email.value, phone, bio))
  {
    if Truthy(email) && EmailTakenByOther(db.users, email.value, userId) {
      return Fail(400, "Email is already taken");
    }
    if !HasKey(db.users, UserId, userId) {
      return Success(200, "Profile updated successfully");
    }
    if fullName.None? || email.None? || EmailTakenByOther(db.users, email.value, userId) {
      return InternalError;
    }
    SetProfileKeepsKeys(db.users, userId, fullName.value, email.value, phone, bio);
    db.users := SetProfile(db.users, userId, fullName.value, email.value, phone, bio);
    r := Success(200, "Profile updated successfully");
  }

  /** The caller's own current email never counts as taken. */
  lemma OwnEmailNotTaken(users: seq<User>, i: nat)
    requires i < |users| && UniqueBy(users, UserEmail)
    ensures !EmailTakenByOther(users, users[i].email, users[i].id)
  {
  }

  // ---------------------------------------------------------------------------
  // Password change

  /** `UPDATE users SET password = ? WHERE id = ?`. */
  function SetPassword(users: seq<User>, userId: nat, h: PasswordHash): (r: seq<User>)
    ensures |r| == |users|
    ensures forall i :: 0 <= i < |r| ==> r[i].id == users[i].id && r[i].email == users[i].email
    ensures forall i :: 0 <= i < |r| ==>
              r[i] == (if users[i].id == userId then users[i].(password := h) else users[i])
  {
    if users == [] then []
    else
      var rest := SetPassword(users[1..], userId, h);
      var r := [if users[0].id == userId then users[0].(password := h) else users[0]] + rest;
      assert forall i :: 1 <= i < |r| ==> r[i] == rest[i - 1] && users[i] == users[1..][i - 1];
      r
  }

  /** Replacing a password hash changes no key, and the caller's row then
      carries the new hash. */
  lemma SetPasswordKeepsKeys(users: seq<User>, userId: nat, h: PasswordHash, next: nat)
    requires UniqueBy(users, UserEmail) && UniqueBy(users, UserId) && IdsBelow(users, UserId, next)
    requires HasKey(users, UserId, userId)
    ensures var r := SetPassword(users, userId, h);
            UniqueBy(r, UserEmail) && UniqueBy(r, UserId) && IdsBelow(r, UserId, next) &&
            FindUserById(r, userId).value.password == h
  {
    var r := SetPassword(users, userId, h);
    forall j, k | 0 <= j < k < |r|
      ensures UserEmail(r[j]) != UserEmail(r[k]) && UserId(r[j]) != UserId(r[k])
    {
      assert r[j].email == users[j].email && r[k].email == users[k].email;
      assert r[j].id == users[j].id && r[k].id == users[k].id;
      assert UserEmail(users[j]) != UserEmail(users[k]);
      assert UserId(users[j]) != UserId(users[k]);
    }
    assert UniqueBy(r, UserEmail) && UniqueBy(r, UserId);
    forall j | 0 <= j < |r|
      ensures UserId(r[j]) < next
    {
      assert UserId(users[j]) < next;
    }
    assert IdsBelow(r, UserId, next);
    var i :| 0 <= i < |users| && UserId(users[i]) == userId;
    assert r[i] == users[i].(password := h);
    FindUserByIdUnique(r, i);
  }

  /** Storing the hash of a new password for an existing user keeps the tables
      valid, and the new password then matches the user's row. */
  lemma NewPasswordStored(t: Tables, userId: nat, newPassword: string, salt: nat)
    requires ValidTables(t) && HasKey(t.users, UserId, userId)
    ensures var users := SetPassword(t.users, userId, Hash(newPassword, salt));
            ValidTables(t.(users := users)) && Compare(newPassword, FindUserById(users, userId).value.password)
  {
    var h := Hash(newPassword, salt);
    CompareHash(newPassword, newPassword, salt);
    SetPasswordKeepsKeys(t.users, userId, h, t.nextUserId);
    ValidWithUsers(t, SetPassword(t.users, userId, h));
  }

  /** The checks of `PUT /password`, in order: both passwords given, the
      caller's row found, the current password matching its hash. */
  function PasswordChangeError(users: seq<User>, userId: nat, currentPassword: Option<string>,
                               newPassword: Option<string>): (e: Option<Reply>)
    ensures !(Truthy(currentPassword) && Truthy(newPassword)) ==>
              e == Some(Fail(400, "Current and new passwords are required"))
    ensures Truthy(currentPassword) && Truthy(newPassword) && !HasKey(users, UserId, userId) ==>
              e == Some(Fail(404, "User not found"))
    ensures Truthy(currentPassword) && Truthy(newPassword) && HasKey(users, UserId, userId) &&
            !Compare(currentPassword.value, FindUserById(users, userId).value.password) ==>
              e == Some(Fail(401, "Current password is incorrect"))
    ensures e.None? <==>
              Truthy(currentPassword) && Truthy(newPassword) && HasKey(users, UserId, userId) &&
              Compare(currentPassword.value, FindUserById(users, userId).value.password)
  {
    if !Truthy(currentPassword) || !Truthy(newPassword) then Some(Fail(400, "Current and new passwords are required"))
    else
      var user := FindUserById(users, userId);
      if user.None? then Some(Fail(404, "User not found"))
      else if !Compare(currentPassword.value, user.value.password) then Some(Fail(401, "Current password is incorrect"))
      else None
  }

  /** `PUT /password`; `salt` stands for bcrypt's random salt. On success only
      the caller's hash changes, and the new password matches it. */
  method ChangePassword(db: Database, userId: nat, currentPassword: Option<string>, newPassword: Option<string>,
                        salt: nat) returns (r: Reply)
    requires db.Valid()
    modifies db
    ensures db.Valid()
    ensures PasswordChangeError(old(db.users), userId, currentPassword, newPassword).Some? ==>
              r == PasswordChangeError(old(db.users), userId, currentPassword, newPassword).value &&
              db.Snapshot() == old(db.Snapshot())
    ensures PasswordChangeError(old(db.users), userId, currentPassword, newPassword).None? ==>
              r == Success(200, "Password changed successfully") &&
              db.Snapshot() == old(db.Snapshot()).(users := SetPassword(old(db.users), userId, Hash(newPassword.value, salt))) &&
              Compare(newPassword.value, FindUserById(db.users, userId).value.password)
  {
    var e := PasswordChangeError(db.users, userId, currentPassword, newPassword);
    if e.Some? {
      return e.value;
    }
    ghost var t := db.Snapshot();
    var users := SetPassword(db.users, userId, Hash(newPassword.value, salt));
    NewPasswordStored(t, userId, newPassword.value, salt);
    db.users := users;
    assert db.Snapshot() == t.(users := users);
    r := Success(200, "Password changed successfully");
  }

  // ---------------------------------------------------------------------------

  /** `GET /verify`: after authentication, the claims of the token. */
  datatype VerifyReply = TokenValid(user: Claims) | TokenRejected(reply: Reply)

  function Verify(header: Option<string>, decode: string -> Option<Jwt>, secret: string, now: int): (r: VerifyReply)
    ensures r.TokenValid? <==> Access.AuthenticateToken(header, decode, secret, now).Authenticated?
    ensures r.TokenValid? ==> r.user == Access.AuthenticateToken(header, decode, secret, now).user
    ensures r.TokenRejected? ==> r.reply.status in {401, 403}
    ensures r.TokenRejected? ==> Access.AuthenticateToken(header, decode, secret, now) == Access.Rejected(r.reply)
  {
    match Access.AuthenticateToken(header, decode, secret, now)
    case Authenticated(c) => TokenValid(Claims(c.userId, c.email, c.role))
    case Rejected(reply) => TokenRejected(reply)
  }
}

=== FILE: auth_handler.dfy ===
/** The session logic of the `AuthHandler` in InnoUni/frontend/js/authHandler.js:
    the permission table, the predicates over `localStorage`, route protection,
    logout and the redirect to the dashboard. The handler keeps no fields of its
    own; everything it reads and writes is browser state, a `Page.Window`. */
module AuthHandler {
  import opened Common
  import opened Page
  import ApiClient
  import Credentials
  import ServerRoutes

  // ---------------------------------------------------------------------------
  // Permissions

  const StudentFeatures: seq<string> :=
    ["view-courses", "enroll-courses", "create-groups", "join-groups", "view-tasks", "complete-tasks"]
  const TeacherFeatures: seq<string> :=
    ["create-courses", "manage-courses", "view-students", "create-tasks", "grade-tasks",
     "upload-materials", "view-analytics"]
  const AdminFeatures: seq<string> :=
    ["create-courses", "manage-courses", "view-students", "create-tasks", "grade-tasks",
     "upload-materials", "view-analytics", "manage-users"]

  /** `permissions[role]`: the list of a role that has an entry. */
  function Permissions(role: string): (p: Option<seq<string>>)
    ensures p.Some? <==> role in {"student", "teacher", "admin"}
  {
    match role
    case "student" => Some(StudentFeatures)
    case "teacher" => Some(TeacherFeatures)
    case "admin" => Some(AdminFeatures)
    case _ => None
  }

  /** The admin list is the teacher list with `manage-users` added, and the
      student and teacher lists share no feature. */
  lemma PermissionTableShape()
    ensures Permissions("admin").value == Permissions("teacher").value + ["manage-users"]
    ensures forall f :: f in Permissions("student").value ==> f !in Permissions("teacher").value
    ensures "manage-users" !in Permissions("teacher").value
  {
  }

  /** `getCurrentRole()`: the stored role, or `guest` when it is missing or empty. */
  function CurrentRole(storage: map<string, string>): (role: string)
    ensures "userRole" in storage && storage["userRole"] != "" ==> role == storage["userRole"]
    ensures !("userRole" in storage && storage["userRole"] != "") ==> role == "guest"
  {
    var stored := GetItem(storage, "userRole");
    if Truthy(stored) then stored.value else "guest"
  }

  /** `canAccess(feature)`: the feature is on the list of the current role;
      a role without a list, such as `guest`, has no feature. */
  predicate CanAccess(storage: map<string, string>, feature: string)
    ensures CanAccess(storage, feature) ==>
              "userRole" in storage && storage["userRole"] in {"student", "teacher", "admin"}
  {
    var p := Permissions(CurrentRole(storage));
    p.Some? && feature in p.value
  }

  /** Guests can do nothing; an admin can do everything a teacher can, and more. */
  lemma CanAccessByRole(storage: map<string, string>, feature: string)
    ensures "userRole" !in storage ==> !CanAccess(storage, feature)
    ensures CurrentRole(storage) == "teacher" && CanAccess(storage, feature) ==>
              CanAccess(storage["userRole" := "admin"], feature)
    ensures CurrentRole(storage) == "student" && CanAccess(storage, feature) ==>
              !CanAccess(storage["userRole" := "teacher"], feature)
    ensures CanAccess(storage["userRole" := "admin"], "manage-users")
    ensures !CanAccess(storage["userRole" := "teacher"], "manage-users")
  {
    PermissionTableShape();
  }

  /** `hasRole(role)`: the stored role is exactly `role`. */
  predicate HasRole(storage: map<string, string>, role: string)
    ensures HasRole(storage, role) <==> "userRole" in storage && storage["userRole"] == role
    ensures HasRole(storage, role) && role != "" ==> CurrentRole(storage) == role
  {
    GetItem(storage, "userRole") == Some(role)
  }

  // ---------------------------------------------------------------------------
  // isAuthenticated and protectRoute

  /** `isAuthenticated()` as written: `!!(token === null || user === null)`,
      true exactly when the token or the user is missing. */
  predicate IsAuthenticatedAsWritten(storage: map<string, string>)
    ensures IsAuthenticatedAsWritten(storage) <==> "token" !in storage || "user" !in storage
  {
    GetItem(storage, "token").None? || GetItem(storage, "user").None?
  }

  /** `isAuthenticated()` as intended: a token and a user are both stored. */
  predicate IsAuthenticated(storage: map<string, string>)
    ensures IsAuthenticated(storage) <==> "token" in storage && "user" in storage
  {
    GetItem(storage, "token").Some? && GetItem(storage, "user").Some?
  }

  /** The written test is the negation of the intended one: a signed-in
      session counts as signed out and an empty storage as signed in. */
  lemma IsAuthenticatedInverted(storage: map<string, string>)
    ensures IsAuthenticatedAsWritten(storage) <==> !IsAuthenticated(storage)
    ensures IsAuthenticatedAsWritten(map[])
    ensures !IsAuthenticatedAsWritten(map["token" := "t", "user" := "{}"])
  {
  }

  /** `protectRoute(requiredRole)` as written. */
  method ProtectRouteAsWritten(w: Window, requiredRole: Option<string>) returns (allowed: bool)
    modifies w
    ensures !IsAuthenticatedAsWritten(old(w.localStorage)) ==>
              !allowed && w.navigation == Some(LoginPage) && w.accessDeniedShown == old(w.accessDeniedShown)
    ensures IsAuthenticatedAsWritten(old(w.localStorage)) && Truthy(requiredRole) &&
            !HasRole(old(w.localStorage), requiredRole.value) ==>
              !allowed && w.accessDeniedShown && w.navigation == old(w.navigation)
    ensures allowed <==> IsAuthenticatedAsWritten(old(w.localStorage)) &&
                         (Truthy(requiredRole) ==> HasRole(old(w.localStorage), requiredRole.value))
    ensures allowed ==> w.navigation == old(w.navigation) && w.accessDeniedShown == old(w.accessDeniedShown)
    ensures w.localStorage == old(w.localStorage) && w.pathname == old(w.pathname)
  {
    if !IsAuthenticatedAsWritten(w.localStorage) {
      w.navigation := Some(LoginPage);
      return false;
    }
    if Truthy(requiredRole) && !HasRole(w.localStorage, requiredRole.value) {
      w.accessDeniedShown := true;
      return false;
    }
    return true;
  }

  /** `protectRoute(requiredRole)` with the intended `isAuthenticated`: a
      visitor without a session goes to the login page, a signed-in user
      without the required role sees the access-denied overlay. */
  method ProtectRoute(w: Window, requiredRole: Option<string>) returns (allowed: bool)
    modifies w
    ensures !IsAuthenticated(old(w.localStorage)) ==>
              !allowed && w.navigation == Some(LoginPage) && w.accessDeniedShown == old(w.accessDeniedShown)
    ensures IsAuthenticated(old(w.localStorage)) && Truthy(requiredRole) &&
            !HasRole(old(w.localStorage), requiredRole.value) ==>
              !allowed && w.accessDeniedShown && w.navigation == old(w.navigation)
    ensures allowed <==> IsAuthenticated(old(w.localStorage)) &&
                         (Truthy(requiredRole) ==> HasRole(old(w.localStorage), requiredRole.value))
    ensures allowed ==> w.navigation == old(w.navigation) && w.accessDeniedShown == old(w.accessDeniedShown)
    ensures w.localStorage == old(w.localStorage) && w.pathname == old(w.pathname)
  {
    if !IsAuthenticated(w.localStorage) {
      w.navigation := Some(LoginPage);
      return false;
    }
    if Truthy(requiredRole) && !HasRole(w.localStorage, requiredRole.value) {
      w.accessDeniedShown := true;
      return false;
    }
    return true;
  }

  /** As written, a signed-in student is sent to the login page by
      `protectRoute('student')`, and a visitor with nothing stored passes
      `protectRoute()`. */
  method ProtectRouteCounterexample() returns (signedIn: bool, anonymous: bool)
    ensures !signedIn && anonymous
  {
    var w := new Window(map["token" := "t", "user" := "{}", "userRole" := "student"], "/student.html");
    signedIn := ProtectRouteAsWritten(w, Some("student"));
    var v := new Window(map[], "/student.html");
    anonymous := ProtectRouteAsWritten(v, None);
  }

  /** With the intended test the same two visits go the other way. */
  method ProtectRouteCorrected() returns (signedIn: bool, anonymous: bool)
    ensures signedIn && !anonymous
  {
    var w := new Window(map["token" := "t", "user" := "{}", "userRole" := "student"], "/student.html");
    signedIn := ProtectRoute(w, Some("student"));
    var v := new Window(map[], "/student.html");
    anonymous := ProtectRoute(v, None);
  }

  // ---------------------------------------------------------------------------
  // logout

  /** The `api.request('/auth/logout', ...)` call: its URL and configuration. */
  datatype LogoutCall = LogoutCall(url: string, config: ApiClient.RequestConfig)

  const SessionKeys: set<string> := {"token", "user", "userRole"}

  /** The options of the logout request: POST with only the bearer header. */
  function LogoutOptions(token: string): ApiClient.Options
  {
    ApiClient.Options(Some("POST"), None, Some(map["Authorization" := "Bearer " + token]))
  }

  /** `logout()` as written: the three session items are removed and only then
      is the token read back, so it is always missing and the logout request
      is never sent. The page then goes to the login page. */
  method LogoutAsWritten(w: Window) returns (call: Option<LogoutCall>)
    modifies w
    ensures call.None?
    ensures w.localStorage == old(w.localStorage) - SessionKeys
    ensures w.navigation == Some(LoginPage)
    ensures w.pathname == old(w.pathname) && w.accessDeniedShown == old(w.accessDeniedShown)
  {
    w.localStorage := w.localStorage - {"token"};
    w.localStorage := w.localStorage - {"user"};
    w.localStorage := w.localStorage - {"userRole"};
    var token := GetItem(w.localStorage, "token");
    call := None;
    if Truthy(token) {
      // The request branch: unreachable, the token was removed just above.
      assert false;
    }
    w.navigation := Some(LoginPage);
  }

  /** `logout()` with the token read before it is removed: a stored token is
      sent, as the only header, to `/auth/logout`. */
  method Logout(w: Window, api: ApiClient.Client) returns (call: Option<LogoutCall>)
    modifies w
    ensures var stored := GetItem(old(w.localStorage), "token");
            (call.Some? <==> Truthy(stored)) &&
            (call.Some? ==> call.value.url == api.Url("/auth/logout") &&
                            call.value.config.verb == Some("POST") &&
                            call.value.config.headers == map["Authorization" := "Bearer " + stored.value])
    ensures w.localStorage == old(w.localStorage) - SessionKeys
    ensures w.navigation == Some(LoginPage)
    ensures w.pathname == old(w.pathname) && w.accessDeniedShown == old(w.accessDeniedShown)
  {
    var token := GetItem(w.localStorage, "token");
    w.localStorage := w.localStorage - SessionKeys;
    call := None;
    if Truthy(token) {
      call := Some(LogoutCall(api.Url("/auth/logout"), api.Config(LogoutOptions(token.value))));
    }
    w.navigation := Some(LoginPage);
  }

  // ---------------------------------------------------------------------------
  // redirectToDashboard

  const DashboardPrefix := "/dashboard/"

  /** `/dashboard/${userId}`. */
  function DashboardPath(userId: nat): (path: string)
    ensures StartsWith(path, DashboardPrefix)
    ensures path[|DashboardPrefix|..] == NatToString(userId)
  {
    DashboardPrefix + NatToString(userId)
  }

  /** `redirectToDashboard(userId, userRole)`: nothing on a page whose path
      already contains `/dashboard/`; otherwise, for every role alike, to the
      user's own dashboard. */
  method RedirectToDashboard(w: Window, userId: nat, userRole: string)
    modifies w
    ensures Contains(old(w.pathname), DashboardPrefix) ==> w.navigation == old(w.navigation)
    ensures !Contains(old(w.pathname), DashboardPrefix) ==> w.navigation == Some(DashboardPath(userId))
    ensures w.localStorage == old(w.localStorage) && w.pathname == old(w.pathname)
    ensures w.accessDeniedShown == old(w.accessDeniedShown)
  {
    if Contains(w.pathname, DashboardPrefix) {
      return;
    }
    if userRole == "teacher" || userRole == "admin" {
      w.navigation := Some(DashboardPath(userId));
    } else {
      w.navigation := Some(DashboardPath(userId));
    }
  }

  /** The redirect target is a dashboard page, so loading it does not redirect
      again, and the server's ownership check (as intended) sends the page of
      the signed-in user's role there. */
  lemma RedirectTargetIsOwnDashboard(user: Credentials.Claims)
    ensures Contains(DashboardPath(user.userId), DashboardPrefix)
    ensures ServerRoutes.DashboardRoute(DashboardPath(user.userId)[|DashboardPrefix|..], user)
              == ServerRoutes.RoleDispatch(user.role)
  {
    ContainsPrefix(DashboardPrefix, NatToString(user.userId));
  }
}

=== FILE: common.dfy ===
/** Small building blocks shared by every part of the model: optional values,
    HTTP replies, decimal rendering of numbers (JavaScript template literals),
    `String.prototype.split` on one separator, substring search and prefixes. */
module Common {

  datatype Option<T> = None | Some(value: T)

  /** A value, or the error reply sent instead. */
  datatype Result<T> = Ok(value: T) | Err(reply: Reply)

  /** An HTTP reply: its status code and the `message` or `error` (and optional
      `message`) fields of its JSON body. */
  datatype Reply =
    | Success(status: nat, message: string)
    | Created(status: nat, message: string, id: nat)
    | Failure(status: nat, error: string, message: string)

  /** A failure reply whose body carries only `error`. */
  function Fail(status: nat, error: string): Reply
  {
    Failure(status, error, "")
  }

  const InternalError := Fail(500, "Internal server error")

  /** JavaScript truthiness of an optional string field: absent and "" are falsy. */
  predicate Truthy(s: Option<string>)
  {
    s.Some? && s.value != ""
  }

  function Min(a: int, b: int): int
  {
    if a <= b then a else b
  }

  /** `s.slice(0, n)` for n >= 0. */
  function Take<T>(s: seq<T>, n: nat): (r: seq<T>)
    ensures |r| == Min(n, |s|)
    ensures r == s[..|r|]
  {
    if n <= |s| then s[..n] else s
  }

  // ---------------------------------------------------------------------------
  // Decimal rendering, as `${n}` does for a JavaScript number holding an integer.

  function DigitChar(d: nat): (c: char)
    requires d < 10
    ensures '0' <= c <= '9'
    ensures c as int - '0' as int == d
  {
    ('0' as int + d) as char
  }

  predicate AllDigits(s: string)
  {
    forall i :: 0 <= i < |s| ==> '0' <= s[i] <= '9'
  }

  function NatToString(n: nat): (s: string)
    ensures |s| >= 1 && AllDigits(s)
  {
    if n < 10 then [DigitChar(n)] else NatToString(n / 10) + [DigitChar(n % 10)]
  }

  function IntToString(i: int): (s: string)
    ensures |s| >= 1
    ensures i < 0 <==> s[0] == '-'
  {
    if i < 0 then "-" + NatToString(-i) else NatToString(i)
  }

  /** The value of a string of decimal digits, most significant first. */
  function DigitsValue(s: string): nat
    requires AllDigits(s)
  {
    if s == [] then 0 else DigitsValue(s[..|s| - 1]) * 10 + (s[|s| - 1] as int - '0' as int)
  }

  /** Reading back the rendering of a number gives the number. */
  lemma {:induction false} DigitsValueOfNatToString(n: nat)
    ensures DigitsValue(NatToString(n)) == n
  {
    var s := NatToString(n);
    if n >= 10 {
      assert s[..|s| - 1] == NatToString(n / 10);
      DigitsValueOfNatToString(n / 10);
    }
  }

  /** Two numbers with the same rendering are equal. */
  lemma NatToStringInjective(a: nat, b: nat)
    requires NatToString(a) == NatToString(b)
    ensures a == b
  {
    DigitsValueOfNatToString(a);
    DigitsValueOfNatToString(b);
  }

  // ---------------------------------------------------------------------------
  // `parseInt(s)` (decimal only).

  predicate IsDigit(c: char)
  {
    '0' <= c <= '9'
  }

  /** The longest prefix of `s` made of decimal digits. */
  function DigitPrefix(s: string): (d: string)
    ensures |d| <= |s| && d == s[..|d|]
    ensures AllDigits(d)
    ensures |d| < |s| ==> !IsDigit(s[|d|])
  {
    if s == [] || !IsDigit(s[0]) then []
    else
      var rest := DigitPrefix(s[1..]);
      assert s[..|rest| + 1] == [s[0]] + rest;
      [s[0]] + rest
  }

  /** `parseInt(s)`: leading white space skipped, an optional sign, then the
      longest run of digits; None stands for NaN (no digit at all). */
  function ParseInt(s: string): (r: Option<int>)
    ensures r.None? <==> DigitPrefix(SignlessPart(TrimStart(s))) == []
  {
    var t := TrimStart(s);
    var d := DigitPrefix(SignlessPart(t));
    if d == [] then None
    else if t[0] == '-' then Some(-(DigitsValue(d) as int))
    else Some(DigitsValue(d))
  }

  /** What follows a leading `+` or `-`. */
  function SignlessPart(t: string): (u: string)
    ensures u == t || (t != [] && (t[0] == '+' || t[0] == '-') && u == t[1..])
  {
    if t != [] && (t[0] == '+' || t[0] == '-') then t[1..] else t
  }

  /** A digit string is all digits, so its whole is its digit prefix. */
  lemma {:induction false} DigitPrefixOfDigits(s: string)
    requires AllDigits(s)
    ensures DigitPrefix(s) == s
  {
    if s != [] {
      DigitPrefixOfDigits(s[1..]);
      assert [s[0]] + s[1..] == s;
    }
  }

  /** `parseInt` reads back the decimal rendering of a number. */
  lemma ParseIntOfNatToString(n: nat)
    ensures ParseInt(NatToString(n)) == Some(n)
  {
    ParseIntOfNatThen(n, []);
    assert NatToString(n) + [] == NatToString(n);
  }

  /** Digits followed by text that does not start with a digit: the digits are the prefix. */
  lemma {:induction false} DigitPrefixOfDigitsThen(d: string, rest: string)
    requires AllDigits(d)
    requires rest == [] || !IsDigit(rest[0])
    ensures DigitPrefix(d + rest) == d
  {
    if d == [] {
      assert d + rest == rest;
    } else {
      assert (d + rest)[1..] == d[1..] + rest;
      DigitPrefixOfDigitsThen(d[1..], rest);
      assert [d[0]] + d[1..] == d;
    }
  }

  /** The digits of a rendered number before a text that does not start with a digit. */
  lemma DigitsThen(n: nat, rest: string)
    requires rest == [] || !IsDigit(rest[0])
    ensures var d := NatToString(n) + rest;
            IsDigit(d[0]) && !IsSpace(d[0]) && d[0] != '-' && d[0] != '+' && DigitPrefix(d) == NatToString(n) &&
            DigitsValue(DigitPrefix(d)) == n
  {
    var d := NatToString(n);
    assert (d + rest)[0] == d[0];
    DigitPrefixOfDigitsThen(d, rest);
    DigitsValueOfNatToString(n);
  }

  /** `parseInt` reads back a rendered number at the head of a text, such as
      the count in "5 daqiqa oldin". */
  lemma ParseIntOfNatThen(n: nat, rest: string)
    requires rest == [] || !IsDigit(rest[0])
    ensures ParseInt(NatToString(n) + rest) == Some(n)
  {
    DigitsThen(n, rest);
    ParseIntUnsigned(NatToString(n) + rest);
  }

  /** Text that starts with a digit is read from its first character on. */
  lemma ParseIntUnsigned(s: string)
    requires s != [] && IsDigit(s[0])
    ensures ParseInt(s) == Some(DigitsValue(DigitPrefix(s)))
  {
    assert !IsSpace(s[0]);
    TrimStartNoSpace(s);
    assert SignlessPart(s) == s;
    assert DigitPrefix(s) != [];
  }

  // ---------------------------------------------------------------------------
  // `s.split(sep)` for a one-character separator.

  /** The parts of `s` between occurrences of `sep`, empty parts included. */
  function Split(s: string, sep: char): (parts: seq<string>)
    ensures |parts| >= 1
    ensures forall i :: 0 <= i < |parts| ==> sep !in parts[i]
  {
    if s == [] then [""]
    else
      var rest := Split(s[1..], sep);
      if s[0] == sep then [""] + rest else [[s[0]] + rest[0]] + rest[1..]
  }

  lemma {:induction false} SplitWithoutSeparator(s: string, sep: char)
    requires sep !in s
    ensures Split(s, sep) == [s]
  {
    if s != [] {
      SplitWithoutSeparator(s[1..], sep);
      assert [s[0]] + s[1..] == s;
    }
  }

  /** A separator-free head before the first separator becomes the first part. */
  lemma {:induction false} SplitAtFirstSeparator(p: string, sep: char, t: string)
    requires sep !in p
    ensures Split(p + [sep] + t, sep) == [p] + Split(t, sep)
  {
    if p == [] {
      assert p + [sep] + t == [sep] + t;
      assert ([sep] + t)[1..] == t;
    } else {
      assert (p + [sep] + t)[1..] == p[1..] + [sep] + t;
      SplitAtFirstSeparator(p[1..], sep, t);
      assert [p[0]] + p[1..] == p;
    }
  }

  // ---------------------------------------------------------------------------
  // `s.trim()`.

  /** The white space `trim` and `parseInt` skip (ECMAScript's WhiteSpace and
      LineTerminator): tab, line feed, vertical tab, form feed, carriage
      return, space, no-break space, the byte-order mark, the line and
      paragraph separators, and the other space separators of Unicode
      (ogham space mark, en quad to hair space, narrow no-break space,
      medium mathematical space, ideographic space). */
  const Spaces: set<char> :=
    {'\t', '\n', '\U{B}', '\U{C}', '\r', ' ', '\U{A0}', '\U{FEFF}', '\U{1680}',
     '\U{2000}', '\U{2001}', '\U{2002}', '\U{2003}', '\U{2004}', '\U{2005}', '\U{2006}',
     '\U{2007}', '\U{2008}', '\U{2009}', '\U{200A}',
     '\U{2028}', '\U{2029}', '\U{202F}', '\U{205F}', '\U{3000}'}

  predicate IsSpace(c: char)
  {
    c in Spaces
  }

  predicate AllSpace(s: string)
  {
    forall i :: 0 <= i < |s| ==> IsSpace(s[i])
  }

  /** The index of the first character at or after `i` that is not white
      space (`|s|` when there is none). */
  function SpaceEnd(s: string, i: nat): (n: nat)
    requires i <= |s|
    ensures i <= n <= |s|
    ensures AllSpace(s[i..n])
    ensures n < |s| ==> !IsSpace(s[n])
    decreases |s| - i
  {
    if i < |s| && IsSpace(s[i]) then SpaceEnd(s, i + 1) else i
  }

  /** The index where the white space that ends `s[lo..j]` starts. */
  function SpaceStart(s: string, lo: nat, j: nat): (n: nat)
    requires lo <= j <= |s|
    ensures lo <= n <= j
    ensures AllSpace(s[n..j])
    ensures lo < n ==> !IsSpace(s[n - 1])
  {
    if lo < j && IsSpace(s[j - 1]) then
      var n := SpaceStart(s, lo, j - 1);
      assert s[n..j] == s[n..j - 1] + [s[j - 1]];
      n
    else j
  }

  function TrimStart(s: string): (r: string)
    ensures |r| <= |s| && r == s[|s| - |r|..]
    ensures AllSpace(s[..|s| - |r|])
    ensures r != [] ==> !IsSpace(r[0])
  {
    s[SpaceEnd(s, 0)..]
  }

  lemma TrimStartNoSpace(s: string)
    requires s != [] && !IsSpace(s[0])
    ensures TrimStart(s) == s
  {
  }

  function TrimEnd(s: string): (r: string)
    ensures |r| <= |s| && r == s[..|r|]
    ensures AllSpace(s[|r|..])
    ensures r != [] ==> !IsSpace(r[|r| - 1])
  {
    s[..SpaceStart(s, 0, |s|)]
  }

  /** `s` is the result with white space only before and after it, and the
      result neither starts nor ends with white space; it is empty exactly
      when the whole input is white space. */
  function Trim(s: string): (r: string)
    ensures exists i, j :: 0 <= i <= j <= |s| && r == s[i..j] && AllSpace(s[..i]) && AllSpace(s[j..])
    ensures r != [] ==> !IsSpace(r[0]) && !IsSpace(r[|r| - 1])
    ensures r == [] <==> AllSpace(s)
  {
    var i := SpaceEnd(s, 0);
    var j := SpaceStart(s, i, |s|);
    assert s[0..i] == s[..i] && s[j..|s|] == s[j..];
    AllSpaceSplit(s, i);
    s[i..j]
  }

  lemma AllSpaceSplit(s: string, i: nat)
    requires i <= |s|
    ensures AllSpace(s) <==> AllSpace(s[..i]) && AllSpace(s[i..])
  {
    if AllSpace(s[..i]) && AllSpace(s[i..]) {
      forall k | 0 <= k < |s|
        ensures IsSpace(s[k])
      {
        if k < i {
          assert s[k] == s[..i][k];
        } else {
          assert s[k] == s[i..][k - i];
        }
      }
    }
  }

  // ---------------------------------------------------------------------------
  // `s.length`.

  /** A JavaScript string's `length`: its UTF-16 code units, two for each
      character beyond the Basic Multilingual Plane. */
  function Utf16Length(s: string): (n: nat)
    ensures |s| <= n <= 2 * |s|
    ensures n == |s| <==> forall i :: 0 <= i < |s| ==> s[i] as int <= 0xFFFF
  {
    if s == [] then 0
    else (if s[0] as int > 0xFFFF then 2 else 1) + Utf16Length(s[1..])
  }

  /** Four emoji are eight code units: `length` counts more than characters. */
  lemma Utf16LengthOfAstral()
    ensures Utf16Length("\U{1F600}\U{1F600}\U{1F600}\U{1F600}") == 8
  {
    var e := "\U{1F600}\U{1F600}\U{1F600}\U{1F600}";
    assert e[1..][1..][1..][1..] == [];
  }

  // ---------------------------------------------------------------------------

  predicate StartsWith(s: string, prefix: string)
  {
    |prefix| <= |s| && s[..|prefix|] == prefix
  }

  /** `s.includes(sub)`: `sub` occurs at some position of `s`. */
  predicate Contains(s: string, sub: string)
  {
    StartsWith(s, sub) || (s != [] && Contains(s[1..], sub))
  }

  /** A string starting with `sub` contains it. */
  lemma ContainsPrefix(sub: string, rest: string)
    ensures Contains(sub + rest, sub)
  {
    assert (sub + rest)[..|sub|] == sub;
  }

  /** Text in front of a string keeps every occurrence in it. */
  lemma {:induction false} ContainsAfter(pre: string, s: string, sub: string)
    requires Contains(s, sub)
    ensures Contains(pre + s, sub)
  {
    if pre != [] {
      assert (pre + s)[1..] == pre[1..] + s;
      ContainsAfter(pre[1..], s, sub);
    } else {
      assert pre + s == s;
    }
  }
}

=== FILE: credentials.dfy ===
/** The two foreign libraries the credential code leans on: bcryptjs (`hash`,
    `compare`) and jsonwebtoken (`sign`, `verify`). Of bcrypt the model keeps
    the key it derives from a password (the UTF-8 bytes, a NUL terminator,
    repeated to fill 72 bytes), which decides which passwords match a hash;
    the Blowfish rounds over that key are not modelled. A token is the claims
    it carries plus its validity window and the key it was signed with. */
module Credentials {
  import opened Common

  newtype byte = x: int | 0 <= x < 256

  /** How many bytes a UTF-8 sequence has, read from its first byte. */
  function LeadLength(b: byte): nat
  {
    if b < 0x80 then 1 else if b < 0xE0 then 2 else if b < 0xF0 then 3 else 4
  }

  /** The UTF-8 encoding of one character: its first byte tells its length,
      the bytes after it are continuation bytes, and only NUL has a zero byte. */
  function CharUtf8(c: char): (b: seq<byte>)
    ensures 1 <= |b| <= 4 && |b| == LeadLength(b[0])
    ensures forall i :: 1 <= i < |b| ==> 0x80 <= b[i] < 0xC0
    ensures b[0] == 0 <==> c == '\0'
    ensures DecodeChar(b) == c as int
  {
    var n := c as int;
    if n < 0x80 then [n as byte]
    else if n < 0x800 then TwoByteUtf8(n)
    else if n < 0x1_0000 then ThreeByteUtf8(n)
    else FourByteUtf8(n)
  }

  function TwoByteUtf8(n: int): (b: seq<byte>)
    requires 0x80 <= n < 0x800
    ensures |b| == 2 && LeadLength(b[0]) == 2 && b[0] != 0 && 0x80 <= b[1] < 0xC0
    ensures DecodeChar(b) == n
  {
    [(0xC0 + n / 0x40) as byte, (0x80 + n % 0x40) as byte]
  }

  function ThreeByteUtf8(n: int): (b: seq<byte>)
    requires 0x800 <= n < 0x1_0000
    ensures |b| == 3 && LeadLength(b[0]) == 3 && b[0] != 0
    ensures 0x80 <= b[1] < 0xC0 && 0x80 <= b[2] < 0xC0
    ensures DecodeChar(b) == n
  {
    assert n / 0x40 == n / 0x1000 * 0x40 + n / 0x40 % 0x40;
    [(0xE0 + n / 0x1000) as byte, (0x80 + n / 0x40 % 0x40) as byte, (0x80 + n % 0x40) as byte]
  }

  function FourByteUtf8(n: int): (b: seq<byte>)
    requires 0x1_0000 <= n < 0x11_0000
    ensures |b| == 4 && LeadLength(b[0]) == 4 && b[0] != 0
    ensures 0x80 <= b[1] < 0xC0 && 0x80 <= b[2] < 0xC0 && 0x80 <= b[3] < 0xC0
    ensures DecodeChar(b) == n
  {
    assert n / 0x40 == n / 0x1000 * 0x40 + n / 0x40 % 0x40;
    assert n / 0x1000 == n / 0x4_0000 * 0x40 + n / 0x1000 % 0x40;
    [(0xF0 + n / 0x4_0000) as byte, (0x80 + n / 0x1000 % 0x40) as byte,
     (0x80 + n / 0x40 % 0x40) as byte, (0x80 + n % 0x40) as byte]
  }

  /** The code point a one-character UTF-8 sequence stands for. */
  function DecodeChar(b: seq<byte>): int
    requires 1 <= |b| <= 4
  {
    if |b| == 1 then b[0] as int
    else if |b| == 2 then (b[0] as int - 0xC0) * 0x40 + (b[1] as int - 0x80)
    else if |b| == 3 then
      (b[0] as int - 0xE0) * 0x1000 + (b[1] as int - 0x80) * 0x40 + (b[2] as int - 0x80)
    else
      (b[0] as int - 0xF0) * 0x4_0000 + (b[1] as int - 0x80) * 0x1000
      + (b[2] as int - 0x80) * 0x40 + (b[3] as int - 0x80)
  }

  /** The UTF-8 bytes of a string, as bcryptjs's `stringToBytes` produces them. */
  function Utf8(s: string): (b: seq<byte>)
    ensures |s| <= |b| <= 4 * |s|
  {
    if s == [] then [] else CharUtf8(s[0]) + Utf8(s[1..])
  }

  lemma {:induction false} Utf8Append(s: string, t: string)
    ensures Utf8(s + t) == Utf8(s) + Utf8(t)
  {
    if s == [] {
      assert s + t == t;
    } else {
      assert (s + t)[1..] == s[1..] + t;
      Utf8Append(s[1..], t);
    }
  }

  /** Characters below U+0080 are one byte each. */
  lemma {:induction false} Utf8Ascii(s: string)
    requires forall i :: 0 <= i < |s| ==> s[i] < '\U{80}'
    ensures |Utf8(s)| == |s|
  {
    if s != [] {
      Utf8Ascii(s[1..]);
    }
  }

  /** A string without NUL encodes without a zero byte. */
  lemma {:induction false} Utf8NoZero(s: string)
    requires '\0' !in s
    ensures forall i :: 0 <= i < |Utf8(s)| ==> Utf8(s)[i] != 0
  {
    if s != [] {
      assert forall c :: c in s[1..] ==> c in s;
      Utf8NoZero(s[1..]);
    }
  }

  /** Different strings have different UTF-8 encodings. */
  lemma {:induction false} Utf8Injective(s: string, t: string)
    requires Utf8(s) == Utf8(t)
    ensures s == t
  {
    if s != [] && t != [] {
      var a, b := CharUtf8(s[0]), CharUtf8(t[0]);
      assert a[0] == Utf8(s)[0] == Utf8(t)[0] == b[0];
      assert a == Utf8(s)[..|a|] == Utf8(t)[..|b|] == b;
      assert s[0] as int == DecodeChar(a) == t[0] as int;
      assert Utf8(s[1..]) == Utf8(s)[|a|..] == Utf8(t)[|b|..] == Utf8(t[1..]);
      Utf8Injective(s[1..], t[1..]);
      assert s == [s[0]] + s[1..] && t == [t[0]] + t[1..];
    }
  }

  /** Blowfish's key schedule reads 18 words of key material. */
  const KeyLength: nat := 72

  /** The first `n` bytes of `b` repeated end to end. */
  function Cycle(b: seq<byte>, n: nat): (k: seq<byte>)
    requires b != []
    ensures |k| == n
    ensures forall i :: 0 <= i < n && i < |b| ==> k[i] == b[i]
    decreases n
  {
    if n <= |b| then b[..n] else b + Cycle(b, n - |b|)
  }

  /** Repeating a sequence twice over repeats the same bytes. */
  lemma {:induction false} CycleDoubled(b: seq<byte>, n: nat)
    requires b != []
    ensures Cycle(b + b, n) == Cycle(b, n)
    decreases n
  {
    if n <= |b| {
      assert (b + b)[..n] == b[..n];
    } else if n <= 2 * |b| {
      assert (b + b)[..n] == b + b[..n - |b|];
    } else {
      CycleDoubled(b, n - 2 * |b|);
      assert Cycle(b, n - |b|) == b + Cycle(b, n - 2 * |b|);
      assert Cycle(b + b, n) == (b + b) + Cycle(b, n - 2 * |b|);
    }
  }

  /** The key bcryptjs feeds to the cipher for `$2a$`/`$2b$` hashes: the UTF-8
      bytes of the password and a NUL, repeated cyclically to fill 72 bytes. */
  function BcryptKey(password: string): (k: seq<byte>)
    ensures |k| == KeyLength
  {
    Cycle(Utf8(password) + [0], KeyLength)
  }

  /** The key starts with the password's UTF-8 bytes and their NUL terminator,
      as far as they fit. */
  lemma KeyPrefix(password: string)
    ensures var b := Utf8(password) + [0];
            forall i :: 0 <= i < KeyLength && i < |b| ==> BcryptKey(password)[i] == b[i]
  {
  }

  /** The value `bcrypt.hash(password, 10)` produces: the salt and what the
      cipher encrypts under, the derived key. */
  datatype PasswordHash = Bcrypt(salt: nat, key: seq<byte>)

  /** `bcrypt.hash(password, 10)`; the random salt is a parameter. */
  function Hash(password: string, salt: nat): (h: PasswordHash)
    ensures h.salt == salt && |h.key| == KeyLength
  {
    Bcrypt(salt, BcryptKey(password))
  }

  /** Of a password of 72 UTF-8 bytes or more only the first 72 count. */
  lemma LongPasswordKey(password: string, salt: nat)
    requires |Utf8(password)| >= KeyLength
    ensures Hash(password, salt).key == Utf8(password)[..KeyLength]
  {
  }

  /** `bcrypt.compare(password, hash)`: the hash is re-derived with the
      stored salt and compared. */
  predicate Compare(password: string, h: PasswordHash)
    ensures Compare(password, h) ==> h == Hash(password, h.salt)
  {
    BcryptKey(password) == h.key
  }

  /** In the key of a short password without NUL, the first zero byte is the
      terminator right after the password's bytes. */
  lemma KeyTerminator(p: string)
    requires '\0' !in p && |Utf8(p)| < KeyLength
    ensures BcryptKey(p)[|Utf8(p)|] == 0
    ensures forall i :: 0 <= i < |Utf8(p)| ==> BcryptKey(p)[i] == Utf8(p)[i] != 0
  {
    KeyPrefix(p);
    Utf8NoZero(p);
  }

  /** Passwords without NUL whose encodings are shorter than the key have
      keys of their own. */
  lemma ShortPasswordsDistinct(p: string, q: string)
    requires '\0' !in p && '\0' !in q
    requires |Utf8(p)| < KeyLength && |Utf8(q)| < KeyLength
    requires BcryptKey(p) == BcryptKey(q)
    ensures p == q
  {
    var bp, bq := Utf8(p), Utf8(q);
    var k := BcryptKey(p);
    KeyTerminator(p);
    KeyTerminator(q);
    assert |bp| == |bq|;
    assert bp == k[..|bp|] == bq;
    Utf8Injective(p, q);
  }

  /** A password matches its own hash, and another password exactly when it
      derives the same key; for passwords without NUL under 72 UTF-8 bytes
      that is only the password itself. */
  lemma CompareHash(password: string, other: string, salt: nat)
    ensures Compare(password, Hash(password, salt))
    ensures Compare(other, Hash(password, salt)) <==> BcryptKey(other) == BcryptKey(password)
    ensures '\0' !in password && '\0' !in other &&
            |Utf8(password)| < KeyLength && |Utf8(other)| < KeyLength ==>
              (Compare(other, Hash(password, salt)) <==> other == password)
  {
    if '\0' !in password && '\0' !in other && |Utf8(password)| < KeyLength && |Utf8(other)| < KeyLength
       && Compare(other, Hash(password, salt)) {
      ShortPasswordsDistinct(other, password);
    }
  }

  /** Two passwords that agree in their first 72 bytes match each other's
      hashes: seventy-two `a`s followed by `x` or by `y`. */
  lemma TruncationCollision(salt: nat)
    ensures var a := seq(72, _ => 'a');
            a + "x" != a + "y" && Compare(a + "y", Hash(a + "x", salt))
  {
    var a := seq(72, _ => 'a');
    assert (a + "x")[72] != (a + "y")[72];
    Utf8Append(a, "x");
    Utf8Append(a, "y");
    Utf8Ascii(a);
    assert Utf8(a + "x")[..72] == Utf8(a) == Utf8(a + "y")[..72];
    LongPasswordKey(a + "x", salt);
    LongPasswordKey(a + "y", salt);
  }

  /** The key repeats the terminated password, so "a", NUL, "a" repeats what
      "a" does and matches its hash. */
  lemma NulCollision(salt: nat)
    ensures "a\0a" != "a" && Compare("a\0a", Hash("a", salt))
  {
    assert Utf8("a") == [0x61];
    assert Utf8("a\0a") == [0x61, 0, 0x61] by {
      assert "a\0a"[1..] == "\0a" && "\0a"[1..] == "a";
    }
    var b: seq<byte> := [0x61, 0];
    assert Utf8("a\0a") + [0] == b + b && Utf8("a") + [0] == b;
    CycleDoubled(b, KeyLength);
  }

  // ---------------------------------------------------------------------------

  /** The payload `jwt.sign` receives at login. */
  datatype Claims = Claims(userId: nat, email: string, role: string)

  /** A signed token: payload, `iat`/`exp` in seconds, and the signing key. */
  datatype Jwt = Jwt(claims: Claims, issuedAt: int, expiresAt: int, key: string)

  /** `expiresIn: '24h'`, in seconds. */
  const TokenLifetime: nat := 24 * 60 * 60

  /** `jwt.sign(claims, secret, { expiresIn: '24h' })` at time `now` (seconds). */
  function Sign(claims: Claims, secret: string, now: int): (t: Jwt)
    ensures t.expiresAt - t.issuedAt == 86400
  {
    Jwt(claims, now, now + TokenLifetime, secret)
  }

  /** `jwt.verify(token, secret)` at time `now`: the claims when the token was
      signed with `secret` and has not expired. */
  function VerifyJwt(t: Jwt, secret: string, now: int): (c: Option<Claims>)
    ensures c.Some? <==> t.key == secret && now < t.expiresAt
    ensures c.Some? ==> c.value == t.claims
  {
    if t.key == secret && now < t.expiresAt then Some(t.claims) else None
  }

  /** Within 24 hours a token verifies to the claims it was signed with;
      from the 24th hour on, or under another key, it does not verify. */
  lemma SignVerify(claims: Claims, secret: string, other: string, now: int, later: int)
    requires now <= later
    ensures later < now + 86400 ==> VerifyJwt(Sign(claims, secret, now), secret, later) == Some(claims)
    ensures later >= now + 86400 ==> VerifyJwt(Sign(claims, secret, now), secret, later) == None
    ensures other != secret ==> VerifyJwt(Sign(claims, secret, now), other, later) == None
  {
  }
}

=== FILE: dashboard_api.dfy ===
/** The read-only logic of InnoUni/backend/api/dashboard.js: the zero-defaulting
    of the statistics object, the recent-activity feed (tag, merge, stable sort
    newest first, cut to `limit`) and the filters behind the recommendations.
    The SQL aggregates themselves are not modelled: their result rows are inputs. */
module DashboardApi {
  import opened Common
  import opened Schema
  import opened Sorting
  import StudentApi

  // ---------------------------------------------------------------------------
  // Statistics

  /** A row of an aggregate query: column name to value. A column that is
      NULL is absent, which `?.` and `||` treat like a missing row. */
  type Row = map<string, real>

  /** `rows[0]?.column`. */
  function Column(rows: seq<Row>, column: string): (v: Option<real>)
    ensures v.Some? <==> rows != [] && column in rows[0]
    ensures v.Some? ==> v.value == rows[0][column]
  {
    if rows == [] || column !in rows[0] then None else Some(rows[0][column])
  }

  /** `v` is what `rows[0]?.column || 0` yields: the column of the first row,
      or 0 when there is no row or the column is NULL. */
  predicate Reports(rows: seq<Row>, column: string, v: real)
  {
    v == (if rows != [] && column in rows[0] then rows[0][column] else 0.0)
  }

  /** `value || 0` on a number: a missing value becomes 0, any other value,
      0 included, is kept. */
  function OrZero(v: Option<real>): (r: real)
    ensures v.None? ==> r == 0.0
    ensures v.Some? ==> r == v.value
  {
    if v.None? || v.value == 0.0 then 0.0 else v.value
  }

  /** `Math.round`: the nearest integer, halves rounded up. */
  function Round(x: real): (r: int)
    ensures r as real - 0.5 <= x < r as real + 0.5
  {
    (x + 0.5).Floor
  }

  datatype CourseStats = CourseStats(active: real, completed: real, avgProgress: real, newThisWeek: real)
  datatype TaskStats = TaskStats(total: real, overdue: real, inProgress: real,
                                 completedThisWeek: real, dueThisWeek: real)
  datatype GroupStats = GroupStats(active: real, leading: real, newThisMonth: real)
  /** `lastStudyDate` has no fallback: a missing value stays missing. */
  datatype LearningStats = LearningStats(currentStreak: real, estimatedHours: int, lastStudyDate: Option<real>)
  datatype AchievementStats = AchievementStats(total: real, earnedThisMonth: real)
  datatype Stats = Stats(courses: CourseStats, tasks: TaskStats, groups: GroupStats,
                         learning: LearningStats, achievements: AchievementStats)

  /** `GET /stats/:userId`: the response object built from the result rows of
      the six aggregate queries. */
  function DashboardStats(courseRows: seq<Row>, taskRows: seq<Row>, groupRows: seq<Row>,
                          streakRows: seq<Row>, achievementRows: seq<Row>, hoursRows: seq<Row>): (s: Stats)
    ensures courseRows == [] ==> s.courses == CourseStats(0.0, 0.0, 0.0, 0.0)
    ensures taskRows == [] ==> s.tasks == TaskStats(0.0, 0.0, 0.0, 0.0, 0.0)
    ensures groupRows == [] ==> s.groups == GroupStats(0.0, 0.0, 0.0)
    ensures achievementRows == [] ==> s.achievements == AchievementStats(0.0, 0.0)
    ensures streakRows == [] ==> s.learning.currentStreak == 0.0 && s.learning.lastStudyDate.None?
    ensures hoursRows == [] ==> s.learning.estimatedHours == 0
    ensures courseRows != [] && "active_courses" in courseRows[0] ==>
              s.courses.active == courseRows[0]["active_courses"]
    ensures courseRows != [] && "avg_progress" in courseRows[0] ==>
              s.courses.avgProgress == courseRows[0]["avg_progress"]
    ensures taskRows != [] && "overdue_tasks" in taskRows[0] ==>
              s.tasks.overdue == taskRows[0]["overdue_tasks"]
    ensures groupRows != [] && "groups_leading" in groupRows[0] ==>
              s.groups.leading == groupRows[0]["groups_leading"]
    ensures s.learning.lastStudyDate == Column(streakRows, "last_study_date")
    ensures Reports(courseRows, "active_courses", s.courses.active)
    ensures Reports(courseRows, "completed_courses", s.courses.completed)
    ensures Reports(courseRows, "avg_progress", s.courses.avgProgress)
    ensures Reports(courseRows, "new_courses_this_week", s.courses.newThisWeek)
    ensures Reports(taskRows, "total_tasks", s.tasks.total)
    ensures Reports(taskRows, "overdue_tasks", s.tasks.overdue)
    ensures Reports(taskRows, "in_progress_tasks", s.tasks.inProgress)
    ensures Reports(taskRows, "completed_this_week", s.tasks.completedThisWeek)
    ensures Reports(taskRows, "due_this_week", s.tasks.dueThisWeek)
    ensures Reports(groupRows, "active_groups", s.groups.active)
    ensures Reports(groupRows, "groups_leading", s.groups.leading)
    ensures Reports(groupRows, "new_groups_this_month", s.groups.newThisMonth)
    ensures Reports(streakRows, "current_streak", s.learning.currentStreak)
    ensures Reports(achievementRows, "total_achievements", s.achievements.total)
    ensures Reports(achievementRows, "earned_this_month", s.achievements.earnedThisMonth)
    ensures !(hoursRows != [] && "estimated_hours" in hoursRows[0]) ==> s.learning.estimatedHours == 0
    ensures hoursRows != [] && "estimated_hours" in hoursRows[0] ==>
              s.learning.estimatedHours as real - 0.5 <= hoursRows[0]["estimated_hours"]
                < s.learning.estimatedHours as real + 0.5
  {
    Stats(
      CourseStats(OrZero(Column(courseRows, "active_courses")), OrZero(Column(courseRows, "completed_courses")),
                  OrZero(Column(courseRows, "avg_progress")), OrZero(Column(courseRows, "new_courses_this_week"))),
      TaskStats(OrZero(Column(taskRows, "total_tasks")), OrZero(Column(taskRows, "overdue_tasks")),
                OrZero(Column(taskRows, "in_progress_tasks")), OrZero(Column(taskRows, "completed_this_week")),
                OrZero(Column(taskRows, "due_this_week"))),
      GroupStats(OrZero(Column(groupRows, "active_groups")), OrZero(Column(groupRows, "groups_leading")),
                 OrZero(Column(groupRows, "new_groups_this_month"))),
      LearningStats(OrZero(Column(streakRows, "current_streak")),
                    Round(OrZero(Column(hoursRows, "estimated_hours"))),
                    Column(streakRows, "last_study_date")),
      AchievementStats(OrZero(Column(achievementRows, "total_achievements")),
                       OrZero(Column(achievementRows, "earned_this_month"))))
  }

  // ---------------------------------------------------------------------------
  // Recent activity

  /** One row of the four activity queries. `timestamp` is in epoch milliseconds. */
  datatype Activity = Activity(kind: string, timestamp: int, title: string, action: string)

  /** `{ ...a, icon, color }`. */
  datatype FeedItem = FeedItem(activity: Activity, icon: string, color: string)

  const CourseIcon := "fa-graduation-cap"
  const TaskIcon := "fa-check-circle"
  const GroupIcon := "fa-user-plus"
  const AchievementIcon := "fa-trophy"

  /** `rows.map(a => ({ ...a, icon, color }))`. */
  function Tag(rows: seq<Activity>, icon: string, color: string): (r: seq<FeedItem>)
    ensures |r| == |rows|
    ensures forall i :: 0 <= i < |rows| ==> r[i] == FeedItem(rows[i], icon, color)
  {
    seq(|rows|, i requires 0 <= i < |rows| => FeedItem(rows[i], icon, color))
  }

  /** The four sources tagged and concatenated: courses, tasks, groups, achievements. */
  function Merge(courses: seq<Activity>, tasks: seq<Activity>, groups: seq<Activity>,
                 achievements: seq<Activity>): (r: seq<FeedItem>)
    ensures |r| == |courses| + |tasks| + |groups| + |achievements|
    ensures forall i :: 0 <= i < |courses| ==> r[i] == FeedItem(courses[i], CourseIcon, "blue")
    ensures forall i :: |courses| <= i < |courses| + |tasks| ==>
              r[i] == FeedItem(tasks[i - |courses|], TaskIcon, "green")
    ensures forall i :: |courses| + |tasks| <= i < |courses| + |tasks| + |groups| ==>
              r[i] == FeedItem(groups[i - |courses| - |tasks|], GroupIcon, "purple")
    ensures forall i :: |courses| + |tasks| + |groups| <= i < |r| ==>
              r[i] == FeedItem(achievements[i - |courses| - |tasks| - |groups|], AchievementIcon, "yellow")
  {
    Tag(courses, CourseIcon, "blue") + Tag(tasks, TaskIcon, "green")
    + Tag(groups, GroupIcon, "purple") + Tag(achievements, AchievementIcon, "yellow")
  }

  /** The sort key of `new Date(b.timestamp) - new Date(a.timestamp)`. */
  function Timestamp(x: FeedItem): int
  {
    x.activity.timestamp
  }

  const DefaultActivityLimit := 10

  /** `const { limit = 10 } = req.query` followed by `parseInt(limit)`. */
  function ActivityLimit(limit: Option<string>): (l: Option<int>)
    ensures limit.None? ==> l == Some(DefaultActivityLimit)
    ensures limit.Some? ==> l == ParseInt(limit.value)
  {
    if limit.None? then Some(DefaultActivityLimit) else ParseInt(limit.value)
  }

  /** `GET /activity/:userId`. The four query results are inputs. A limit that
      parses to NaN or a negative number is refused by the `LIMIT ?` of those
      queries, and the handler replies 500. */
  function RecentActivity(limit: Option<string>, courses: seq<Activity>, tasks: seq<Activity>,
                          groups: seq<Activity>, achievements: seq<Activity>): (r: Result<seq<FeedItem>>)
    ensures r.Err? <==> ActivityLimit(limit).None? || ActivityLimit(limit).value < 0
    ensures r.Err? ==> r.reply == InternalError
    ensures r.Ok? ==> |r.value| == Min(ActivityLimit(limit).value, |courses| + |tasks| + |groups| + |achievements|)
    ensures r.Ok? ==> SortedDesc(r.value, Timestamp)
    ensures r.Ok? ==> r.value <= SortDesc(Merge(courses, tasks, groups, achievements), Timestamp)
    ensures r.Ok? ==> multiset(r.value) <= multiset(Merge(courses, tasks, groups, achievements))
  {
    var l := ActivityLimit(limit);
    if l.None? || l.value < 0 then Err(InternalError)
    else
      var sorted := SortDesc(Merge(courses, tasks, groups, achievements), Timestamp);
      var r := Take(sorted, l.value);
      PrefixSorted(sorted, |r|, Timestamp);
      PrefixMultiset(sorted, |r|);
      Ok(r)
  }

  lemma PrefixSorted<T>(s: seq<T>, n: nat, key: T -> int)
    requires SortedDesc(s, key) && n <= |s|
    ensures SortedDesc(s[..n], key)
  {
  }

  lemma PrefixMultiset<T>(s: seq<T>, n: nat)
    requires n <= |s|
    ensures multiset(s[..n]) <= multiset(s)
  {
    assert s == s[..n] + s[n..];
  }

  /** Every item of the merge is a row of one of the four sources, with that
      source's icon and colour. */
  lemma MergedItemsAreTaggedSourceRows(courses: seq<Activity>, tasks: seq<Activity>,
                                       groups: seq<Activity>, achievements: seq<Activity>, x: FeedItem)
    requires x in Merge(courses, tasks, groups, achievements)
    ensures || (x.activity in courses && x.icon == CourseIcon && x.color == "blue")
            || (x.activity in tasks && x.icon == TaskIcon && x.color == "green")
            || (x.activity in groups && x.icon == GroupIcon && x.color == "purple")
            || (x.activity in achievements && x.icon == AchievementIcon && x.color == "yellow")
  {
    var m := Merge(courses, tasks, groups, achievements);
    var i :| 0 <= i < |m| && m[i] == x;
    var a, b, c := |courses|, |courses| + |tasks|, |courses| + |tasks| + |groups|;
    if i < a {
      assert courses[i] in courses;
    } else if i < b {
      assert tasks[i - a] in tasks;
    } else if i < c {
      assert groups[i - b] in groups;
    } else {
      assert achievements[i - c] in achievements;
    }
  }

  /** Every item of the feed is a row of one of the four sources, with that
      source's icon and colour. */
  lemma FeedItemsAreTaggedSourceRows(limit: Option<string>, courses: seq<Activity>, tasks: seq<Activity>,
                                     groups: seq<Activity>, achievements: seq<Activity>, x: FeedItem)
    requires RecentActivity(limit, courses, tasks, groups, achievements).Ok?
    requires x in RecentActivity(limit, courses, tasks, groups, achievements).value
    ensures || (x.activity in courses && x.icon == CourseIcon && x.color == "blue")
            || (x.activity in tasks && x.icon == TaskIcon && x.color == "green")
            || (x.activity in groups && x.icon == GroupIcon && x.color == "purple")
            || (x.activity in achievements && x.icon == AchievementIcon && x.color == "yellow")
  {
    var feed := RecentActivity(limit, courses, tasks, groups, achievements).value;
    var m := Merge(courses, tasks, groups, achievements);
    assert x in multiset(feed);
    assert multiset(feed) <= multiset(m);
    assert x in multiset(m);
    MergedItemsAreTaggedSourceRows(courses, tasks, groups, achievements, x);
  }

  /** The items of a prefix with a given key are a prefix of those of the whole. */
  lemma {:induction false} WithKeyOfPrefix<T>(s: seq<T>, n: nat, key: T -> int, k: int)
    requires n <= |s|
    ensures WithKey(s[..n], key, k) <= WithKey(s, key, k)
  {
    if n > 0 {
      WithKeyOfPrefix(s[1..], n - 1, key, k);
      assert s[..n][1..] == s[1..][..n - 1];
    }
  }

  /** Ties keep the concatenation order: among the returned items with one
      timestamp, course rows come before task rows, before group rows, before
      achievement rows, each in its query's order, and they are the first such
      items of the merge. */
  lemma FeedTiesKeepSourceOrder(limit: Option<string>, courses: seq<Activity>, tasks: seq<Activity>,
                                groups: seq<Activity>, achievements: seq<Activity>, k: int)
    requires RecentActivity(limit, courses, tasks, groups, achievements).Ok?
    ensures WithKey(RecentActivity(limit, courses, tasks, groups, achievements).value, Timestamp, k)
              <= WithKey(Merge(courses, tasks, groups, achievements), Timestamp, k)
  {
    var m := Merge(courses, tasks, groups, achievements);
    var sorted := SortDesc(m, Timestamp);
    var feed := RecentActivity(limit, courses, tasks, groups, achievements).value;
    assert feed == sorted[..|feed|];
    WithKeyOfPrefix(sorted, |feed|, Timestamp, k);
    SortDescStable(m, Timestamp, k);
  }

  // ---------------------------------------------------------------------------
  // Recommendations

  /** `s.filter(p)`, the rows a `WHERE` keeps, in table order. */
  function Filter<T(!new)>(s: seq<T>, p: T -> bool): (r: seq<T>)
    ensures |r| <= |s|
    ensures forall x :: x in r <==> x in s && p(x)
    ensures forall i :: 0 <= i < |r| ==> p(r[i])
  {
    if s == [] then []
    else (if p(s[0]) then [s[0]] else []) + Filter(s[1..], p)
  }

  /** The items after position `n` of a descending sequence rank no higher than those before it. */
  lemma SortedPrefixIsTop<T(!new)>(s: seq<T>, n: nat, key: T -> int, e: T)
    requires SortedDesc(s, key) && n <= |s|
    requires e in s && e !in s[..n]
    ensures forall x :: x in s[..n] ==> key(x) >= key(e)
  {
    var j :| 0 <= j < |s| && s[j] == e;
    forall k | 0 <= k < n
      ensures s[k] != e
    {
      assert s[..n][k] == s[k];
    }
    forall x | x in s[..n]
      ensures key(x) >= key(e)
    {
      var i :| 0 <= i < n && s[..n][i] == x;
      assert s[i] == x;
    }
  }

  const RecommendationLimit := 3

  /** `t.assigned_to = ? AND t.status = 'pending' AND t.due_date < CURDATE()`. */
  predicate IsOverdueFor(t: Task, userId: nat, today: int)
  {
    t.assignedTo == Some(userId) && t.status == Pending && t.dueDate.Some? && t.dueDate.value < today
  }

  /** `ORDER BY t.due_date ASC` as a descending key. */
  function SoonestFirst(t: Task): int
  {
    if t.dueDate.Some? then -t.dueDate.value else 0
  }

  /** The rows the overdue query's `WHERE` keeps. */
  function OverdueRows(tasks: seq<Task>, userId: nat, today: int): (r: seq<Task>)
    ensures forall t :: t in r <==> t in tasks && IsOverdueFor(t, userId, today)
  {
    Filter(tasks, t => IsOverdueFor(t, userId, today))
  }

  /** The first `n` items of `s` ordered by `key`, largest first: `ORDER BY ... LIMIT n`. */
  function TopN<T(==,!new)>(s: seq<T>, key: T -> int, n: nat): (r: seq<T>)
    ensures |r| == Min(n, |s|)
    ensures SortedDesc(r, key)
    ensures forall x :: x in r ==> x in s
    ensures multiset(r) <= multiset(s)
    ensures forall e, x :: e in s && e !in r && x in r ==> key(x) >= key(e)
  {
    var sorted := SortDesc(s, key);
    var r := Take(sorted, n);
    PrefixSorted(sorted, |r|, key);
    assert sorted == r + sorted[|r|..];
    assert multiset(sorted) == multiset(r) + multiset(sorted[|r|..]);
    forall x | x in r
      ensures x in s
    {
      assert x in multiset(sorted);
    }
    forall e | e in s && e !in r
      ensures forall x :: x in r ==> key(x) >= key(e)
    {
      assert e in multiset(sorted);
      SortedPrefixIsTop(sorted, |r|, key, e);
    }
    r
  }

  /** The overdue recommendations: the caller's pending tasks due strictly
      before today, soonest first, at most three. Among tasks with the same due
      date the model keeps table order, one of the orders the SQL allows. */
  function OverdueTasks(tasks: seq<Task>, userId: nat, today: int): (r: seq<Task>)
    ensures |r| == Min(RecommendationLimit, |OverdueRows(tasks, userId, today)|)
    ensures multiset(r) <= multiset(OverdueRows(tasks, userId, today))
    ensures forall i :: 0 <= i < |r| ==> r[i] in tasks && IsOverdueFor(r[i], userId, today)
    ensures forall i, j :: 0 <= i < j < |r| ==> r[i].dueDate.value <= r[j].dueDate.value
    ensures forall t, i :: t in tasks && IsOverdueFor(t, userId, today) && t !in r && 0 <= i < |r| ==>
              r[i].dueDate.value <= t.dueDate.value
  {
    var eligible := OverdueRows(tasks, userId, today);
    var r := TopN(eligible, SoonestFirst, RecommendationLimit);
    forall i | 0 <= i < |r|
      ensures r[i] in tasks && IsOverdueFor(r[i], userId, today)
    {
      assert r[i] in r;
    }
    forall i, j | 0 <= i < j < |r|
      ensures r[i].dueDate.value <= r[j].dueDate.value
    {
      assert SoonestFirst(r[i]) >= SoonestFirst(r[j]);
    }
    forall t, i | t in tasks && IsOverdueFor(t, userId, today) && t !in r && 0 <= i < |r|
      ensures r[i].dueDate.value <= t.dueDate.value
    {
      assert t in eligible && r[i] in r;
      assert SoonestFirst(r[i]) >= SoonestFirst(t);
    }
    r
  }

  /** One available group with its `member_count`. */
  datatype GroupChoice = GroupChoice(group: Group, memberCount: nat)

  /** `g.status = 'active' AND g.id NOT IN (... user_id = ?) ... HAVING member_count < 10`. */
  predicate IsAvailableTo(g: Group, members: seq<GroupMember>, userId: nat)
  {
    g.status == GroupActive && !HasKey(members, MemberKey, (g.id, userId))
    && StudentApi.MemberCount(members, g.id) < StudentApi.MaxGroupSize
  }

  /** The rows the available-groups query keeps. */
  function AvailableRows(groups: seq<Group>, members: seq<GroupMember>, userId: nat): (r: seq<Group>)
    ensures forall g :: g in r <==> g in groups && IsAvailableTo(g, members, userId)
  {
    Filter(groups, g => IsAvailableTo(g, members, userId))
  }

  function WithCount(members: seq<GroupMember>, groups: seq<Group>): (r: seq<GroupChoice>)
    ensures |r| == |groups|
    ensures forall i :: 0 <= i < |r| ==> r[i] == GroupChoice(groups[i], StudentApi.MemberCount(members, groups[i].id))
  {
    seq(|groups|, i requires 0 <= i < |groups| => GroupChoice(groups[i], StudentApi.MemberCount(members, groups[i].id)))
  }

  function Count(c: GroupChoice): int
  {
    c.memberCount
  }

  /** The group recommendations: active groups the caller is not in with room
      left, fullest first, at most three. Ties keep table order. */
  function AvailableGroups(groups: seq<Group>, members: seq<GroupMember>, userId: nat): (r: seq<GroupChoice>)
    ensures |r| == Min(RecommendationLimit, |AvailableRows(groups, members, userId)|)
    ensures multiset(r) <= multiset(WithCount(members, AvailableRows(groups, members, userId)))
    ensures forall i :: 0 <= i < |r| ==>
              r[i].group in groups && IsAvailableTo(r[i].group, members, userId) &&
              r[i].memberCount == StudentApi.MemberCount(members, r[i].group.id)
    ensures SortedDesc(r, Count)
    ensures forall g, i :: g in groups && IsAvailableTo(g, members, userId) && 0 <= i < |r| &&
                           GroupChoice(g, StudentApi.MemberCount(members, g.id)) !in r ==>
              r[i].memberCount >= StudentApi.MemberCount(members, g.id)
  {
    var counted := WithCount(members, AvailableRows(groups, members, userId));
    var r := TopN(counted, Count, RecommendationLimit);
    TopChoicesAreAvailable(groups, members, userId, r);
    TopChoicesAreFullest(groups, members, userId, r);
    r
  }

  /** Each row of a prefix of the counted choices is an available group with its count. */
  lemma TopChoicesAreAvailable(groups: seq<Group>, members: seq<GroupMember>, userId: nat, r: seq<GroupChoice>)
    requires forall x :: x in r ==> x in WithCount(members, AvailableRows(groups, members, userId))
    ensures forall i :: 0 <= i < |r| ==>
              r[i].group in groups && IsAvailableTo(r[i].group, members, userId) &&
              r[i].memberCount == StudentApi.MemberCount(members, r[i].group.id)
  {
    var eligible := AvailableRows(groups, members, userId);
    var counted := WithCount(members, eligible);
    forall i | 0 <= i < |r|
      ensures r[i].group in groups && IsAvailableTo(r[i].group, members, userId)
      ensures r[i].memberCount == StudentApi.MemberCount(members, r[i].group.id)
    {
      assert r[i] in r;
      var j :| 0 <= j < |counted| && counted[j] == r[i];
      assert counted[j].group == eligible[j];
    }
  }

  /** No available group left out of the top choices has more members than one kept. */
  lemma TopChoicesAreFullest(groups: seq<Group>, members: seq<GroupMember>, userId: nat, r: seq<GroupChoice>)
    requires forall e, x :: e in WithCount(members, AvailableRows(groups, members, userId)) && e !in r && x in r ==>
               Count(x) >= Count(e)
    ensures forall g, i :: g in groups && IsAvailableTo(g, members, userId) && 0 <= i < |r| &&
                           GroupChoice(g, StudentApi.MemberCount(members, g.id)) !in r ==>
              r[i].memberCount >= StudentApi.MemberCount(members, g.id)
  {
    var eligible := AvailableRows(groups, members, userId);
    var counted := WithCount(members, eligible);
    forall g, i | g in groups && IsAvailableTo(g, members, userId) && 0 <= i < |r| &&
                  GroupChoice(g, StudentApi.MemberCount(members, g.id)) !in r
      ensures r[i].memberCount >= StudentApi.MemberCount(members, g.id)
    {
      var c := GroupChoice(g, StudentApi.MemberCount(members, g.id));
      assert g in eligible;
      var j :| 0 <= j < |eligible| && eligible[j] == g;
      assert counted[j] == c;
      assert r[i] in r;
      assert Count(r[i]) >= Count(c);
    }
  }

  /** Every recommended group passes the checks of `POST /groups/:groupId/join`:
      the caller is not yet a member, the group is active and not full. */
  lemma RecommendedGroupsAreJoinable(groups: seq<Group>, members: seq<GroupMember>, userId: nat, i: nat)
    requires i < |AvailableGroups(groups, members, userId)|
    ensures var g := AvailableGroups(groups, members, userId)[i].group;
            !HasKey(members, MemberKey, (g.id, userId)) && StudentApi.GroupIsActive(groups, g.id) &&
            StudentApi.MemberCount(members, g.id) < StudentApi.MaxGroupSize
  {
    var g := AvailableGroups(groups, members, userId)[i].group;
    var j :| 0 <= j < |groups| && groups[j] == g;
    assert groups[j].id == g.id && groups[j].status == GroupActive;
  }

  /** `c.id NOT IN (SELECT course_id ... user_id = ?) AND c.status = 'active'`. */
  predicate IsRecommendable(c: Course, enrollments: seq<Enrollment>, userId: nat)
  {
    c.status == Some(CourseActive) && !HasKey(enrollments, EnrollmentKey, (c.id, userId))
  }

  /** The distinct rows the recommended-courses query chooses from. */
  function RecommendableRows(courses: seq<Course>, enrollments: seq<Enrollment>, userId: nat): (r: seq<Course>)
    ensures forall c :: c in r <==> c in courses && IsRecommendable(c, enrollments, userId)
  {
    Filter(courses, c => IsRecommendable(c, enrollments, userId))
  }

  /** `ORDER BY RAND() LIMIT 3` over the distinct recommendable courses: any
      three of them (all when fewer), none twice. */
  predicate IsCourseRecommendation(r: seq<Course>, courses: seq<Course>, enrollments: seq<Enrollment>, userId: nat)
  {
    var eligible := RecommendableRows(courses, enrollments, userId);
    && |r| == Min(RecommendationLimit, |eligible|)
    && (forall i :: 0 <= i < |r| ==> r[i] in courses && IsRecommendable(r[i], enrollments, userId))
    && (forall i, j :: 0 <= i < j < |r| ==> r[i] != r[j])
  }

  /** The first three distinct recommendable courses are one such choice, so
      the specification of the random pick can always be met. */
  lemma FirstCoursesAreARecommendation(courses: seq<Course>, enrollments: seq<Enrollment>, userId: nat)
    requires UniqueBy(courses, CourseId)
    ensures IsCourseRecommendation(Take(RecommendableRows(courses, enrollments, userId), RecommendationLimit),
                                   courses, enrollments, userId)
  {
    FilterUnique(courses, c => IsRecommendable(c, enrollments, userId));
  }

  /** Filtering a table with a primary key leaves rows that are pairwise distinct. */
  lemma {:induction false} FilterUnique(courses: seq<Course>, p: Course -> bool)
    requires UniqueBy(courses, CourseId)
    ensures forall i, j :: 0 <= i < j < |Filter(courses, p)| ==> Filter(courses, p)[i] != Filter(courses, p)[j]
  {
    if courses != [] {
      UniqueCons(courses[0], courses[1..], CourseId);
      assert [courses[0]] + courses[1..] == courses;
      FilterUnique(courses[1..], p);
      var rest := Filter(courses[1..], p);
      forall j | 0 <= j < |rest|
        ensures rest[j] != courses[0]
      {
        assert rest[j] in courses[1..];
        var k :| 0 <= k < |courses[1..]| && courses[1..][k] == rest[j];
        assert CourseId(courses[1..][k]) != CourseId(courses[0]);
      }
    }
  }
}

=== FILE: dashboard_view.dfy ===
/** The decisions of the shared dashboard script InnoUni/frontend/js/dashboard.js:
    relative times, the quick-action buttons, the notification badge and the
    truncation of search results. The DOM itself is not modelled. */
module DashboardView {
  import opened Common
  import opened Page
  import Schema
  import DashboardApi

  const MinuteMs := 60000
  const HourMs := 3600000
  const DayMs := 86400000

  /** `formatTime(timestamp)`, given `now - timestamp` in milliseconds and the
      `toLocaleDateString('uz-UZ')` text of the timestamp (a library call).
      `Math.floor` of a division by a positive number is Dafny's `/`. */
  function FormatTime(diffMs: int, localeDate: string): (r: string)
    ensures diffMs < MinuteMs ==> r == "Hozirgina"
    ensures MinuteMs <= diffMs < HourMs ==>
              1 <= diffMs / MinuteMs < 60 && r == IntToString(diffMs / MinuteMs) + " daqiqa oldin"
    ensures HourMs <= diffMs < DayMs ==>
              1 <= diffMs / HourMs < 24 && r == IntToString(diffMs / HourMs) + " soat oldin"
    ensures DayMs <= diffMs < 7 * DayMs ==>
              1 <= diffMs / DayMs < 7 && r == IntToString(diffMs / DayMs) + " kun oldin"
    ensures 7 * DayMs <= diffMs ==> r == localeDate
  {
    var mins := diffMs / MinuteMs;
    var hours := diffMs / HourMs;
    var days := diffMs / DayMs;
    if mins < 1 then "Hozirgina"
    else if mins < 60 then IntToString(mins) + " daqiqa oldin"
    else if hours < 24 then IntToString(hours) + " soat oldin"
    else if days < 7 then IntToString(days) + " kun oldin"
    else localeDate
  }

  /** The number in a relative time is the count of whole units elapsed, and
      `parseInt` reads it back: `n` minutes means at least `n` and fewer than
      `n + 1` minutes ago. */
  lemma FormatTimeCountsWholeUnits(diffMs: int, localeDate: string)
    requires MinuteMs <= diffMs < 7 * DayMs
    ensures var n := ParseInt(FormatTime(diffMs, localeDate));
            n.Some? && 1 <= n.value &&
            (diffMs < HourMs ==> n.value * MinuteMs <= diffMs < (n.value + 1) * MinuteMs) &&
            (HourMs <= diffMs < DayMs ==> n.value * HourMs <= diffMs < (n.value + 1) * HourMs) &&
            (DayMs <= diffMs ==> n.value * DayMs <= diffMs < (n.value + 1) * DayMs)
  {
    if diffMs < HourMs {
      ParseIntOfNatThen(diffMs / MinuteMs, " daqiqa oldin");
    } else if diffMs < DayMs {
      ParseIntOfNatThen(diffMs / HourMs, " soat oldin");
    } else {
      ParseIntOfNatThen(diffMs / DayMs, " kun oldin");
    }
  }

  // ---------------------------------------------------------------------------

  const CoursesPage := "/secondary.html/dashboard/pages/courses.html"
  const GroupsPage := "/secondary.html/dashboard/pages/groups.html"
  const TasksPage := "/secondary.html/dashboard/pages/vazifalar.html"

  /** The page a quick-action title leads to. */
  function QuickActionPage(action: string): (page: Option<string>)
    ensures page.Some? <==> action in {"Yangi kurs", "Guruh yaratish", "Vazifa qo'shish"}
  {
    match action
    case "Yangi kurs" => Some(CoursesPage)
    case "Guruh yaratish" => Some(GroupsPage)
    case "Vazifa qo'shish" => Some(TasksPage)
    case _ => None
  }

  /** The three navigating titles lead to three different pages. */
  lemma QuickActionPagesDistinct()
    ensures QuickActionPage("Yangi kurs") != QuickActionPage("Guruh yaratish")
    ensures QuickActionPage("Guruh yaratish") != QuickActionPage("Vazifa qo'shish")
    ensures QuickActionPage("Yangi kurs") != QuickActionPage("Vazifa qo'shish")
  {
  }

  /** `handleQuickAction(action)`: three titles navigate, `Statistika` opens
      the statistics view (reported by `statsShown`), any other title is only
      logged. */
  method HandleQuickAction(w: Window, action: string) returns (statsShown: bool)
    modifies w
    ensures QuickActionPage(action).Some? ==> w.navigation == QuickActionPage(action)
    ensures QuickActionPage(action).None? ==> w.navigation == old(w.navigation)
    ensures statsShown <==> action == "Statistika"
    ensures w.localStorage == old(w.localStorage) && w.pathname == old(w.pathname)
    ensures w.accessDeniedShown == old(w.accessDeniedShown)
  {
    statsShown := false;
    match action {
      case "Yangi kurs" => w.navigation := Some(CoursesPage);
      case "Guruh yaratish" => w.navigation := Some(GroupsPage);
      case "Vazifa qo'shish" => w.navigation := Some(TasksPage);
      case "Statistika" => statsShown := true;
      case _ =>
    }
  }

  // ---------------------------------------------------------------------------

  /** `renderRecommendations`: the text the bell badge is set to, or None when
      the badge is left alone. `overdueCount` is the length of
      `recommendations.overdue_tasks`, None when that list is missing. */
  function BellBadge(overdueCount: Option<nat>): (badge: Option<string>)
    ensures badge.Some? <==> overdueCount.Some? && overdueCount.value > 0
    ensures badge.Some? ==> ParseInt(badge.value) == Some(overdueCount.value)
  {
    if overdueCount.Some? && overdueCount.value > 0 then
      ParseIntOfNatToString(overdueCount.value);
      Some(NatToString(overdueCount.value))
    else None
  }

  /** Fed with the server's overdue recommendations, the badge counts at most
      three tasks, and appears exactly when one of the caller's pending tasks
      is past due. */
  lemma BadgeShowsServerOverdueCount(tasks: seq<Schema.Task>, userId: nat, today: int)
    ensures var badge := BellBadge(Some(|DashboardApi.OverdueTasks(tasks, userId, today)|));
            (badge.Some? <==> |DashboardApi.OverdueRows(tasks, userId, today)| > 0) &&
            (badge.Some? ==> ParseInt(badge.value).value <= DashboardApi.RecommendationLimit)
  {
  }

  // ---------------------------------------------------------------------------

  const SearchPreview := 3

  /** The search modal: each heading shows the full count, each list at most
      the first three results. */
  datatype SearchView<C, G> = SearchView(courseHeading: string, courses: seq<C>,
                                          groupHeading: string, groups: seq<G>)

  function SearchResults<C, G>(courses: seq<C>, groups: seq<G>): (v: SearchView<C, G>)
    ensures v.courses == courses[..Min(SearchPreview, |courses|)]
    ensures v.groups == groups[..Min(SearchPreview, |groups|)]
    ensures v.courseHeading == "Kurslar (" + NatToString(|courses|) + ")"
    ensures v.groupHeading == "Guruhlar (" + NatToString(|groups|) + ")"
    ensures |v.courses| <= |courses| && |v.groups| <= |groups|
  {
    SearchView("Kurslar (" + NatToString(|courses|) + ")", Take(courses, SearchPreview),
               "Guruhlar (" + NatToString(|groups|) + ")", Take(groups, SearchPreview))
  }

  /** When more than three courses match, the heading counts more results
      than the list shows. */
  lemma SearchHeadingCountsHiddenResults<C, G>(courses: seq<C>, groups: seq<G>)
    requires |courses| > SearchPreview
    ensures |SearchResults(courses, groups).courses| == SearchPreview < |courses|
  {
  }
}

=== FILE: page.dfy ===
/** The browser state the client scripts read and write: `localStorage`,
    the current `window.location.pathname`, the page the script navigates to
    by assigning `window.location.href`, and whether the access-denied overlay
    of InnoUni/frontend/js/authHandler.js is showing. */
module Page {
  import opened Common

  const LoginPage := "/secondary.html/login/login.html"

  class Window {
    /** `localStorage`: a missing key reads as `null`. */
    var localStorage: map<string, string>
    var pathname: string
    /** The last value assigned to `window.location.href`, if any. */
    var navigation: Option<string>
    var accessDeniedShown: bool

    /** A page just loaded at `pathname` with the stored items `storage`. */
    constructor (storage: map<string, string>, pathname: string)
      ensures localStorage == storage && this.pathname == pathname
      ensures navigation.None? && !accessDeniedShown
    {
      localStorage := storage;
      this.pathname := pathname;
      navigation := None;
      accessDeniedShown := false;
    }
  }

  /** `localStorage.getItem(key)`. */
  function GetItem(storage: map<string, string>, key: string): (v: Option<string>)
    ensures v.Some? <==> key in storage
    ensures v.Some? ==> v.value == storage[key]
  {
    if key in storage then Some(storage[key]) else None
  }
}

=== FILE: schema.dfy ===
/** The relational schema that `createTables` sets up (InnoUni/backend/server.js):
    one row type per table, the ENUM columns as datatypes, the column defaults
    that inserts rely on, and the UNIQUE and PRIMARY keys as the invariant of an
    in-memory `Database` whose fields are the tables. Columns no endpoint of the
    model reads or writes (avatars, logos, created_at of users and courses) are
    omitted. */
module Schema {
  import opened Common
  import opened Credentials

  // ---------------------------------------------------------------------------
  // ENUM columns

  /** users.role ENUM('student', 'teacher', 'admin') DEFAULT 'student'. */
  datatype UserRole = StudentRole | TeacherRole | AdminRole

  const DefaultRole: UserRole := StudentRole

  function RoleName(r: UserRole): string
  {
    match r
    case StudentRole => "student"
    case TeacherRole => "teacher"
    case AdminRole => "admin"
  }

  /** Reads a role string; only the three ENUM values are roles. */
  function ParseRole(s: string): (r: Option<UserRole>)
    ensures r.Some? <==> s == "student" || s == "teacher" || s == "admin"
    ensures r.Some? ==> RoleName(r.value) == s
  {
    if s == "student" then Some(StudentRole)
    else if s == "teacher" then Some(TeacherRole)
    else if s == "admin" then Some(AdminRole)
    else None
  }

  /** Every role reads back from its name, and distinct roles have distinct names. */
  lemma RoleNameRoundTrip(r: UserRole, q: UserRole)
    ensures ParseRole(RoleName(r)) == Some(r)
    ensures RoleName(r) == RoleName(q) ==> r == q
  {
  }

  /** courses.status ENUM('active', 'inactive') DEFAULT 'active'. */
  datatype CourseStatus = CourseActive | CourseInactive

  function CourseStatusName(s: CourseStatus): string
  {
    match s
    case CourseActive => "active"
    case CourseInactive => "inactive"
  }

  function ParseCourseStatus(s: string): (r: Option<CourseStatus>)
    ensures r.Some? <==> s == "active" || s == "inactive"
    ensures r.Some? ==> CourseStatusName(r.value) == s
  {
    if s == "active" then Some(CourseActive)
    else if s == "inactive" then Some(CourseInactive)
    else None
  }

  /** groups.status ENUM('active', 'in_development', 'on_hold') DEFAULT 'active'. */
  datatype GroupStatus = GroupActive | InDevelopment | OnHold

  /** group_members.role ENUM('member', 'leader') DEFAULT 'member'. */
  datatype MemberRole = Member | Leader

  /** course_enrollments.status ENUM('active', 'completed', 'dropped') DEFAULT 'active'. */
  datatype EnrollmentStatus = EnrollmentActive | EnrollmentCompleted | Dropped

  /** tasks.priority ENUM('low', 'medium', 'high') DEFAULT 'medium'. */
  datatype Priority = Low | Medium | High

  function PriorityName(p: Priority): string
  {
    match p
    case Low => "low"
    case Medium => "medium"
    case High => "high"
  }

  function ParsePriority(s: string): (r: Option<Priority>)
    ensures r.Some? <==> s == "low" || s == "medium" || s == "high"
    ensures r.Some? ==> PriorityName(r.value) == s
  {
    if s == "low" then Some(Low)
    else if s == "medium" then Some(Medium)
    else if s == "high" then Some(High)
    else None
  }

  /** tasks.status ENUM('pending', 'in_progress', 'completed') DEFAULT 'pending'. */
  datatype TaskStatus = Pending | InProgress | TaskCompleted

  function TaskStatusName(s: TaskStatus): string
  {
    match s
    case Pending => "pending"
    case InProgress => "in_progress"
    case TaskCompleted => "completed"
  }

  function ParseTaskStatus(s: string): (r: Option<TaskStatus>)
    ensures r.Some? <==> s == "pending" || s == "in_progress" || s == "completed"
    ensures r.Some? ==> TaskStatusName(r.value) == s
  {
    if s == "pending" then Some(Pending)
    else if s == "in_progress" then Some(InProgress)
    else if s == "completed" then Some(TaskCompleted)
    else None
  }

  // ---------------------------------------------------------------------------
  // Rows. Timestamps are epoch milliseconds, DATE columns day numbers,
  // DECIMAL(5,2) progress a real number.

  datatype User = User(id: nat, fullName: string, email: string, phone: Option<string>,
                       password: PasswordHash, bio: Option<string>, role: UserRole)

  /** A NULL status is possible: an update that omits `status` writes NULL. */
  datatype Course = Course(id: nat, title: string, description: Option<string>,
                           category: Option<string>, teacherId: nat, status: Option<CourseStatus>)

  datatype Group = Group(id: nat, name: string, description: Option<string>,
                         status: GroupStatus, createdBy: nat)

  datatype GroupMember = GroupMember(groupId: nat, userId: nat, role: MemberRole, joinedAt: int)

  datatype Enrollment = Enrollment(courseId: nat, userId: nat, enrolledAt: int,
                                   progress: real, status: EnrollmentStatus)

  datatype Task = Task(id: nat, title: string, description: Option<string>, courseId: nat,
                       assignedTo: Option<nat>, priority: Option<Priority>, status: TaskStatus,
                       dueDate: Option<int>)

  datatype Award = Award(userId: nat, achievementId: nat, earnedAt: int)

  /** The whole database: the tables and the next AUTO_INCREMENT value of each
      table whose id the endpoints hand out. */
  datatype Tables = Tables(
    users: seq<User>, courses: seq<Course>, groups: seq<Group>, members: seq<GroupMember>,
    enrollments: seq<Enrollment>, tasks: seq<Task>, awards: seq<Award>,
    nextUserId: nat, nextCourseId: nat, nextGroupId: nat, nextTaskId: nat)

  // ---------------------------------------------------------------------------
  // Defaults applied by the inserts that omit a column.

  /** `INSERT INTO course_enrollments (course_id, user_id)`: progress DEFAULT 0.00,
      status DEFAULT 'active', enrolled_at DEFAULT CURRENT_TIMESTAMP. */
  function NewEnrollment(courseId: nat, userId: nat, now: int): (e: Enrollment)
    ensures e.courseId == courseId && e.userId == userId && e.enrolledAt == now
    ensures e.progress == 0.0 && e.status == EnrollmentActive
  {
    Enrollment(courseId, userId, now, 0.0, EnrollmentActive)
  }

  /** `INSERT INTO tasks (title, description, course_id, priority, due_date, assigned_to)`:
      status is omitted and takes DEFAULT 'pending'; priority is named in the
      column list, so the DEFAULT 'medium' never applies and an absent priority is NULL. */
  function NewTask(id: nat, title: string, description: Option<string>, courseId: nat,
                   priority: Option<Priority>, dueDate: Option<int>, assignedTo: Option<nat>): (t: Task)
    ensures t.status == Pending && t.priority == priority
    ensures t.id == id && t.courseId == courseId && t.assignedTo == assignedTo
  {
    Task(id, title, description, courseId, assignedTo, priority, Pending, dueDate)
  }

  // ---------------------------------------------------------------------------
  // Keys

  function UserId(u: User): nat { u.id }
  function UserEmail(u: User): string { u.email }
  function CourseId(c: Course): nat { c.id }
  function GroupId(g: Group): nat { g.id }
  function TaskId(t: Task): nat { t.id }
  /** UNIQUE KEY unique_group_user (group_id, user_id). */
  function MemberKey(m: GroupMember): (nat, nat) { (m.groupId, m.userId) }
  /** UNIQUE KEY unique_course_user (course_id, user_id). */
  function EnrollmentKey(e: Enrollment): (nat, nat) { (e.courseId, e.userId) }
  /** UNIQUE KEY unique_user_achievement (user_id, achievement_id). */
  function AwardKey(a: Award): (nat, nat) { (a.userId, a.achievementId) }

  /** No two rows of `s` share a key. */
  predicate UniqueBy<T, K(==)>(s: seq<T>, key: T -> K)
  {
    forall i, j :: 0 <= i < j < |s| ==> key(s[i]) != key(s[j])
  }

  /** Some row of `s` has key `k` (a `SELECT ... WHERE key = ?` that finds a row). */
  predicate HasKey<T, K(==)>(s: seq<T>, key: T -> K, k: K)
  {
    exists i :: 0 <= i < |s| && key(s[i]) == k
  }

  /** Every id is below the next AUTO_INCREMENT value. */
  predicate IdsBelow<T>(s: seq<T>, id: T -> nat, next: nat)
  {
    forall i :: 0 <= i < |s| ==> id(s[i]) < next
  }

  /** Appending a row whose key is new keeps a key unique. */
  lemma AppendFresh<T, K>(s: seq<T>, key: T -> K, x: T)
    requires UniqueBy(s, key) && !HasKey(s, key, key(x))
    ensures UniqueBy(s + [x], key)
  {
    var t := s + [x];
    forall i, j | 0 <= i < j < |t|
      ensures key(t[i]) != key(t[j])
    {
      if j == |s| {
        assert t[i] == s[i];
      } else {
        assert t[i] == s[i] && t[j] == s[j];
      }
    }
  }

  /** A sequence with a row in front is unique exactly when the row's key is
      new to the rest and the rest is unique. */
  lemma UniqueCons<T, K>(x: T, s: seq<T>, key: T -> K)
    ensures UniqueBy([x] + s, key) <==> !HasKey(s, key, key(x)) && UniqueBy(s, key)
  {
    var t := [x] + s;
    if !HasKey(s, key, key(x)) && UniqueBy(s, key) {
      forall i, j | 0 <= i < j < |t|
        ensures key(t[i]) != key(t[j])
      {
        assert t[j] == s[j - 1];
        if i > 0 {
          assert t[i] == s[i - 1];
        }
      }
    }
    if UniqueBy(t, key) {
      forall i | 0 <= i < |s|
        ensures key(s[i]) != key(x)
      {
        assert s[i] == t[i + 1] && x == t[0];
      }
      forall i, j | 0 <= i < j < |s|
        ensures key(s[i]) != key(s[j])
      {
        assert s[i] == t[i + 1] && s[j] == t[j + 1];
      }
    }
  }

  lemma HasKeyCons<T, K>(x: T, s: seq<T>, key: T -> K, k: K)
    ensures HasKey([x] + s, key, k) <==> key(x) == k || HasKey(s, key, k)
  {
    var t := [x] + s;
    assert t[0] == x;
    if HasKey(s, key, k) {
      var i :| 0 <= i < |s| && key(s[i]) == k;
      assert t[i + 1] == s[i];
    }
    if HasKey(t, key, k) && key(x) != k {
      var i :| 0 <= i < |t| && key(t[i]) == k;
      assert t[i] == s[i - 1];
    }
  }

  /** A row whose id is the next AUTO_INCREMENT value has a new id. */
  lemma FreshId<T>(s: seq<T>, id: T -> nat, next: nat, x: T)
    requires IdsBelow(s, id, next) && UniqueBy(s, id) && id(x) == next
    ensures !HasKey(s, id, id(x))
    ensures UniqueBy(s + [x], id) && IdsBelow(s + [x], id, next + 1)
  {
    AppendFresh(s, id, x);
  }

  /** The UNIQUE and PRIMARY keys of createTables, and the fact that every
      membership references a group id already handed out. */
  predicate ValidTables(t: Tables)
  {
    && UniqueBy(t.users, UserEmail) && UniqueBy(t.users, UserId) && IdsBelow(t.users, UserId, t.nextUserId)
    && UniqueBy(t.courses, CourseId) && IdsBelow(t.courses, CourseId, t.nextCourseId)
    && UniqueBy(t.groups, GroupId) && IdsBelow(t.groups, GroupId, t.nextGroupId)
    && UniqueBy(t.tasks, TaskId) && IdsBelow(t.tasks, TaskId, t.nextTaskId)
    && UniqueBy(t.members, MemberKey)
    && (forall i :: 0 <= i < |t.members| ==> t.members[i].groupId < t.nextGroupId)
    && UniqueBy(t.enrollments, EnrollmentKey)
    && UniqueBy(t.awards, AwardKey)
  }

  /** Replacing the users table by one that keeps its keys keeps the tables valid. */
  lemma ValidWithUsers(t: Tables, users: seq<User>)
    requires ValidTables(t)
    requires UniqueBy(users, UserEmail) && UniqueBy(users, UserId) && IdsBelow(users, UserId, t.nextUserId)
    ensures ValidTables(t.(users := users))
  {
  }

  /** Replacing the courses table by one that keeps its keys keeps the tables valid. */
  lemma ValidWithCourses(t: Tables, courses: seq<Course>, next: nat)
    requires ValidTables(t)
    requires UniqueBy(courses, CourseId) && IdsBelow(courses, CourseId, next)
    ensures ValidTables(t.(courses := courses, nextCourseId := next))
  {
  }

  const EmptyTables := Tables([], [], [], [], [], [], [], 1, 1, 1, 1)

  /** The database the handlers receive as `req.db`: one field per table. */
  class Database {
    var users: seq<User>
    var courses: seq<Course>
    var groups: seq<Group>
    var members: seq<GroupMember>
    var enrollments: seq<Enrollment>
    var tasks: seq<Task>
    var awards: seq<Award>
    var nextUserId: nat
    var nextCourseId: nat
    var nextGroupId: nat
    var nextTaskId: nat

    function Snapshot(): Tables
      reads this
    {
      Tables(users, courses, groups, members, enrollments, tasks, awards,
             nextUserId, nextCourseId, nextGroupId, nextTaskId)
    }

    ghost predicate Valid()
      reads this
    {
      ValidTables(Snapshot())
    }

    /** A freshly created schema: every table empty, AUTO_INCREMENT at 1. */
    constructor ()
      ensures Valid() && Snapshot() == EmptyTables
    {
      users, courses, groups, members := [], [], [], [];
      enrollments, tasks, awards := [], [], [];
      nextUserId, nextCourseId, nextGroupId, nextTaskId := 1, 1, 1, 1;
    }
  }
}

=== FILE: server_routes.dfy ===
/** The decisions InnoUni/backend/server.js takes itself, outside the routers:
    the `/dashboard/:userId` page route (an ownership check, then a role
    dispatch) and the validation of the contact form. The table definitions
    of `createTables` are the `Schema` module. */
module ServerRoutes {
  import opened Common
  import opened Credentials
  import Access

  /** A JavaScript value as far as `!==` needs to know it: strings and numbers. */
  datatype JsValue = JsString(s: string) | JsNumber(n: int)

  /** `a !== b`: values of different types are never strictly equal. */
  predicate StrictNotEqual(a: JsValue, b: JsValue)
  {
    match (a, b)
    case (JsString(x), JsString(y)) => x != y
    case (JsNumber(x), JsNumber(y)) => x != y
    case _ => true
  }

  /** What the route sends: one of the two dashboard pages, or a JSON error. */
  datatype PageReply = SendPage(file: string) | PageError(reply: Reply)

  const StudentPage := "student.html"
  const TeacherPage := "teacher.html"

  /** The role switch: students get the student page, teachers and admins the
      teacher page, any other role 403. */
  function RoleDispatch(role: string): (r: PageReply)
    ensures r == SendPage(StudentPage) <==> role == "student"
    ensures r == SendPage(TeacherPage) <==> role == "teacher" || role == "admin"
    ensures r.PageError? <==> role !in {"student", "teacher", "admin"}
    ensures r.PageError? ==> r.reply == Fail(403, "Invalid user role")
  {
    match role
    case "student" => SendPage(StudentPage)
    case "teacher" => SendPage(TeacherPage)
    case "admin" => SendPage(TeacherPage)
    case _ => PageError(Fail(403, "Invalid user role"))
  }

  /** The page route and the `getUserDashboard` middleware accept the same roles. */
  lemma RoleDispatchAgreesWithDashboardType(user: Claims)
    ensures RoleDispatch(user.role).SendPage? <==> Access.GetUserDashboard(user).DashboardType?
    ensures RoleDispatch(user.role).PageError? ==>
              RoleDispatch(user.role).reply == Access.GetUserDashboard(user).reply
  {
  }

  /** The route as written: the path parameter is a string, the token's
      `userId` a number, so `userId !== tokenUserId` holds for every request. */
  function DashboardRouteAsWritten(pathUserId: string, user: Claims): (r: PageReply)
    ensures r == PageError(Fail(403, "Access denied"))
  {
    if StrictNotEqual(JsString(pathUserId), JsNumber(user.userId)) then PageError(Fail(403, "Access denied"))
    else RoleDispatch(user.role)
  }

  /** Even the path naming the caller's own id is refused as written. */
  lemma OwnDashboardRefusedAsWritten(user: Claims)
    ensures DashboardRouteAsWritten(NatToString(user.userId), user) == PageError(Fail(403, "Access denied"))
    ensures DashboardRoute(NatToString(user.userId), user) == RoleDispatch(user.role)
  {
  }

  /** The route as intended: the path names the caller when it is the decimal
      rendering of the token's `userId`. */
  function DashboardRoute(pathUserId: string, user: Claims): (r: PageReply)
    ensures pathUserId != NatToString(user.userId) ==> r == PageError(Fail(403, "Access denied"))
    ensures pathUserId == NatToString(user.userId) ==> r == RoleDispatch(user.role)
  {
    if pathUserId != NatToString(user.userId) then PageError(Fail(403, "Access denied"))
    else RoleDispatch(user.role)
  }

  /** Only the owner of a dashboard reaches its page: a page sent for the path
      `/dashboard/<n>` means `n` is the caller's id. */
  lemma DashboardRouteOwnerOnly(n: nat, user: Claims)
    ensures DashboardRoute(NatToString(n), user).SendPage? <==>
              n == user.userId && user.role in {"student", "teacher", "admin"}
  {
    if NatToString(n) == NatToString(user.userId) {
      NatToStringInjective(n, user.userId);
    }
  }

  /** A request with the header the client builds, for the caller's own id,
      gets the page of the caller's role. */
  lemma SignedInUserReachesOwnDashboard(user: Claims, secret: string, signedAt: int, now: int,
                                        encoded: string, decode: string -> Option<Jwt>)
    requires encoded != "" && ' ' !in encoded
    requires decode(encoded) == Some(Sign(user, secret, signedAt))
    requires signedAt <= now < signedAt + 86400
    requires user.role == "student"
    ensures Access.AuthenticateToken(Some("Bearer " + encoded), decode, secret, now) == Access.Authenticated(user)
    ensures DashboardRoute(NatToString(user.userId), user) == SendPage(StudentPage)
  {
    Access.SignedTokenAuthenticates(user, secret, signedAt, now, encoded, decode);
  }

  // ---------------------------------------------------------------------------

  /** `POST /api/contact`. Sending the mail is I/O; `mailSent` says whether it succeeded. */
  function Contact(name: Option<string>, email: Option<string>, message: Option<string>,
                   mailSent: bool): (r: Reply)
    ensures !(Truthy(name) && Truthy(email) && Truthy(message)) <==> r == Fail(400, "All fields are required")
    ensures r == Success(200, "Message sent successfully!") <==>
              Truthy(name) && Truthy(email) && Truthy(message) && mailSent
    ensures r.status == 500 <==> Truthy(name) && Truthy(email) && Truthy(message) && !mailSent
    ensures r.status == 500 ==> r == Fail(500, "Failed to send message. Please try again later.")
  {
    if !Truthy(name) || !Truthy(email) || !Truthy(message) then Fail(400, "All fields are required")
    else if mailSent then Success(200, "Message sent successfully!")
    else Fail(500, "Failed to send message. Please try again later.")
  }
}

=== FILE: sorting.dfy ===
/** A stable sort by an integer key, largest key first, as JavaScript's
    `Array.prototype.sort` (stable since ES2019) does with a comparator
    `(a, b) => key(b) - key(a)`. Ascending orders use the negated key. */
module Sorting {

  /** Keys never increase along `s`. */
  predicate SortedDesc<T>(s: seq<T>, key: T -> int)
  {
    forall i, j :: 0 <= i < j < |s| ==> key(s[i]) >= key(s[j])
  }

  /** The items of `s` whose key is `k`, in their order in `s`. */
  function WithKey<T>(s: seq<T>, key: T -> int, k: int): seq<T>
  {
    if s == [] then [] else (if key(s[0]) == k then [s[0]] else []) + WithKey(s[1..], key, k)
  }

  /** Places `x` before the first item of `s` whose key is not larger than its own. */
  function Insert<T(==)>(x: T, s: seq<T>, key: T -> int): (r: seq<T>)
    ensures multiset(r) == multiset(s) + multiset{x}
  {
    if s == [] || key(x) >= key(s[0]) then [x] + s
    else
      assert [s[0]] + s[1..] == s;
      [s[0]] + Insert(x, s[1..], key)
  }

  lemma {:induction false} InsertSorted<T>(x: T, s: seq<T>, key: T -> int)
    requires SortedDesc(s, key)
    ensures SortedDesc(Insert(x, s, key), key)
  {
    if s != [] && key(x) < key(s[0]) {
      var tail := Insert(x, s[1..], key);
      InsertSorted(x, s[1..], key);
      forall j | 0 <= j < |tail|
        ensures key(s[0]) >= key(tail[j])
      {
        assert tail[j] in multiset(tail);
        if tail[j] != x {
          assert tail[j] in multiset(s[1..]);
          var m :| 0 <= m < |s[1..]| && s[1..][m] == tail[j];
          assert s[m + 1] == tail[j];
        }
      }
    }
  }

  function SortDesc<T(==)>(s: seq<T>, key: T -> int): (r: seq<T>)
    ensures multiset(r) == multiset(s)
    ensures |r| == |s|
    ensures SortedDesc(r, key)
  {
    if s == [] then []
    else
      assert [s[0]] + s[1..] == s;
      InsertSorted(s[0], SortDesc(s[1..], key), key);
      Insert(s[0], SortDesc(s[1..], key), key)
  }

  lemma WithKeyCons<T>(x: T, s: seq<T>, key: T -> int, k: int)
    ensures WithKey([x] + s, key, k) == (if key(x) == k then [x] else []) + WithKey(s, key, k)
  {
    assert ([x] + s)[1..] == s;
  }

  /** Inserting into a sorted sequence puts `x` ahead of every item with the same key. */
  lemma {:induction false} InsertWithKey<T>(x: T, s: seq<T>, key: T -> int, k: int)
    requires SortedDesc(s, key)
    ensures WithKey(Insert(x, s, key), key, k) == (if key(x) == k then [x] else []) + WithKey(s, key, k)
  {
    if s == [] || key(x) >= key(s[0]) {
      WithKeyCons(x, s, key, k);
    } else {
      assert [s[0]] + s[1..] == s;
      InsertWithKey(x, s[1..], key, k);
      WithKeyCons(s[0], Insert(x, s[1..], key), key, k);
      WithKeyCons(s[0], s[1..], key, k);
    }
  }

  /** Stability: items with equal keys keep their input order. */
  lemma {:induction false} SortDescStable<T>(s: seq<T>, key: T -> int, k: int)
    ensures WithKey(SortDesc(s, key), key, k) == WithKey(s, key, k)
  {
    if s != [] {
      SortDescStable(s[1..], key, k);
      InsertWithKey(s[0], SortDesc(s[1..], key), key, k);
      assert [s[0]] + s[1..] == s;
      WithKeyCons(s[0], s[1..], key, k);
    }
  }
}

=== FILE: student_api.dfy ===
/** The write endpoints of the student router (InnoUni/backend/api/student.js):
    enrolment in a course, creating, joining and leaving a study group, course
    progress, task completion, and the achievement rules run after a progress
    update. Each endpoint checks its conditions in the source's order against
    the tables of a `Database`, then inserts, updates or deletes rows of one
    table (two for group creation). The `studentOnly` gate in front of every
    route is `Access.StudentOnly`; `userId` is the caller's token claim. */
module StudentApi {
  import opened Common
  import opened Schema

  /** The member limit of a group. */
  const MaxGroupSize: nat := 10

  // ---------------------------------------------------------------------------
  // The queries the endpoints run, on the table values.

  /** `SELECT COUNT(*) FROM group_members WHERE group_id = ?`. */
  function MemberCount(ms: seq<GroupMember>, g: nat): (n: nat)
    ensures n <= |ms|
    ensures n == 0 <==> forall i :: 0 <= i < |ms| ==> ms[i].groupId != g
  {
    if ms == [] then 0 else (if ms[0].groupId == g then 1 else 0) + MemberCount(ms[1..], g)
  }

  /** `SELECT COUNT(*) FROM group_members WHERE group_id = ? AND user_id != ?`. */
  function OthersCount(ms: seq<GroupMember>, g: nat, u: nat): (n: nat)
    ensures n <= MemberCount(ms, g)
  {
    if ms == [] then 0
    else (if ms[0].groupId == g && ms[0].userId != u then 1 else 0) + OthersCount(ms[1..], g, u)
  }

  /** Appending a row adds one to the count of its group and changes no other count. */
  lemma {:induction false} MemberCountAppend(ms: seq<GroupMember>, m: GroupMember, g: nat)
    ensures MemberCount(ms + [m], g) == MemberCount(ms, g) + (if m.groupId == g then 1 else 0)
  {
    if ms != [] {
      assert (ms + [m])[1..] == ms[1..] + [m];
      MemberCountAppend(ms[1..], m, g);
    } else {
      assert [m][1..] == [];
    }
  }

  /** For a member of the group, the other members are all members but one. */
  lemma {:induction false} OthersCountOfMember(ms: seq<GroupMember>, g: nat, u: nat)
    requires UniqueBy(ms, MemberKey)
    ensures HasKey(ms, MemberKey, (g, u)) ==> OthersCount(ms, g, u) == MemberCount(ms, g) - 1
    ensures !HasKey(ms, MemberKey, (g, u)) ==> OthersCount(ms, g, u) == MemberCount(ms, g)
  {
    if ms != [] {
      assert [ms[0]] + ms[1..] == ms;
      UniqueCons(ms[0], ms[1..], MemberKey);
      HasKeyCons(ms[0], ms[1..], MemberKey, (g, u));
      OthersCountOfMember(ms[1..], g, u);
    }
  }

  /** `SELECT role FROM group_members WHERE group_id = ? AND user_id = ?`: the first such row. */
  function FindMember(ms: seq<GroupMember>, g: nat, u: nat): (m: Option<GroupMember>)
    ensures m.Some? <==> HasKey(ms, MemberKey, (g, u))
    ensures m.Some? ==> m.value in ms && MemberKey(m.value) == (g, u)
  {
    if ms == [] then None
    else if MemberKey(ms[0]) == (g, u) then Some(ms[0])
    else
      assert [ms[0]] + ms[1..] == ms;
      HasKeyCons(ms[0], ms[1..], MemberKey, (g, u));
      FindMember(ms[1..], g, u)
  }

  /** `DELETE FROM group_members WHERE group_id = ? AND user_id = ?`. */
  function RemoveMember(ms: seq<GroupMember>, g: nat, u: nat): (r: seq<GroupMember>)
    ensures !HasKey(r, MemberKey, (g, u))
    ensures forall m :: m in r <==> m in ms && MemberKey(m) != (g, u)
  {
    if ms == [] then []
    else
      var rest := RemoveMember(ms[1..], g, u);
      assert forall m :: m in ms <==> m == ms[0] || m in ms[1..];
      if MemberKey(ms[0]) == (g, u) then rest else [ms[0]] + rest
  }

  /** Deleting keeps the membership key unique. */
  lemma {:induction false} RemoveMemberUnique(ms: seq<GroupMember>, g: nat, u: nat)
    requires UniqueBy(ms, MemberKey)
    ensures UniqueBy(RemoveMember(ms, g, u), MemberKey)
  {
    if ms != [] {
      UniqueCons(ms[0], ms[1..], MemberKey);
      assert [ms[0]] + ms[1..] == ms;
      RemoveMemberUnique(ms[1..], g, u);
      var rest := RemoveMember(ms[1..], g, u);
      if MemberKey(ms[0]) != (g, u) {
        UniqueCons(ms[0], rest, MemberKey);
      }
    }
  }

  /** Deleting a membership keeps the tables valid. */
  lemma RemoveMemberKeepsValid(t: Tables, g: nat, u: nat)
    requires ValidTables(t)
    ensures ValidTables(t.(members := RemoveMember(t.members, g, u)))
  {
    RemoveMemberUnique(t.members, g, u);
    var r := RemoveMember(t.members, g, u);
    forall i | 0 <= i < |r|
      ensures r[i].groupId < t.nextGroupId
    {
      assert r[i] in t.members;
    }
  }

  /** Deleting a member takes one off the count of its group and changes no other count. */
  lemma {:induction false} RemoveMemberCount(ms: seq<GroupMember>, g: nat, u: nat, h: nat)
    requires UniqueBy(ms, MemberKey)
    ensures MemberCount(RemoveMember(ms, g, u), h) ==
              MemberCount(ms, h) - (if h == g && HasKey(ms, MemberKey, (g, u)) then 1 else 0)
  {
    if ms != [] {
      var x, tail := ms[0], ms[1..];
      assert [x] + tail == ms;
      UniqueCons(x, tail, MemberKey);
      HasKeyCons(x, tail, MemberKey, (g, u));
      RemoveMemberCount(tail, g, u, h);
      var rest := RemoveMember(tail, g, u);
      if MemberKey(x) != (g, u) {
        assert RemoveMember(ms, g, u) == [x] + rest;
        assert ([x] + rest)[1..] == rest;
      }
    }
  }

  /** No group has more than `MaxGroupSize` members. */
  ghost predicate WithinCap(ms: seq<GroupMember>)
  {
    forall g :: MemberCount(ms, g) <= MaxGroupSize
  }

  /** Adding a row to a group that is not full keeps every group within the cap. */
  lemma AppendKeepsCap(ms: seq<GroupMember>, m: GroupMember)
    requires WithinCap(ms) && MemberCount(ms, m.groupId) < MaxGroupSize
    ensures WithinCap(ms + [m])
  {
    forall g
      ensures MemberCount(ms + [m], g) <= MaxGroupSize
    {
      MemberCountAppend(ms, m, g);
    }
  }

  /** Deleting a row keeps every group within the cap. */
  lemma RemoveKeepsCap(ms: seq<GroupMember>, g: nat, u: nat)
    requires UniqueBy(ms, MemberKey) && WithinCap(ms)
    ensures WithinCap(RemoveMember(ms, g, u))
  {
    forall h
      ensures MemberCount(RemoveMember(ms, g, u), h) <= MaxGroupSize
    {
      RemoveMemberCount(ms, g, u, h);
    }
  }

  /** Deleting one student's membership keeps every other member of the group. */
  lemma {:induction false} RemoveMemberKeepsOthers(ms: seq<GroupMember>, g: nat, u: nat)
    ensures OthersCount(RemoveMember(ms, g, u), g, u) == OthersCount(ms, g, u)
  {
    if ms != [] {
      RemoveMemberKeepsOthers(ms[1..], g, u);
      var rest := RemoveMember(ms[1..], g, u);
      if MemberKey(ms[0]) != (g, u) {
        assert ([ms[0]] + rest)[1..] == rest;
      }
    }
  }

  /** When the student leaving is the group's only leader, everyone else stays
      and no one left in the group is its leader: the leader check lets a
      leader leave as soon as one other member exists, and names no successor. */
  lemma LeaderCanLeaveGroupLeaderless(ms: seq<GroupMember>, g: nat, u: nat)
    requires forall i :: 0 <= i < |ms| && ms[i].groupId == g && ms[i].role == Leader ==> ms[i].userId == u
    ensures OthersCount(RemoveMember(ms, g, u), g, u) == OthersCount(ms, g, u)
    ensures forall m :: m in RemoveMember(ms, g, u) && m.groupId == g ==> m.role == Member
  {
    RemoveMemberKeepsOthers(ms, g, u);
  }

  /** `SELECT id FROM courses WHERE id = ? AND status = "active"` finds a row. */
  predicate CourseIsActive(cs: seq<Course>, c: nat)
  {
    exists i :: 0 <= i < |cs| && cs[i].id == c && cs[i].status == Some(CourseActive)
  }

  /** `SELECT id FROM groups WHERE id = ? AND status = "active"` finds a row. */
  predicate GroupIsActive(gs: seq<Group>, g: nat)
  {
    exists i :: 0 <= i < |gs| && gs[i].id == g && gs[i].status == GroupActive
  }

  /** `SELECT id FROM tasks WHERE id = ? AND assigned_to = ?` finds a row. */
  predicate TaskAssigned(ts: seq<Task>, t: nat, u: nat)
  {
    exists i :: 0 <= i < |ts| && ts[i].id == t && ts[i].assignedTo == Some(u)
  }

  /** `UPDATE course_enrollments SET progress = ?, status = ? WHERE course_id = ? AND user_id = ?`
      with status 'completed' when progress is at least 100 and 'active' otherwise. */
  function SetProgress(es: seq<Enrollment>, c: nat, u: nat, p: real): (r: seq<Enrollment>)
    ensures |r| == |es|
    ensures forall i :: 0 <= i < |r| ==> EnrollmentKey(r[i]) == EnrollmentKey(es[i])
    ensures forall i :: 0 <= i < |r| && EnrollmentKey(es[i]) != (c, u) ==> r[i] == es[i]
    ensures forall i :: 0 <= i < |r| && EnrollmentKey(es[i]) == (c, u) ==>
              r[i].progress == p && r[i].enrolledAt == es[i].enrolledAt &&
              (r[i].status == EnrollmentCompleted <==> p >= 100.0) &&
              (r[i].status == EnrollmentActive <==> p < 100.0)
  {
    if es == [] then []
    else
      var e := es[0];
      var e' := if EnrollmentKey(e) == (c, u)
                then e.(progress := p, status := if p >= 100.0 then EnrollmentCompleted else EnrollmentActive)
                else e;
      [e'] + SetProgress(es[1..], c, u, p)
  }

  /** `UPDATE tasks SET status = "completed" WHERE id = ?`. */
  function MarkCompleted(ts: seq<Task>, t: nat): (r: seq<Task>)
    ensures |r| == |ts|
    ensures forall i :: 0 <= i < |r| ==> r[i].id == ts[i].id
    ensures forall i :: 0 <= i < |r| ==>
              r[i] == (if ts[i].id == t then ts[i].(status := TaskCompleted) else ts[i])
  {
    if ts == [] then []
    else [if ts[0].id == t then ts[0].(status := TaskCompleted) else ts[0]] + MarkCompleted(ts[1..], t)
  }

  /** Completing a task twice is completing it once. */
  lemma {:induction false} MarkCompletedIdempotent(ts: seq<Task>, t: nat)
    ensures MarkCompleted(MarkCompleted(ts, t), t) == MarkCompleted(ts, t)
  {
    if ts != [] {
      MarkCompletedIdempotent(ts[1..], t);
      assert MarkCompleted(ts, t)[1..] == MarkCompleted(ts[1..], t);
    }
  }

  // ---------------------------------------------------------------------------
  // Achievements

  /** The achievement ids the rules hand out. */
  const CertifiedAchievement: nat := 4
  const CodeMasterAchievement: nat := 2

  /** `SELECT COUNT(*) FROM course_enrollments WHERE user_id = ? AND status = "completed"`. */
  function CompletedCourses(es: seq<Enrollment>, u: nat): (n: nat)
    ensures n <= |es|
  {
    if es == [] then 0
    else (if CourseDoneBy(es[0], u) then 1 else 0) + CompletedCourses(es[1..], u)
  }

  predicate CourseDoneBy(e: Enrollment, u: nat)
  {
    e.userId == u && e.status == EnrollmentCompleted
  }

  /** `SELECT COUNT(*) FROM tasks WHERE assigned_to = ? AND status = "completed"`. */
  function CompletedTasks(ts: seq<Task>, u: nat): (n: nat)
    ensures n <= |ts|
  {
    if ts == [] then 0
    else (if TaskDoneBy(ts[0], u) then 1 else 0) + CompletedTasks(ts[1..], u)
  }

  predicate TaskDoneBy(t: Task, u: nat)
  {
    t.assignedTo == Some(u) && t.status == TaskCompleted
  }

  /** Changing one enrolment row moves the count by that row's change alone. */
  lemma {:induction false} CompletedCoursesPointUpdate(es: seq<Enrollment>, r: seq<Enrollment>, i: nat, u: nat)
    requires |r| == |es| && i < |es|
    requires forall j :: 0 <= j < |es| && j != i ==> r[j] == es[j]
    ensures CompletedCourses(r, u) + (if CourseDoneBy(es[i], u) then 1 else 0)
         == CompletedCourses(es, u) + (if CourseDoneBy(r[i], u) then 1 else 0)
  {
    if i == 0 {
      assert r[1..] == es[1..];
    } else {
      CompletedCoursesPointUpdate(es[1..], r[1..], i - 1, u);
    }
  }

  /** Changing one task row moves the count by that row's change alone. */
  lemma {:induction false} CompletedTasksPointUpdate(ts: seq<Task>, r: seq<Task>, i: nat, u: nat)
    requires |r| == |ts| && i < |ts|
    requires forall j :: 0 <= j < |ts| && j != i ==> r[j] == ts[j]
    ensures CompletedTasks(r, u) + (if TaskDoneBy(ts[i], u) then 1 else 0)
         == CompletedTasks(ts, u) + (if TaskDoneBy(r[i], u) then 1 else 0)
  {
    if i == 0 {
      assert r[1..] == ts[1..];
    } else {
      CompletedTasksPointUpdate(ts[1..], r[1..], i - 1, u);
    }
  }

  /** Completing one of the caller's own tasks counts once towards the task
      rule: one more completed task unless it was completed already. */
  lemma CompletingOwnTaskCountsOnce(ts: seq<Task>, i: nat, u: nat)
    requires UniqueBy(ts, TaskId) && i < |ts| && ts[i].assignedTo == Some(u)
    ensures CompletedTasks(MarkCompleted(ts, ts[i].id), u)
         == CompletedTasks(ts, u) + (if ts[i].status == TaskCompleted then 0 else 1)
  {
    var r := MarkCompleted(ts, ts[i].id);
    forall j | 0 <= j < |ts| && j != i
      ensures r[j] == ts[j]
    {
      assert TaskId(ts[j]) != TaskId(ts[i]) by {
        if j < i { assert TaskId(ts[j]) != TaskId(ts[i]); } else { assert TaskId(ts[i]) != TaskId(ts[j]); }
      }
    }
    CompletedTasksPointUpdate(ts, r, i, u);
  }

  /** Setting the progress of one of the caller's enrolments moves the course
      rule's count by one at most: up when it reaches 100, down when a
      completed course drops below 100. */
  lemma ProgressCountsOnce(es: seq<Enrollment>, i: nat, p: real)
    requires UniqueBy(es, EnrollmentKey) && i < |es|
    ensures var u := es[i].userId;
            CompletedCourses(SetProgress(es, es[i].courseId, u, p), u) + (if es[i].status == EnrollmentCompleted then 1 else 0) ==
            CompletedCourses(es, u) + (if p >= 100.0 then 1 else 0)
  {
    var r := SetProgress(es, es[i].courseId, es[i].userId, p);
    forall j | 0 <= j < |es| && j != i
      ensures r[j] == es[j]
    {
      assert EnrollmentKey(es[j]) != EnrollmentKey(es[i]) by {
        if j < i { assert EnrollmentKey(es[j]) != EnrollmentKey(es[i]); }
        else { assert EnrollmentKey(es[i]) != EnrollmentKey(es[j]); }
      }
    }
    CompletedCoursesPointUpdate(es, r, i, es[i].userId);
  }

  /** `awardAchievement`: `INSERT IGNORE INTO user_achievements (user_id, achievement_id)`;
      the row is skipped when the pair is already there. */
  function AwardAchievement(awards: seq<Award>, u: nat, a: nat, now: int): (r: seq<Award>)
    ensures HasKey(r, AwardKey, (u, a))
    ensures HasKey(awards, AwardKey, (u, a)) ==> r == awards
    ensures !HasKey(awards, AwardKey, (u, a)) ==> r == awards + [Award(u, a, now)]
    ensures UniqueBy(awards, AwardKey) ==> UniqueBy(r, AwardKey)
  {
    if HasKey(awards, AwardKey, (u, a)) then awards
    else
      assert AwardKey((awards + [Award(u, a, now)])[|awards|]) == (u, a);
      assert UniqueBy(awards, AwardKey) ==> UniqueBy(awards + [Award(u, a, now)], AwardKey) by {
        if UniqueBy(awards, AwardKey) {
          AppendFresh(awards, AwardKey, Award(u, a, now));
        }
      }
      awards + [Award(u, a, now)]
  }

  /** A pair already awarded stays awarded. */
  lemma AwardKeepsKeys(awards: seq<Award>, u: nat, a: nat, now: int, k: (nat, nat))
    requires HasKey(awards, AwardKey, k)
    ensures HasKey(AwardAchievement(awards, u, a, now), AwardKey, k)
  {
    var i :| 0 <= i < |awards| && AwardKey(awards[i]) == k;
    assert AwardAchievement(awards, u, a, now)[i] == awards[i];
  }

  /** `checkAchievements`: ten completed courses earn achievement 4, a hundred
      completed tasks achievement 2. */
  function CheckAchievements(es: seq<Enrollment>, ts: seq<Task>, awards: seq<Award>,
                             u: nat, now: int): (r: seq<Award>)
    ensures awards <= r
    ensures forall x :: x in r ==> x in awards || x == Award(u, CertifiedAchievement, now)
                                               || x == Award(u, CodeMasterAchievement, now)
    ensures CompletedCourses(es, u) >= 10 ==> HasKey(r, AwardKey, (u, CertifiedAchievement))
    ensures CompletedTasks(ts, u) >= 100 ==> HasKey(r, AwardKey, (u, CodeMasterAchievement))
    ensures HasKey(r, AwardKey, (u, CertifiedAchievement)) ==>
              HasKey(awards, AwardKey, (u, CertifiedAchievement)) || CompletedCourses(es, u) >= 10
    ensures HasKey(r, AwardKey, (u, CodeMasterAchievement)) ==>
              HasKey(awards, AwardKey, (u, CodeMasterAchievement)) || CompletedTasks(ts, u) >= 100
    ensures CompletedCourses(es, u) < 10 && CompletedTasks(ts, u) < 100 ==> r == awards
    ensures UniqueBy(awards, AwardKey) ==> UniqueBy(r, AwardKey)
  {
    var afterCourses :=
      if CompletedCourses(es, u) >= 10 then AwardAchievement(awards, u, CertifiedAchievement, now) else awards;
    var r := if CompletedTasks(ts, u) >= 100
             then AwardAchievement(afterCourses, u, CodeMasterAchievement, now) else afterCourses;
    assert CompletedCourses(es, u) >= 10 ==> HasKey(r, AwardKey, (u, CertifiedAchievement)) by {
      if CompletedCourses(es, u) >= 10 && CompletedTasks(ts, u) >= 100 {
        AwardKeepsKeys(afterCourses, u, CodeMasterAchievement, now, (u, CertifiedAchievement));
      }
    }
    r
  }

  /** Running the rules again, at any time, awards nothing new. */
  lemma CheckAchievementsIdempotent(es: seq<Enrollment>, ts: seq<Task>, awards: seq<Award>,
                                    u: nat, now: int, later: int)
    ensures CheckAchievements(es, ts, CheckAchievements(es, ts, awards, u, now), u, later)
         == CheckAchievements(es, ts, awards, u, now)
  {
  }

  // ---------------------------------------------------------------------------
  // Endpoints

  /** `POST /courses/:courseId/enroll`. */
  method Enroll(db: Database, courseId: nat, userId: nat, now: int) returns (r: Reply)
    requires db.Valid()
    modifies db
    ensures db.Valid()
    ensures HasKey(old(db.enrollments), EnrollmentKey, (courseId, userId)) ==>
              r == Fail(400, "Already enrolled in this course") && db.Snapshot() == old(db.Snapshot())
    ensures !HasKey(old(db.enrollments), EnrollmentKey, (courseId, userId)) && !CourseIsActive(old(db.courses), courseId) ==>
              r == Fail(404, "Course not found or inactive") && db.Snapshot() == old(db.Snapshot())
    ensures !HasKey(old(db.enrollments), EnrollmentKey, (courseId, userId)) && CourseIsActive(old(db.courses), courseId) ==>
              r == Success(200, "Successfully enrolled in course") &&
              db.Snapshot() == old(db.Snapshot()).(enrollments := old(db.enrollments) + [NewEnrollment(courseId, userId, now)])
  {
    if HasKey(db.enrollments, EnrollmentKey, (courseId, userId)) {
      return Fail(400, "Already enrolled in this course");
    }
    if !CourseIsActive(db.courses, courseId) {
      return Fail(404, "Course not found or inactive");
    }
    AppendFresh(db.enrollments, EnrollmentKey, NewEnrollment(courseId, userId, now));
    db.enrollments := db.enrollments + [NewEnrollment(courseId, userId, now)];
    r := Success(200, "Successfully enrolled in course");
  }

  /** `POST /groups`. The group takes the next id; its creator becomes its leader. */
  method CreateGroup(db: Database, name: Option<string>, description: Option<string>,
                     createdBy: nat, now: int) returns (r: Reply)
    requires db.Valid()
    modifies db
    ensures db.Valid()
    ensures old(WithinCap(db.members)) ==> WithinCap(db.members)
    ensures !Truthy(name) || Trim(name.value) == [] ==>
              r == Fail(400, "Group name is required") && db.Snapshot() == old(db.Snapshot())
    ensures Truthy(name) && Trim(name.value) != [] ==>
              r == Created(201, "Group created successfully", old(db.nextGroupId)) &&
              db.Snapshot() == old(db.Snapshot()).(
                groups := old(db.groups) + [Group(old(db.nextGroupId), Trim(name.value), description, GroupActive, createdBy)],
                members := old(db.members) + [GroupMember(old(db.nextGroupId), createdBy, Leader, now)],
                nextGroupId := old(db.nextGroupId) + 1)
  {
    if !Truthy(name) {
      return Fail(400, "Group name is required");
    }
    var title := Trim(name.value);
    if title == [] {
      return Fail(400, "Group name is required");
    }
    var id := db.nextGroupId;
    var group := Group(id, title, description, GroupActive, createdBy);
    var leader := GroupMember(id, createdBy, Leader, now);
    ghost var t := db.Snapshot();
    NewGroupKeepsValid(t, group, leader);
    if WithinCap(db.members) {
      AppendKeepsCap(db.members, leader);
    }
    db.groups, db.members, db.nextGroupId := db.groups + [group], db.members + [leader], id + 1;
    assert db.Snapshot() == t.(groups := t.groups + [group], members := t.members + [leader], nextGroupId := id + 1);
    r := Created(201, "Group created successfully", id);
  }

  /** A new group under the next id, with a member of that group, keeps the keys unique. */
  lemma NewGroupKeepsValid(t: Tables, group: Group, leader: GroupMember)
    requires ValidTables(t) && group.id == t.nextGroupId && leader.groupId == t.nextGroupId
    ensures ValidTables(t.(groups := t.groups + [group], members := t.members + [leader],
                           nextGroupId := t.nextGroupId + 1))
  {
    FreshId(t.groups, GroupId, t.nextGroupId, group);
    AppendFresh(t.members, MemberKey, leader);
  }

  /** `POST /groups/:groupId/join`. */
  method JoinGroup(db: Database, groupId: nat, userId: nat, now: int) returns (r: Reply)
    requires db.Valid()
    modifies db
    ensures db.Valid()
    ensures old(WithinCap(db.members)) ==> WithinCap(db.members)
    ensures HasKey(old(db.members), MemberKey, (groupId, userId)) ==>
              r == Fail(400, "Already a member of this group") && db.Snapshot() == old(db.Snapshot())
    ensures !HasKey(old(db.members), MemberKey, (groupId, userId)) && !GroupIsActive(old(db.groups), groupId) ==>
              r == Fail(404, "Group not found or inactive") && db.Snapshot() == old(db.Snapshot())
    ensures !HasKey(old(db.members), MemberKey, (groupId, userId)) && GroupIsActive(old(db.groups), groupId) &&
            MemberCount(old(db.members), groupId) >= MaxGroupSize ==>
              r == Fail(400, "Group is full") && db.Snapshot() == old(db.Snapshot())
    ensures !HasKey(old(db.members), MemberKey, (groupId, userId)) && GroupIsActive(old(db.groups), groupId) &&
            MemberCount(old(db.members), groupId) < MaxGroupSize ==>
              r == Success(200, "Successfully joined group") &&
              db.Snapshot() == old(db.Snapshot()).(members := old(db.members) + [GroupMember(groupId, userId, Member, now)])
  {
    if HasKey(db.members, MemberKey, (groupId, userId)) {
      return Fail(400, "Already a member of this group");
    }
    if !GroupIsActive(db.groups, groupId) {
      return Fail(404, "Group not found or inactive");
    }
    if MemberCount(db.members, groupId) >= MaxGroupSize {
      return Fail(400, "Group is full");
    }
    var row := GroupMember(groupId, userId, Member, now);
    AppendFresh(db.members, MemberKey, row);
    if WithinCap(db.members) {
      AppendKeepsCap(db.members, row);
    }
    db.members := db.members + [row];
    r := Success(200, "Successfully joined group");
  }

  /** `POST /groups/:groupId/leave`. */
  method LeaveGroup(db: Database, groupId: nat, userId: nat) returns (r: Reply)
    requires db.Valid()
    modifies db
    ensures db.Valid()
    ensures old(WithinCap(db.members)) ==> WithinCap(db.members)
    ensures !HasKey(old(db.members), MemberKey, (groupId, userId)) ==>
              r == Fail(400, "Not a member of this group") && db.Snapshot() == old(db.Snapshot())
    ensures HasKey(old(db.members), MemberKey, (groupId, userId)) &&
            FindMember(old(db.members), groupId, userId).value.role == Leader &&
            OthersCount(old(db.members), groupId, userId) == 0 ==>
              r == Fail(400, "Group leader cannot leave if no other members") && db.Snapshot() == old(db.Snapshot())
    ensures HasKey(old(db.members), MemberKey, (groupId, userId)) &&
            (FindMember(old(db.members), groupId, userId).value.role == Member ||
             OthersCount(old(db.members), groupId, userId) > 0) ==>
              r == Success(200, "Successfully left group") &&
              db.Snapshot() == old(db.Snapshot()).(members := RemoveMember(old(db.members), groupId, userId)) &&
              MemberCount(db.members, groupId) == MemberCount(old(db.members), groupId) - 1
  {
    var member := FindMember(db.members, groupId, userId);
    if member.None? {
      return Fail(400, "Not a member of this group");
    }
    if member.value.role == Leader {
      if OthersCount(db.members, groupId, userId) == 0 {
        return Fail(400, "Group leader cannot leave if no other members");
      }
    }
    ghost var t := db.Snapshot();
    var members := RemoveMember(db.members, groupId, userId);
    RemoveMemberKeepsValid(t, groupId, userId);
    RemoveMemberCount(db.members, groupId, userId, groupId);
    if WithinCap(db.members) {
      RemoveKeepsCap(db.members, groupId, userId);
    }
    db.members := members;
    assert db.Snapshot() == t.(members := members);
    r := Success(200, "Successfully left group");
  }

  /** `PUT /courses/:courseId/progress` as written: once the enrolment row is
      updated, `this.checkAchievements` is not a function (`this` is the
      original, empty `module.exports`), so the handler replies 500 with the
      update already made and no achievement checked. */
  method UpdateProgressAsWritten(db: Database, courseId: nat, userId: nat, progress: real)
    returns (r: Reply)
    requires db.Valid()
    modifies db
    ensures db.Valid()
    ensures progress < 0.0 || progress > 100.0 ==>
              r == Fail(400, "Progress must be between 0 and 100") && db.Snapshot() == old(db.Snapshot())
    ensures 0.0 <= progress <= 100.0 && !HasKey(old(db.enrollments), EnrollmentKey, (courseId, userId)) ==>
              r == Fail(400, "Not enrolled in this course") && db.Snapshot() == old(db.Snapshot())
    ensures 0.0 <= progress <= 100.0 && HasKey(old(db.enrollments), EnrollmentKey, (courseId, userId)) ==>
              r == InternalError &&
              db.Snapshot() == old(db.Snapshot()).(enrollments := SetProgress(old(db.enrollments), courseId, userId, progress))
  {
    if progress < 0.0 || progress > 100.0 {
      return Fail(400, "Progress must be between 0 and 100");
    }
    if !HasKey(db.enrollments, EnrollmentKey, (courseId, userId)) {
      return Fail(400, "Not enrolled in this course");
    }
    db.enrollments := SetProgress(db.enrollments, courseId, userId, progress);
    r := InternalError;
  }

  /** `PUT /courses/:courseId/progress` as intended: the update is followed by
      the achievement rules, and the handler replies 200. The rules call
      `awardAchievement` through `this` as well, which would fail the same
      way once reached; here they award as intended. */
  method UpdateProgress(db: Database, courseId: nat, userId: nat, progress: real, now: int)
    returns (r: Reply)
    requires db.Valid()
    modifies db
    ensures db.Valid()
    ensures progress < 0.0 || progress > 100.0 ==>
              r == Fail(400, "Progress must be between 0 and 100") && db.Snapshot() == old(db.Snapshot())
    ensures 0.0 <= progress <= 100.0 && !HasKey(old(db.enrollments), EnrollmentKey, (courseId, userId)) ==>
              r == Fail(400, "Not enrolled in this course") && db.Snapshot() == old(db.Snapshot())
    ensures 0.0 <= progress <= 100.0 && HasKey(old(db.enrollments), EnrollmentKey, (courseId, userId)) ==>
              r == Success(200, "Progress updated successfully") &&
              db.enrollments == SetProgress(old(db.enrollments), courseId, userId, progress) &&
              db.Snapshot() == old(db.Snapshot()).(
                enrollments := db.enrollments,
                awards := CheckAchievements(db.enrollments, old(db.tasks), old(db.awards), userId, now))
  {
    if progress < 0.0 || progress > 100.0 {
      return Fail(400, "Progress must be between 0 and 100");
    }
    if !HasKey(db.enrollments, EnrollmentKey, (courseId, userId)) {
      return Fail(400, "Not enrolled in this course");
    }
    ghost var t := db.Snapshot();
    var enrollments := SetProgress(db.enrollments, courseId, userId, progress);
    var awards := CheckAchievements(enrollments, db.tasks, db.awards, userId, now);
    db.enrollments, db.awards := enrollments, awards;
    assert db.Snapshot() == t.(enrollments := enrollments, awards := awards);
    r := Success(200, "Progress updated successfully");
  }

  /** `PUT /tasks/:taskId/complete`. */
  method CompleteTask(db: Database, taskId: nat, userId: nat) returns (r: Reply)
    requires db.Valid()
    modifies db
    ensures db.Valid()
    ensures !TaskAssigned(old(db.tasks), taskId, userId) ==>
              r == Fail(404, "Task not found") && db.Snapshot() == old(db.Snapshot())
    ensures TaskAssigned(old(db.tasks), taskId, userId) ==>
              r == Success(200, "Task marked as completed") &&
              db.Snapshot() == old(db.Snapshot()).(tasks := MarkCompleted(old(db.tasks), taskId))
  {
    if !TaskAssigned(db.tasks, taskId, userId) {
      return Fail(404, "Task not found");
    }
    db.tasks := MarkCompleted(db.tasks, taskId);
    r := Success(200, "Task marked as completed");
  }
}

=== FILE: student_view.dfy ===
/** The decisions of the student dashboard script
    InnoUni/frontend/js/studentDashboard.js: the Uzbek labels of task
    priorities and statuses, the relative due date, the overdue mark and the
    button a task card carries. The DOM itself is not modelled. */
module StudentView {
  import opened Common
  import opened Schema
  import StudentApi
  import DashboardApi
  import DashboardView

  /** `getPriorityLabel(priority)`: the label of a stored priority; any other
      value is shown as it is. */
  function PriorityLabel(priority: string): (shown: string)
    ensures ParsePriority(priority).None? ==> shown == priority
    ensures ParsePriority(priority) == Some(Low) ==> shown == "Past"
    ensures ParsePriority(priority) == Some(Medium) ==> shown == "O'rta"
    ensures ParsePriority(priority) == Some(High) ==> shown == "Yuqori"
  {
    match priority
    case "low" => "Past"
    case "medium" => "O'rta"
    case "high" => "Yuqori"
    case _ => priority
  }

  /** Every stored priority is translated, and no two share a label. */
  lemma PriorityLabelsTranslate(p: Priority, q: Priority)
    ensures PriorityLabel(PriorityName(p)) != PriorityName(q)
    ensures PriorityLabel(PriorityName(p)) == PriorityLabel(PriorityName(q)) ==> p == q
  {
  }

  /** `getStatusLabel(status)`: the label of a stored task status; any other
      value is shown as it is. */
  function StatusLabel(status: string): (shown: string)
    ensures ParseTaskStatus(status).None? ==> shown == status
    ensures ParseTaskStatus(status) == Some(Pending) ==> shown == "Kutilmoqda"
    ensures ParseTaskStatus(status) == Some(InProgress) ==> shown == "Jarayonda"
    ensures ParseTaskStatus(status) == Some(TaskCompleted) ==> shown == "Bajarilgan"
  {
    match status
    case "pending" => "Kutilmoqda"
    case "in_progress" => "Jarayonda"
    case "completed" => "Bajarilgan"
    case _ => status
  }

  /** Every stored task status is translated, and no two share a label. */
  lemma StatusLabelsTranslate(s: TaskStatus, q: TaskStatus)
    ensures StatusLabel(TaskStatusName(s)) != TaskStatusName(q)
    ensures StatusLabel(TaskStatusName(s)) == StatusLabel(TaskStatusName(q)) ==> s == q
  {
  }

  // ---------------------------------------------------------------------------

  /** `isOverdue(dueDate)`: the due instant lies strictly before now (both in
      epoch milliseconds), that is on an earlier day, or earlier on the same day. */
  predicate IsOverdue(dueMs: int, nowMs: int)
    ensures IsOverdue(dueMs, nowMs) <==>
              dueMs / DashboardView.DayMs < nowMs / DashboardView.DayMs ||
              (dueMs / DashboardView.DayMs == nowMs / DashboardView.DayMs &&
               dueMs % DashboardView.DayMs < nowMs % DashboardView.DayMs)
  {
    dueMs < nowMs
  }

  /** A `DATE` column read by `new Date(...)` is the midnight that starts the day. */
  function DayStart(day: int): int
  {
    day * DashboardView.DayMs
  }

  /** A due date is overdue on the card from the first millisecond after the
      midnight that starts it: before today, or today once midnight has passed. */
  lemma DueDayOverdue(day: int, nowMs: int)
    ensures IsOverdue(DayStart(day), nowMs) <==>
              day < nowMs / DashboardView.DayMs ||
              (day == nowMs / DashboardView.DayMs && nowMs % DashboardView.DayMs > 0)
  {
    assert DayStart(day) / DashboardView.DayMs == day && DayStart(day) % DashboardView.DayMs == 0;
  }

  /** A task the server counts as overdue (its due day before today) is marked
      overdue on the card as well. */
  lemma ServerOverdueIsShownOverdue(t: Task, userId: nat, nowMs: int)
    requires DashboardApi.IsOverdueFor(t, userId, nowMs / DashboardView.DayMs)
    ensures IsOverdue(DayStart(t.dueDate.value), nowMs)
  {
    var today := nowMs / DashboardView.DayMs;
    assert today * DashboardView.DayMs <= nowMs;
    assert (t.dueDate.value + 1) * DashboardView.DayMs <= today * DashboardView.DayMs;
  }

  /** The card and the server disagree on the due day itself: past midnight the
      card already marks the task overdue, the server does not yet. */
  lemma DueTodayShownOverdueEarly(t: Task, userId: nat, nowMs: int)
    requires t.assignedTo == Some(userId) && t.status == Pending
    requires t.dueDate == Some(nowMs / DashboardView.DayMs) && nowMs % DashboardView.DayMs > 0
    ensures IsOverdue(DayStart(t.dueDate.value), nowMs)
    ensures !DashboardApi.IsOverdueFor(t, userId, nowMs / DashboardView.DayMs)
  {
    var today := nowMs / DashboardView.DayMs;
    assert nowMs == today * DashboardView.DayMs + nowMs % DashboardView.DayMs;
  }

  // ---------------------------------------------------------------------------

  /** `formatDate(dateString)`, given `now - date` in milliseconds and the
      `toLocaleDateString('uz-UZ')` text of the date (a library call). The
      day count is `Math.floor` of the difference in days, so a date in the
      future gives a negative count. */
  function FormatDate(diffMs: int, localeDate: string): (r: string)
    ensures 0 <= diffMs < DashboardView.DayMs ==> r == "Bugun"
    ensures DashboardView.DayMs <= diffMs < 2 * DashboardView.DayMs ==> r == "Kecha"
    ensures diffMs < 0 || 2 * DashboardView.DayMs <= diffMs < 7 * DashboardView.DayMs ==>
              r == IntToString(diffMs / DashboardView.DayMs) + " kun oldin"
    ensures 7 * DashboardView.DayMs <= diffMs ==> r == localeDate
  {
    var days := diffMs / DashboardView.DayMs;
    if days == 0 then "Bugun"
    else if days == 1 then "Kecha"
    else if days < 7 then IntToString(days) + " kun oldin"
    else localeDate
  }

  /** A date still to come (a task due later) is shown as a negative number of
      days "ago": `k` whole days ahead, rounded up, reads as "-k kun oldin". */
  lemma FutureDateShowsNegativeDays(diffMs: int, localeDate: string)
    requires diffMs < 0
    ensures exists k: nat ::
              1 <= k && FormatDate(diffMs, localeDate) == "-" + NatToString(k) + " kun oldin" &&
              (k - 1) * DashboardView.DayMs < -diffMs <= k * DashboardView.DayMs
  {
    var days := diffMs / DashboardView.DayMs;
    var k: nat := -days;
    assert days * DashboardView.DayMs <= diffMs < (days + 1) * DashboardView.DayMs;
    assert FormatDate(diffMs, localeDate) == "-" + NatToString(k) + " kun oldin";
  }

  /** From two days back on, the card's date and the shared dashboard's
      relative time read the same. */
  lemma FormatDateAgreesWithFormatTime(diffMs: int, localeDate: string)
    requires 2 * DashboardView.DayMs <= diffMs
    ensures FormatDate(diffMs, localeDate) == DashboardView.FormatTime(diffMs, localeDate)
  {
  }

  // ---------------------------------------------------------------------------

  /** The second button of a task card. */
  datatype TaskButton = DoneBadge | CompleteAction(taskId: nat)

  /** A completed task gets a disabled "Bajarilgan" button; any other status
      the button that completes it. */
  function TaskCardButton(status: string, taskId: nat): (b: TaskButton)
    ensures b == DoneBadge <==> status == TaskStatusName(TaskCompleted)
    ensures b.CompleteAction? ==> b.taskId == taskId
  {
    if status == "completed" then DoneBadge else CompleteAction(taskId)
  }

  /** Once the server marks a task completed, its card offers no completion
      any more, and every card of another task keeps its button. */
  lemma CompletedTaskLosesItsButton(ts: seq<Task>, taskId: nat, i: nat)
    requires i < |ts|
    ensures var after := StudentApi.MarkCompleted(ts, taskId)[i];
            (ts[i].id == taskId ==> TaskCardButton(TaskStatusName(after.status), after.id) == DoneBadge) &&
            (ts[i].id != taskId ==> TaskCardButton(TaskStatusName(after.status), after.id) ==
                                    TaskCardButton(TaskStatusName(ts[i].status), ts[i].id))
  {
  }
}

=== FILE: teacher_api.dfy ===
/** The teacher router (InnoUni/backend/api/teacher.js): course creation and
    update, the ownership gate of the course-students listing, task creation,
    the grading stub, and the two listing queries whose WHERE clause grows with
    the filters supplied. Every route sits behind `Access.TeacherOnly`, which
    admits teachers and admins; `teacherId` is the caller's token claim. */
module TeacherApi {
  import opened Common
  import opened Schema
  import Access

  /** `SELECT id FROM courses WHERE id = ? AND teacher_id = ?` finds a row. */
  predicate OwnsCourse(cs: seq<Course>, courseId: nat, teacherId: nat)
  {
    exists i :: 0 <= i < |cs| && cs[i].id == courseId && cs[i].teacherId == teacherId
  }

  /** `POST /courses`. The teacher of the new course is the caller; status
      takes its DEFAULT 'active'. */
  method CreateCourse(db: Database, title: Option<string>, description: Option<string>,
                      category: Option<string>, teacherId: nat) returns (r: Reply)
    requires db.Valid()
    modifies db
    ensures db.Valid()
    ensures !(Truthy(title) && Truthy(category)) ==>
              r == Fail(400, "Title and category are required") && db.Snapshot() == old(db.Snapshot())
    ensures Truthy(title) && Truthy(category) ==>
              r == Created(201, "Course created successfully", old(db.nextCourseId)) &&
              db.Snapshot() == old(db.Snapshot()).(
                courses := old(db.courses) + [Course(old(db.nextCourseId), title.value, description, category,
                                                     teacherId, Some(CourseActive))],
                nextCourseId := old(db.nextCourseId) + 1)
  {
    if !Truthy(title) || !Truthy(category) {
      return Fail(400, "Title and category are required");
    }
    var id := db.nextCourseId;
    var course := Course(id, title.value, description, category, teacherId, Some(CourseActive));
    FreshId(db.courses, CourseId, id, course);
    ValidWithCourses(db.Snapshot(), db.courses + [course], id + 1);
    db.courses := db.courses + [course];
    db.nextCourseId := id + 1;
    r := Created(201, "Course created successfully", id);
  }

  /** `UPDATE courses SET title = ?, description = ?, category = ?, status = ? WHERE id = ?`. */
  function SetCourse(cs: seq<Course>, courseId: nat, title: string, description: Option<string>,
                     category: Option<string>, status: Option<CourseStatus>): (r: seq<Course>)
    ensures |r| == |cs|
    ensures forall i :: 0 <= i < |r| ==> r[i].id == cs[i].id && r[i].teacherId == cs[i].teacherId
    ensures forall i :: 0 <= i < |r| ==>
              r[i] == (if cs[i].id == courseId
                       then cs[i].(title := title, description := description, category := category, status := status)
                       else cs[i])
  {
    if cs == [] then []
    else
      [if cs[0].id == courseId
       then cs[0].(title := title, description := description, category := category, status := status)
       else cs[0]] + SetCourse(cs[1..], courseId, title, description, category, status)
  }

  /** A status the column accepts: absent (NULL) or one of the ENUM values. */
  predicate ValidCourseStatus(status: Option<string>)
  {
    status.None? || ParseCourseStatus(status.value).Some?
  }

  /** `PUT /courses/:courseId`. All four columns are overwritten together; an
      absent description, category or status becomes NULL. An absent title
      (NOT NULL) or a status outside the ENUM makes the UPDATE fail: 500. */
  method UpdateCourse(db: Database, courseId: nat, teacherId: nat, title: Option<string>,
                      description: Option<string>, category: Option<string>, status: Option<string>)
    returns (r: Reply)
    requires db.Valid()
    modifies db
    ensures db.Valid()
    ensures !OwnsCourse(old(db.courses), courseId, teacherId) ==>
              r == Fail(403, "Access denied") && db.Snapshot() == old(db.Snapshot())
    ensures OwnsCourse(old(db.courses), courseId, teacherId) && (title.None? || !ValidCourseStatus(status)) ==>
              r == InternalError && db.Snapshot() == old(db.Snapshot())
    ensures OwnsCourse(old(db.courses), courseId, teacherId) && title.Some? && ValidCourseStatus(status) ==>
              r == Success(200, "Course updated successfully") &&
              db.Snapshot() == old(db.Snapshot()).(
                courses := SetCourse(old(db.courses), courseId, title.value, description, category,
                                     if status.None? then None else ParseCourseStatus(status.value)))
  {
    if !OwnsCourse(db.courses, courseId, teacherId) {
      return Fail(403, "Access denied");
    }
    if title.None? || !ValidCourseStatus(status) {
      return InternalError;
    }
    var s := if status.None? then None else ParseCourseStatus(status.value);
    var courses' := SetCourse(db.courses, courseId, title.value, description, category, s);
    assert UniqueBy(courses', CourseId) by {
      forall i, j | 0 <= i < j < |courses'|
        ensures courses'[i].id != courses'[j].id
      {
        assert CourseId(db.courses[i]) != CourseId(db.courses[j]);
      }
    }
    ghost var t := db.Snapshot();
    ValidWithCourses(t, courses', db.nextCourseId);
    db.courses := courses';
    assert db.Snapshot() == t.(courses := courses', nextCourseId := t.nextCourseId);
    r := Success(200, "Course updated successfully");
  }

  /** An update by the owner changes that course only, and keeps its owner. */
  lemma UpdateTouchesOwnCourseOnly(cs: seq<Course>, courseId: nat, title: string, description: Option<string>,
                                   category: Option<string>, status: Option<CourseStatus>, i: nat)
    requires i < |cs|
    ensures var r := SetCourse(cs, courseId, title, description, category, status);
            (cs[i].id != courseId ==> r[i] == cs[i]) &&
            (cs[i].id == courseId ==> r[i].title == title && r[i].status == status && r[i].teacherId == cs[i].teacherId)
  {
  }

  /** `GET /courses/:courseId/students`: the ownership check in front of the
      listing, which is a query the model does not evaluate. */
  function CourseStudentsGate(cs: seq<Course>, courseId: nat, teacherId: nat): (g: Access.Gate)
    ensures g == Access.Next <==> OwnsCourse(cs, courseId, teacherId)
    ensures g != Access.Next ==> g == Access.Deny(Fail(403, "Access denied"))
  {
    if OwnsCourse(cs, courseId, teacherId) then Access.Next else Access.Deny(Fail(403, "Access denied"))
  }

  /** A priority the column accepts: absent (NULL) or one of the ENUM values. */
  predicate ValidPriority(priority: Option<string>)
  {
    priority.None? || ParsePriority(priority.value).Some?
  }

  /** `POST /tasks`. An absent course_id binds NULL and matches no course: 403.
      Nothing checks that `assignedTo` is enrolled in the course, or is a student. */
  method CreateTask(db: Database, title: Option<string>, description: Option<string>, courseId: Option<nat>,
                    priority: Option<string>, dueDate: Option<int>, assignedTo: Option<nat>, teacherId: nat)
    returns (r: Reply)
    requires db.Valid()
    modifies db
    ensures db.Valid()
    ensures (courseId.None? || !OwnsCourse(old(db.courses), courseId.value, teacherId)) ==>
              r == Fail(403, "Access denied") && db.Snapshot() == old(db.Snapshot())
    ensures courseId.Some? && OwnsCourse(old(db.courses), courseId.value, teacherId) &&
            (title.None? || !ValidPriority(priority)) ==>
              r == InternalError && db.Snapshot() == old(db.Snapshot())
    ensures courseId.Some? && OwnsCourse(old(db.courses), courseId.value, teacherId) &&
            title.Some? && ValidPriority(priority) ==>
              r == Created(201, "Task created successfully", old(db.nextTaskId)) &&
              db.Snapshot() == old(db.Snapshot()).(
                tasks := old(db.tasks) + [NewTask(old(db.nextTaskId), title.value, description, courseId.value,
                                                  if priority.None? then None else ParsePriority(priority.value),
                                                  dueDate, assignedTo)],
                nextTaskId := old(db.nextTaskId) + 1)
  {
    if courseId.None? || !OwnsCourse(db.courses, courseId.value, teacherId) {
      return Fail(403, "Access denied");
    }
    if title.None? || !ValidPriority(priority) {
      return InternalError;
    }
    var id := db.nextTaskId;
    var task := NewTask(id, title.value, description, courseId.value,
                        if priority.None? then None else ParsePriority(priority.value), dueDate, assignedTo);
    FreshId(db.tasks, TaskId, id, task);
    db.tasks := db.tasks + [task];
    db.nextTaskId := id + 1;
    r := Created(201, "Task created successfully", id);
  }

  /** The task rows a teacher may grade: a task of one of their courses. */
  predicate OwnsTask(t: Tables, taskId: nat, teacherId: nat)
  {
    exists i :: 0 <= i < |t.tasks| && t.tasks[i].id == taskId && OwnsCourse(t.courses, t.tasks[i].courseId, teacherId)
  }

  /** What the grading stub sends back. */
  datatype GradeEcho = GradeEcho(message: string, taskId: nat, grade: Option<string>, feedback: Option<string>)

  /** `POST /tasks/:taskId/grade`: an ownership check, then an echo; nothing is stored. */
  function GradeTask(t: Tables, taskId: nat, teacherId: nat, grade: Option<string>, feedback: Option<string>)
    : (r: Result<GradeEcho>)
    ensures r.Ok? <==> OwnsTask(t, taskId, teacherId)
    ensures r.Err? ==> r.reply == Fail(403, "Access denied")
    ensures r.Ok? ==> r.value.taskId == taskId && r.value.grade == grade && r.value.feedback == feedback
  {
    if !OwnsTask(t, taskId, teacherId) then Err(Fail(403, "Access denied"))
    else Ok(GradeEcho("Grading endpoint - needs submissions table implementation", taskId, grade, feedback))
  }

  // ---------------------------------------------------------------------------
  // The listing queries, built clause by clause.

  /** The number of `?` placeholders in a query. */
  function Placeholders(q: string): nat
  {
    if q == [] then 0 else (if q[0] == '?' then 1 else 0) + Placeholders(q[1..])
  }

  lemma {:induction false} PlaceholdersAppend(a: string, b: string)
    ensures Placeholders(a + b) == Placeholders(a) + Placeholders(b)
  {
    if a != [] {
      assert (a + b)[1..] == a[1..] + b;
      PlaceholdersAppend(a[1..], b);
    } else {
      assert a + b == b;
    }
  }

  lemma {:induction false} NoPlaceholders(q: string)
    requires '?' !in q
    ensures Placeholders(q) == 0
  {
    if q != [] {
      NoPlaceholders(q[1..]);
    }
  }

  /** One filter condition, `AND <column> = ?`, as the routes append it. */
  function Condition(column: string): string
  {
    " AND " + column + " = ?"
  }

  /** A condition on a column name carries exactly one placeholder. */
  lemma ConditionPlaceholder(column: string)
    requires '?' !in column
    ensures Placeholders(Condition(column)) == 1
  {
    PlaceholdersAppend(" AND " + column, " = ?");
    PlaceholdersAppend(" AND ", column);
    NoPlaceholders(" AND ");
    NoPlaceholders(column);
    PlaceholdersAppend(" = ", "?");
    NoPlaceholders(" = ");
  }

  /** The SQL text up to and including the teacher condition, white space normalised. */
  const CoursesHead: string :=
    "SELECT c.*, COUNT(ce.user_id) as enrolled_students, AVG(ce.progress) as avg_progress, "
    + "COUNT(CASE WHEN ce.status = 'completed' THEN 1 END) as completed_students, "
    + "COUNT(CASE WHEN ce.enrolled_at >= DATE_SUB(CURDATE(), INTERVAL 7 DAY) THEN 1 END) as new_enrollments_this_week "
    + "FROM courses c LEFT JOIN course_enrollments ce ON c.id = ce.course_id AND ce.status = 'active' "
    + "WHERE c.teacher_id = ?"
  const CategoryCondition: string := Condition("c.category")
  const CourseStatusCondition: string := Condition("c.status")
  const CoursesTail: string :=
    " GROUP BY c.id, c.title, c.description, c.category, c.avatar, c.status ORDER BY c.created_at DESC"

  /** The filter values appended for the filters supplied; a falsy filter is skipped. */
  function Filters(first: Option<string>, second: Option<string>): (ps: seq<string>)
    ensures |ps| == (if Truthy(first) then 1 else 0) + (if Truthy(second) then 1 else 0)
    ensures Truthy(first) ==> ps[0] == first.value
    ensures Truthy(second) ==> ps[|ps| - 1] == second.value
  {
    (if Truthy(first) then [first.value] else []) + (if Truthy(second) then [second.value] else [])
  }

  /** The conditions appended for the filters supplied, in the same order as `Filters`. */
  function Conditions(first: Option<string>, firstCondition: string,
                      second: Option<string>, secondCondition: string): string
  {
    (if Truthy(first) then firstCondition else "") + (if Truthy(second) then secondCondition else "")
  }

  /** Each appended condition binds exactly the parameter appended with it. */
  lemma ConditionsMatchFilters(first: Option<string>, firstCondition: string,
                               second: Option<string>, secondCondition: string)
    requires Placeholders(firstCondition) == 1 && Placeholders(secondCondition) == 1
    ensures Placeholders(Conditions(first, firstCondition, second, secondCondition)) == |Filters(first, second)|
  {
    PlaceholdersAppend(if Truthy(first) then firstCondition else "", if Truthy(second) then secondCondition else "");
  }

  /** `GET /courses/:userId`: the query and its parameters. `userId` is the
      path parameter, a string. Between the fixed head (ending in the teacher
      condition) and tail stand the conditions of the filters supplied,
      category first, with one placeholder for every parameter after the first. */
  method CoursesQuery(userId: string, category: Option<string>, status: Option<string>)
    returns (query: string, params: seq<string>)
    ensures params == [userId] + Filters(category, status)
    ensures query == CoursesHead + Conditions(category, CategoryCondition, status, CourseStatusCondition) + CoursesTail
    ensures Placeholders(Conditions(category, CategoryCondition, status, CourseStatusCondition)) == |params| - 1
  {
    var conditions := "";
    params := [userId];
    if Truthy(category) {
      conditions := conditions + CategoryCondition;
      params := params + [category.value];
    }
    if Truthy(status) {
      conditions := conditions + CourseStatusCondition;
      params := params + [status.value];
    }
    assert conditions == Conditions(category, CategoryCondition, status, CourseStatusCondition);
    assert params == [userId] + Filters(category, status);
    query := CoursesHead + conditions + CoursesTail;
    ConditionPlaceholder("c.category");
    ConditionPlaceholder("c.status");
    ConditionsMatchFilters(category, CategoryCondition, status, CourseStatusCondition);
  }

  const TasksHead: string :=
    "SELECT t.*, c.title as course_title, u.full_name as assigned_student_name, "
    + "u.email as assigned_student_email FROM tasks t JOIN courses c ON t.course_id = c.id "
    + "LEFT JOIN users u ON t.assigned_to = u.id WHERE c.teacher_id = ?"
  const TaskStatusCondition: string := Condition("t.status")
  const TaskCourseCondition: string := Condition("t.course_id")
  const TasksTail: string := " ORDER BY t.due_date ASC"

  /** `GET /tasks/:userId`: status first, then course; always ordered by due date, ascending. */
  method TasksQuery(userId: string, status: Option<string>, courseId: Option<string>)
    returns (query: string, params: seq<string>)
    ensures params == [userId] + Filters(status, courseId)
    ensures query == TasksHead + Conditions(status, TaskStatusCondition, courseId, TaskCourseCondition) + TasksTail
    ensures Placeholders(Conditions(status, TaskStatusCondition, courseId, TaskCourseCondition)) == |params| - 1
  {
    var conditions := "";
    params := [userId];
    if Truthy(status) {
      conditions := conditions + TaskStatusCondition;
      params := params + [status.value];
    }
    if Truthy(courseId) {
      conditions := conditions + TaskCourseCondition;
      params := params + [courseId.value];
    }
    assert conditions == Conditions(status, TaskStatusCondition, courseId, TaskCourseCondition);
    assert params == [userId] + Filters(status, courseId);
    query := TasksHead + conditions + TasksTail;
    ConditionPlaceholder("t.status");
    ConditionPlaceholder("t.course_id");
    ConditionsMatchFilters(status, TaskStatusCondition, courseId, TaskCourseCondition);
  }
}

=== FILE: teacher_view.dfy ===
/** The decisions of the teacher dashboard script
    InnoUni/frontend/js/teacherDashboard.js: the labels of course statuses,
    the icon and verb of a student activity, and the quick actions. Its
    `formatDate` is the same function as the student script's, modelled once
    as `StudentView.FormatDate`. The DOM itself is not modelled. */
module TeacherView {
  import opened Common
  import opened Page
  import opened Schema
  import DashboardView

  /** `getStatusLabel(status)`: the label of a stored course status; any other
      value is shown as it is. */
  function StatusLabel(status: string): (shown: string)
    ensures ParseCourseStatus(status).None? ==> shown == status
    ensures ParseCourseStatus(status) == Some(CourseActive) ==> shown == "Faol"
    ensures ParseCourseStatus(status) == Some(CourseInactive) ==> shown == "Faol emas"
  {
    match status
    case "active" => "Faol"
    case "inactive" => "Faol emas"
    case _ => status
  }

  /** Both stored course statuses are translated, to different labels. */
  lemma StatusLabelsTranslate(s: CourseStatus, q: CourseStatus)
    ensures StatusLabel(CourseStatusName(s)) != CourseStatusName(q)
    ensures StatusLabel(CourseStatusName(s)) == StatusLabel(CourseStatusName(q)) ==> s == q
  {
  }

  /** The activity types the script knows. */
  const KnownActivityTypes := {"enrollment", "task_completion", "course_completion"}

  const FallbackIcon := "fa-info-circle"
  const FallbackVerb := "amalga o'tdi"

  /** `getActivityIcon(type)`. */
  function ActivityIcon(kind: string): (icon: string)
    ensures kind !in KnownActivityTypes ==> icon == FallbackIcon
    ensures kind == "enrollment" ==> icon == "fa-user-plus"
    ensures kind == "task_completion" ==> icon == "fa-check-circle"
    ensures kind == "course_completion" ==> icon == "fa-graduation-cap"
  {
    match kind
    case "enrollment" => "fa-user-plus"
    case "task_completion" => "fa-check-circle"
    case "course_completion" => "fa-graduation-cap"
    case _ => FallbackIcon
  }

  /** `getActivityLabel(type)`: the verb after the student's name. */
  function ActivityVerb(kind: string): (verb: string)
    ensures kind !in KnownActivityTypes ==> verb == FallbackVerb
    ensures kind == "enrollment" ==> verb == "yozildi"
    ensures kind == "task_completion" ==> verb == "bajarildi"
    ensures kind == "course_completion" ==> verb == "tugatdi"
  {
    match kind
    case "enrollment" => "yozildi"
    case "task_completion" => "bajarildi"
    case "course_completion" => "tugatdi"
    case _ => FallbackVerb
  }

  /** The icon and the verb tell the known types apart, and a known type never
      gets a fallback: the pair shown determines the type. */
  lemma ActivityPresentationDeterminesType(a: string, b: string)
    requires a in KnownActivityTypes
    ensures ActivityIcon(a) != FallbackIcon && ActivityVerb(a) != FallbackVerb
    ensures ActivityIcon(a) == ActivityIcon(b) ==> a == b
    ensures ActivityVerb(a) == ActivityVerb(b) ==> a == b
  {
  }

  // ---------------------------------------------------------------------------

  /** The modal dialogs a quick action may open. */
  datatype Modal = CreateCourse | Analytics | Library

  /** `handleQuickAction(action)`: three actions open a modal, `manage-tasks`
      goes to the task page, any other action is only logged. The modal
      opened is returned; the page is left alone unless it navigates. */
  method HandleQuickAction(w: Window, action: string) returns (modal: Option<Modal>)
    modifies w
    ensures modal.Some? <==> action in {"create-course", "view-analytics", "library"}
    ensures action == "create-course" ==> modal == Some(CreateCourse)
    ensures action == "view-analytics" ==> modal == Some(Analytics)
    ensures action == "library" ==> modal == Some(Library)
    ensures action == "manage-tasks" ==> w.navigation == Some(DashboardView.TasksPage)
    ensures action != "manage-tasks" ==> w.navigation == old(w.navigation)
    ensures w.localStorage == old(w.localStorage) && w.pathname == old(w.pathname)
    ensures w.accessDeniedShown == old(w.accessDeniedShown)
  {
    modal := None;
    match action {
      case "create-course" => modal := Some(CreateCourse);
      case "manage-tasks" => w.navigation := Some(DashboardView.TasksPage);
      case "view-analytics" => modal := Some(Analytics);
      case "library" => modal := Some(Library);
      case _ =>
    }
  }
}
